=== FILE: README.md ===
# RPA product pipeline — a Dafny model

This project models the deterministic core of a sequential RPA
(robotic process automation) pipeline. The pipeline has six stages:

1. Fetch the Fake Store product catalogue and keep the records that pass validation.
2. Insert the products into a SQLite table, keeping the first row seen for each id.
3. Lay out an Excel report.
4. Upload the files to OneDrive: a single request for small files, a chunked session for large ones.
5. Submit a web form that carries the report.
6. Write an evidence log of what happened.

The model also covers the launcher that runs a chosen subset of the stages, the
logger's message format and secret masking, and the local upload server that
accepts the report.

Each source module is one Dafny module. Everything that touches the world
becomes an input that says what the world answered, and the model computes
the rest. This covers HTTP responses, the clock, the disk, the browser and
SQLite. Small shared modules hold the Python built-ins the core relies on:
- `Text`: `strip`, `lower`, `split`, `join`, substring search and `Path.name`;
- `Numbers`: `int()` and `float()` parsing, and integer-to-text;
- `Values`: JSON-like values, truthiness, `str()` and the numeric conversions;
- `Clock`: `strftime` formats;
- `Collections`: order-preserving filter-map, and sorting of a finite set;
- `Pipeline`: a generic "run stages until one raises".

## Model

| member | source | states |
|---|---|---|
| Settings.ProductsEndpointDeterminesBase | PRUEBA-RPA-main/config/settings.py:32-33 | The products endpoint is the catalogue base URL followed by "/products", so two environments give the same endpoint exactly when they give the same base URL. With FAKE_STORE_API_URL unset the endpoint is https://fakestoreapi.com/products. |
| Settings.DriveBaseUrl | PRUEBA-RPA-main/config/settings.py:95-102 | A set target user id gives GRAPH_URL/users/{id}/drive; otherwise a set e-mail gives GRAPH_URL/users/{email}/drive; with neither the URL is GRAPH_URL/me/drive. |
| Settings.DriveBaseUrlChoice | PRUEBA-RPA-main/config/settings.py:98-102 | The /me/drive form is chosen exactly when no target user is set. When the id is set, changing the e-mail does not change the URL. |
| Settings.OneDriveNeedsAllCredentials | PRUEBA-RPA-main/config/settings.py:104-107 | `is_configured` holds exactly when AZURE_CLIENT_ID, AZURE_CLIENT_SECRET and AZURE_TENANT_ID (read at lines 71-73) are all present and non-empty. |
| Settings.WebConfiguredUnlessEmptied | PRUEBA-RPA-main/config/settings.py:145-148 | Web automation counts as configured unless FORM_URL is explicitly set to the empty string. The default URL at line 113 is non-empty. |
| Settings.ValidateConfiguration | PRUEBA-RPA-main/config/settings.py:294-307 | The status always reports api, database and directories as true and onedrive and web_automation as false. |
| Settings.ValidateConfigurationIgnoresEnv | PRUEBA-RPA-main/config/settings.py:294-307 | The status is the same for every environment. It reports onedrive as false even when all three credentials are configured. |
| Settings.ChunkBelowMaximum | PRUEBA-RPA-main/config/settings.py:92-93 | CHUNK_SIZE is 4 MiB and MAX_FILE_SIZE is 250 MiB, so every file small enough for one request is also below the maximum. |
| Logger.FormatMessage | PRUEBA-RPA-main/utils/logger.py:103-111 | The message always comes first. Absent, empty or falsy extra data leaves it unchanged; otherwise a space, a vertical bar and a space follow it, then the extra data. |
| Logger.FormatMessageFieldsCompose | PRUEBA-RPA-main/utils/logger.py:106-108 | Formatting with the fields of a and then b equals formatting with a, then formatting that result with b. |
| Logger.FieldsCompose | PRUEBA-RPA-main/utils/logger.py:106-108 | The same composition, for two non-empty dicts. |
| Logger.FieldTextsConcat | PRUEBA-RPA-main/utils/logger.py:107 | The "k=v" texts of a + b are the texts of a followed by the texts of b. |
| Logger.LogStep | PRUEBA-RPA-main/utils/logger.py:113-126 | The message starts with the icon and "PASO n: name - status". ERROR/FAILED/FALLIDO log exactly at error level and WARNING/ADVERTENCIA exactly at warning level, both compared on the upper-cased status. Every other status logs info. |
| Logger.LogStepIgnoresCase | PRUEBA-RPA-main/utils/logger.py:117-124 | The level and the icon do not depend on how the status is capitalised. |
| Logger.LogApiCall | PRUEBA-RPA-main/utils/logger.py:128-142 | A status in [200, 300) logs "API CALL SUCCESS" at info. Any other non-zero status logs at error. None or 0 logs a plain info line. |
| Logger.LogFileOperation | PRUEBA-RPA-main/utils/logger.py:155-167 | Success logs "FILE OPERATION SUCCESS: op" at info; failure logs "FILE OPERATION FAILED: op" at error. |
| Logger.MaskEntries | PRUEBA-RPA-main/utils/logger.py:197-204 | The keys and their order are kept. A value becomes "***MASKED***" exactly when its key, lower-cased, contains a lower-cased sensitive name; otherwise it is unchanged. |
| Logger.MaskSensitiveData | PRUEBA-RPA-main/utils/logger.py:189-206 | Data that is not a dict comes back unchanged. A dict keeps its keys in order. A value becomes "***MASKED***" exactly when its key is sensitive under the given names, or under the nine default names when no list is given. |
| Logger.MaskDefaultKeys | PRUEBA-RPA-main/utils/logger.py:189-206 | Passing no key list masks exactly as passing the nine default names does. |
| Logger.MaskEntriesIdempotent | PRUEBA-RPA-main/utils/logger.py:198-204 | Masking entries twice gives the same result as masking them once. |
| Logger.MaskSensitiveDataIdempotent | PRUEBA-RPA-main/utils/logger.py:189-206 | `mask_sensitive_data` is idempotent for every input and key list. |
| Logger.MaskExample | PRUEBA-RPA-main/utils/logger.py:191-204 | With the default names, {"Access_Token": "abc", "id": 3} becomes {"Access_Token": "***MASKED***", "id": 3}. |
| Logger.TokenKeyIsSensitive | PRUEBA-RPA-main/utils/logger.py:192-200 | "Access_Token" is a sensitive key under the default names: the comparison ignores case. |
| Logger.IdKeyIsNotSensitive | PRUEBA-RPA-main/utils/logger.py:192-200 | "id" is not a sensitive key under the default names. |
| Clock.DateTextRoundTrip | PRUEBA-RPA-main/api_consumer.py:113 | A date written with '%Y-%m-%d' reads back as the same year, month and day. |
| Clock.DateTextSplits | PRUEBA-RPA-main/api_consumer.py:113 | A '%Y-%m-%d' text splits on '-' into exactly the year, the padded month and the padded day. |
| Clock.DateTextNoSlash | PRUEBA-RPA-main/api_consumer.py:113-114 | A date text holds no '/', so a file name built from it names a single path component. |
| Clock.FileStampNoSlash | PRUEBA-RPA-main/modules/evidence_manager.py:130-132 | The '%Y-%m-%d_%H-%M-%S' stamp in the evidence file's name holds no '/'. |
| Clock.PadValue | PRUEBA-RPA-main/api_consumer.py:113 | Zero-padding a field to width w keeps it a digit string with the same value. Its length is the larger of w and the plain digit count. |
| Values.Truncate | PRUEBA-RPA-main/api_consumer.py:176 | `int()` of a float truncates toward zero: the result lies within one of x, on x's side of zero. |
| Values.ConversionsOfNumbers | PRUEBA-RPA-main/api_consumer.py:176-178 | `int(str(i)) == i`. `int` and `float` accept ints and floats. Both raise TypeError on None. |
| Values.IntOfIntText | PRUEBA-RPA-main/api_consumer.py:176 | An integer's text converts back to the integer. |
| ApiConsumer.Decide | PRUEBA-RPA-main/api_consumer.py:174-193 | A record with all fields present is kept exactly when id and price convert, the price is > 0 and the stripped title has at least 3 characters. A conversion failure is reported with the id's error first. A price <= 0 is reported as such. |
| ApiConsumer.ProcessProduct | PRUEBA-RPA-main/api_consumer.py:165-197 | A kept record has all five required fields, and its fecha_insercion is the clock reading. |
| ApiConsumer.ProcessProductKept | PRUEBA-RPA-main/api_consumer.py:175-182 | A kept product's id and price are `int()` and `float()` of the raw values. Title, category and description are the whitespace-stripped `str()` of the raw values. The product is valid. |
| ApiConsumer.ProcessProductVerdicts | PRUEBA-RPA-main/api_consumer.py:168-197 | Each verdict holds exactly under its condition: missing fields, kept, a conversion failure, or a price <= 0. |
| ApiConsumer.KeepIsVerdict | PRUEBA-RPA-main/api_consumer.py:165-193 | The per-record keep function yields a product exactly when the verdict is Kept, and it yields that product. |
| ApiConsumer.KeptProducts | PRUEBA-RPA-main/api_consumer.py:163-200 | The filter never produces more products than it was given records. |
| ApiConsumer.KeptProductsAppend | PRUEBA-RPA-main/api_consumer.py:165-197 | Filtering a + b gives the filter of a followed by the filter of b. A record's fate does not depend on the others. |
| ApiConsumer.KeptProductsPositions | PRUEBA-RPA-main/api_consumer.py:163-200 | The output is an order-preserving subsequence of the input: each product comes from a strictly increasing input position. Every acceptable record is among those positions. |
| ApiConsumer.KeptProductsValid | PRUEBA-RPA-main/api_consumer.py:184-193 | Every output product has a positive price and a stripped title of at least 3 characters, stamped now. Every acceptable input record's product is in the output. |
| ApiConsumer.ProcessProducts | PRUEBA-RPA-main/api_consumer.py:153-200 | The loop computes exactly the filter. |
| ApiConsumer.BackupDocument | PRUEBA-RPA-main/api_consumer.py:122-127 | The backup holds the unfiltered raw list, total_products is its length, and source_api is the products endpoint. |
| ApiConsumer.BackupPath | PRUEBA-RPA-main/api_consumer.py:112-119 | The backup file name is "Productos_" + YYYY-MM-DD + ".json". |
| ApiConsumer.BackupNameNoSlash | PRUEBA-RPA-main/api_consumer.py:113-114 | That file name contains no '/'. |
| ApiConsumer.FetchOnce | PRUEBA-RPA-main/api_consumer.py:40-83 | One attempt succeeds exactly on a delivered non-4xx/5xx response whose JSON is a list and whose backup is written. A delivered object or scalar fails with "not a list". On success the products are the filter of the list, the backup is the list's document, and the path is the backup path. |
| ApiConsumer.FetchedIsFilteredBackup | PRUEBA-RPA-main/api_consumer.py:73-76 | The returned products are the filter of the backed-up raw list. There are no more of them than total_products. |
| ApiConsumer.RetryFrom | PRUEBA-RPA-main/api_consumer.py:30 | Under `stop_after_attempt(3)` the calls go on while they fail. The first success, or else the last failure, decides. Every call before the deciding one failed, and a failure is reached only once all attempts are used. |
| ApiConsumer.FetchWait | PRUEBA-RPA-main/api_consumer.py:30 | Every wait between attempts lies between 4 and 10 seconds. |
| ApiConsumer.FetchWaitsAreFourSeconds | PRUEBA-RPA-main/api_consumer.py:30 | With three attempts, both possible waits are the 4-second minimum. |
| ApiConsumer.GetProducts | PRUEBA-RPA-main/api_consumer.py:30-99 | There are between 1 and 3 calls, with one wait fewer than calls. Every call before the last failed. Success returns the last call's result. Failure means all 3 calls ran and raises a RetryError that wraps the third call's error. |
| ApiConsumer.GetProductsSucceeds | PRUEBA-RPA-main/api_consumer.py:30 | The fetch succeeds exactly when one of the three attempts would. It stops at the first success. |
| ApiConsumer.GetProductsFirstCallSucceeds | PRUEBA-RPA-main/api_consumer.py:30-83 | A first response that is a 200 list with a writable backup is used after one call and no wait. |
| ApiConsumer.GetProductById | PRUEBA-RPA-main/api_consumer.py:202-225 | A product is returned exactly when the response is delivered without an HTTP error and is a single record that passes validation. The product is that record's filter result. Every other case is None. |
| ApiConsumer.GetProductByIdIsFilterOfOne | PRUEBA-RPA-main/api_consumer.py:221 | The lookup of one delivered record is the first element of the one-record filter, or None when the filter drops it. |
| Store.PrepareFrom | PRUEBA-RPA-main/modules/database_manager.py:101-113 | A record is skipped exactly when `int()` of the id or `float()` of the price fails, with the id's error reported first. An id beyond SQLite's signed 64-bit range aborts the batch. Otherwise the row carries the converted values. |
| Store.PrepareCases | PRUEBA-RPA-main/modules/database_manager.py:98-125 | A record without "id" aborts the batch. A failed conversion skips the record. An out-of-range id aborts with an overflow. A ready record holds the converted id and price, the stripped title and the stamp. |
| Store.PrepareDefaults | PRUEBA-RPA-main/modules/database_manager.py:102-111 | Price and title are not re-validated: a record with only an id is stored with "", 0.0, "", "" and the current time. |
| Store.StoredStamp | PRUEBA-RPA-main/modules/database_manager.py:106-111 | A datetime fecha is formatted '%Y-%m-%d %H:%M:%S' and a non-empty string is kept. An empty string or None becomes the current time. |
| Store.Apply | PRUEBA-RPA-main/modules/database_manager.py:98-116 | A batch that completes raises the inserted count by at most its length. |
| Store.InsertProducts | PRUEBA-RPA-main/modules/database_manager.py:75-135 | An empty batch returns 0 and leaves the table unchanged. A successful batch reports at most len(products) insertions. |
| Store.ApplyFails | PRUEBA-RPA-main/modules/database_manager.py:118-125 | The batch fails exactly when some record aborts. It fails with the first aborting record's error. |
| Store.ApplyKeys | PRUEBA-RPA-main/modules/database_manager.py:113-116 | After the batch, the stored ids are the old ones plus the ids of every ready record. |
| Store.ApplyKeepsRows | PRUEBA-RPA-main/modules/database_manager.py:87 | INSERT OR IGNORE never changes a row that was already stored. |
| Store.ApplyCounts | PRUEBA-RPA-main/modules/database_manager.py:113-116 | The count grows by exactly the number of ids the table gains. |
| Store.StepAdds | PRUEBA-RPA-main/modules/database_manager.py:113-116 | One INSERT OR IGNORE adds at most its own id, keeps every stored row, and counts one exactly when a key is new. |
| Store.ApplyFirstWins | PRUEBA-RPA-main/modules/database_manager.py:87 | Within a batch, the first ready record with a new id is the row stored under that id. |
| Store.ApplyIgnoresStored | PRUEBA-RPA-main/modules/database_manager.py:87 | A batch whose ids are all stored already changes nothing and counts 0. |
| Store.ApplySkip | PRUEBA-RPA-main/modules/database_manager.py:118-120 | A skipped record has no effect: the batch with it equals the batch without it. |
| Store.InsertRollsBack | PRUEBA-RPA-main/modules/database_manager.py:121-145 | The call succeeds exactly when no record aborts. A record without an "id" key makes the whole call fail, so nothing of the batch is kept. |
| Store.InsertAddsNewIds | PRUEBA-RPA-main/modules/database_manager.py:113-116 | Stored rows are unchanged. The new key set is the old one plus the batch's ready ids, and the returned count is the number of new keys. |
| Store.InsertFirstWins | PRUEBA-RPA-main/modules/database_manager.py:87 | A new id stores the row of its first occurrence in the batch. |
| Store.InsertIdempotent | PRUEBA-RPA-main/modules/database_manager.py:87-116 | Inserting the same batch again returns 0 and leaves the table as it was. |
| Store.InsertSkipsBadRecord | PRUEBA-RPA-main/modules/database_manager.py:118-120 | A record whose conversion fails is dropped on its own: the other records fare as if it were absent. |
| Store.SortedIds | PRUEBA-RPA-main/modules/database_manager.py:150 | The stored ids, each exactly once, in strictly ascending order. |
| Store.AllProducts | PRUEBA-RPA-main/modules/database_manager.py:147-165 | `get_all_products` returns one entry per stored id. |
| Store.AllProductsSorted | PRUEBA-RPA-main/modules/database_manager.py:150-164 | Each entry is a stored (id, row) pair, and the ids strictly ascend. |
| Store.AllProductsComplete | PRUEBA-RPA-main/modules/database_manager.py:150-164 | Every stored row appears in the listing. |
| Store.CategoryNames | PRUEBA-RPA-main/modules/database_manager.py:195-196 | The distinct categories, each once, in ascending order. |
| Store.GetStatistics | PRUEBA-RPA-main/modules/database_manager.py:170-211 | total_products is the number of stored rows. There is one category row per distinct category. |
| Store.StatisticsEmpty | PRUEBA-RPA-main/modules/database_manager.py:173-184 | An empty table gives total 0, average 0.0 and no category rows. |
| Store.StatisticsCategories | PRUEBA-RPA-main/modules/database_manager.py:187-209 | Category row i is labelled with the i-th category in ascending order. Its count is the number of stored ids in that category, and its mean, minimum and maximum are over that group's prices. |
| Store.StatisticsCoverCategories | PRUEBA-RPA-main/modules/database_manager.py:187-209 | Every stored category has its row. |
| Store.CategoryStatBounds | PRUEBA-RPA-main/modules/database_manager.py:189-193 | A category's count is positive. Its min and max are prices of its rows and bound all of them, with min <= avg <= max. |
| Store.StatisticsAverageBetween | PRUEBA-RPA-main/modules/database_manager.py:180-184 | When every price lies in [lo, hi], so does the overall average. |
| Store.StatisticsCountsSum | PRUEBA-RPA-main/modules/database_manager.py:187-209 | The category counts sum to total_products. |
| Store.MinOf | PRUEBA-RPA-main/modules/database_manager.py:192 | MIN(price) is a price of the group and no larger than any of them. |
| Store.MaxOf | PRUEBA-RPA-main/modules/database_manager.py:193 | MAX(price) is a price of the group and no smaller than any of them. |
| Store.MeanBounds | PRUEBA-RPA-main/modules/database_manager.py:191-193 | The average of a non-empty group lies between its minimum and maximum. |
| Report.ReportPath | PRUEBA-RPA-main/modules/excel_generator.py:42-44 | The report file's name is "Reporte_" + YYYY-MM-DD + ".xlsx". |
| Report.ReportNameDate | PRUEBA-RPA-main/modules/excel_generator.py:42-43 | The text between the prefix and the extension is the date, and it reads back as today's year, month and day. |
| Report.ShortDescription | PRUEBA-RPA-main/modules/excel_generator.py:106 | The shown description is at most 103 characters and begins with the first min(len, 100) characters of the original. |
| Report.ShortDescriptionCases | PRUEBA-RPA-main/modules/excel_generator.py:106 | A description of at most 100 characters is unchanged. A longer one becomes its first 100 characters plus "...". The only long one that comes back unchanged is a 103-character text already ending in "...". |
| Report.ShortDescriptionIdempotent | PRUEBA-RPA-main/modules/excel_generator.py:106 | Shortening twice gives the same result as shortening once. |
| Report.ProductsDomain | PRUEBA-RPA-main/modules/excel_generator.py:85-108 | The products sheet fills exactly rows 1..len+1 of columns 1..6. |
| Report.ProductsHeader | PRUEBA-RPA-main/modules/excel_generator.py:85-86 | Row 1 holds the six headers ID, Título, Precio, Categoría, Descripción, Fecha Inserción. |
| Report.ProductsInOrder | PRUEBA-RPA-main/modules/excel_generator.py:100-108 | Row r holds product r-2, in input order. |
| Report.ProductRowAt | PRUEBA-RPA-main/modules/excel_generator.py:101-108 | Product i's row is its id, title, price, category, shortened description and fecha, in that column order. |
| Report.PriceFormatOnPrices | PRUEBA-RPA-main/modules/excel_generator.py:115-118 | The price format sits on exactly the numeric cells, which are column 3 of rows 2..len+1. |
| Report.CategoryChart | PRUEBA-RPA-main/modules/excel_generator.py:172-174 | A chart is added exactly when charts are enabled and there is at least one category. |
| Report.SummaryDomain | PRUEBA-RPA-main/modules/excel_generator.py:125-177 | The summary's filled cells are exactly the title, the totals, the category header and rows, and the footer. |
| Report.FooterBelowTable | PRUEBA-RPA-main/modules/excel_generator.py:156-177 | The footer row len+12 lies below the last category row len+8, so it never overwrites the table. |
| Report.SummaryCategoryRows | PRUEBA-RPA-main/modules/excel_generator.py:147-161 | Row 8 holds the five category headers. Row 9+i holds category i's name, count, average, minimum and maximum. |
| Report.SummaryTotalsAndFooter | PRUEBA-RPA-main/modules/excel_generator.py:135-177 | A4/B4 hold the total label and value, A5/B5 the average label and value, and the footer holds the generation stamp. |
| Report.SummaryDefaults | PRUEBA-RPA-main/modules/excel_generator.py:136-155 | A missing total or average is written as 0, and missing category stats mean no rows. Statistics from the store are copied as they are. |
| Report.CurrencyOnNumbers | PRUEBA-RPA-main/modules/excel_generator.py:139-165 | The currency format sits only on numeric cells, and every float cell of the summary carries it. |
| Report.ChartReferences | PRUEBA-RPA-main/modules/excel_generator.py:191-196 | The data reference is column 2 from the header row 8 down to row 8+len, so it covers the "Cantidad" title and every count. The category reference is column 1, rows 9..8+len, one per category name. |
| Report.GenerateReport | PRUEBA-RPA-main/modules/excel_generator.py:27-77 | The call fails exactly for a language without sheet names or a failed save. Otherwise the workbook has the dated name, the product cells, the summary cells, and a chart exactly when enabled with categories. |
| Report.ReportOfTable | PRUEBA-RPA-main/modules/excel_generator.py:53-54 | Built from the store, the report has one product row per stored id and one category row per category. The counts add up to the total shown in B4. |
| OneDrive.Authenticate | PRUEBA-RPA-main/modules/onedrive_client.py:29-74 | Authentication succeeds exactly when OneDrive is configured, the reply carries an access token, and the token is delegated or a target user is set. On success the token is stored. An unconfigured client or a raised request leaves the client unchanged. |
| OneDrive.RefusedTokenIsKept | PRUEBA-RPA-main/modules/onedrive_client.py:52-64 | An app-only token without a target user is refused but still stored, so the next upload skips authentication and counts as authorized. |
| OneDrive.AuthorizedClientIsReused | PRUEBA-RPA-main/modules/onedrive_client.py:89-91 | A client that holds a token after a successful authorization is authorized again as it is, with no new token request. |
| OneDrive.RouteFor | PRUEBA-RPA-main/modules/onedrive_client.py:116-124 | A size above MAX_FILE_SIZE is refused. A size below CHUNK_SIZE uses one PUT. Everything else, including exactly CHUNK_SIZE, is chunked. |
| OneDrive.ChunksCover | PRUEBA-RPA-main/modules/onedrive_client.py:191-212 | The chunk ranges start at byte 0, end at size-1, follow each other without gap or overlap, and carry the file size as total. Each length is between 1 and CHUNK_SIZE and matches its range, and every chunk but the last is full. |
| OneDrive.ChunksFromTile | PRUEBA-RPA-main/modules/onedrive_client.py:191-212 | The same tiling, for the chunks from any byte offset on. |
| OneDrive.SendFromPrefix | PRUEBA-RPA-main/modules/onedrive_client.py:205-212 | The loop sends a prefix of the chunks in order. Every chunk before the last one sent was accepted. It succeeds exactly when all were sent and accepted; otherwise the last one sent was refused. |
| OneDrive.UploadChunks | PRUEBA-RPA-main/modules/onedrive_client.py:187-220 | The loop computes exactly that send. |
| OneDrive.NormalizeDir | PRUEBA-RPA-main/modules/onedrive_client.py:235 | The normalized path holds no backslash and is no longer than the input. |
| OneDrive.ParentOfSplit | PRUEBA-RPA-main/modules/onedrive_client.py:255 | The parent computed from the last slash equals '/'.join(path.split('/')[:-1]). |
| OneDrive.VisitLevel | PRUEBA-RPA-main/modules/onedrive_client.py:246-278 | Each level is checked. A creation request is made exactly when the check answered 404, under the level's parent, with the level's name. |
| OneDrive.Walk | PRUEBA-RPA-main/modules/onedrive_client.py:242-284 | The walk visits levels in order and goes on after every status, 409 and failed creations included. It stops early only right after an exception, and it never raises. |
| OneDrive.EnsureDirectory | PRUEBA-RPA-main/modules/onedrive_client.py:234-237 | A path that normalizes to nothing makes no request; any other path visits at least one level. |
| OneDrive.WalkAt | PRUEBA-RPA-main/modules/onedrive_client.py:242 | Visit j of the walk is the visit of level j: no level is skipped. |
| OneDrive.LevelsOfProper | PRUEBA-RPA-main/modules/onedrive_client.py:244-261 | Level j is the path of the first j+1 segments. It is created under the path of the first j segments, or under the root for j = 0. |
| OneDrive.WalkProper | PRUEBA-RPA-main/modules/onedrive_client.py:242-278 | The walk checks cumulative prefixes one segment at a time and creates a missing level under the level before it. |
| OneDrive.EnsureDirectoryPrefixes | PRUEBA-RPA-main/modules/onedrive_client.py:234-278 | For a normalized path without empty segments, visit j checks the first j+1 segments and creates under the first j. |
| OneDrive.ParentOfChild | PRUEBA-RPA-main/modules/onedrive_client.py:255 | The parent of dir + "/" + name is dir. |
| OneDrive.UploadRefusals | PRUEBA-RPA-main/modules/onedrive_client.py:88-118 | Without authorization, or with the local file missing, nothing is requested and the result is False. A file over the maximum is refused after the folder walk, with no content sent. Success needs all three checks to pass. |
| OneDrive.UploadRouting | PRUEBA-RPA-main/modules/onedrive_client.py:100-152 | An authorized upload walks its type's folder and targets base + "/" + remote. Below CHUNK_SIZE it sends one PUT and succeeds exactly on 200 or 201. Otherwise it opens an upload session, then sends a prefix of the chunks in order. |
| OneDrive.ChunkedSuccess | PRUEBA-RPA-main/modules/onedrive_client.py:158-220 | A chunked upload succeeds only when the session answered 200 with an upload URL and every chunk was sent in order and accepted. Those chunks tile the whole file. |
| OneDrive.HelperTargets | PRUEBA-RPA-main/modules/onedrive_client.py:286-299 | The three helpers pass the bare file name, which has no '/'. They use the json, excel and evidence folders respectively. |
| Evidence.CaptureProcessEvidence | PRUEBA-RPA-main/modules/evidence_manager.py:51-58 | Exactly one event is appended with the given stage and success and a seconds-precision ISO timestamp. None metadata becomes {}. Earlier events and all file records are unchanged. |
| Evidence.Stat | PRUEBA-RPA-main/modules/evidence_manager.py:69-75 | The file exists exactly when it was found. The size is None exactly when the file does not exist, and otherwise it is the found size. |
| Evidence.CaptureFileOperation | PRUEBA-RPA-main/modules/evidence_manager.py:62-86 | Exactly one file record is appended with the given operation, path, success and extra (None becomes {}). file_size is None exactly when exists is false. Earlier records and all events are unchanged. |
| Evidence.RegisterScreenshot | PRUEBA-RPA-main/modules/evidence_manager.py:92-94 | A file operation with operation "SCREENSHOT": one record appended, nothing else changed. |
| Evidence.RegisterDiscovered | PRUEBA-RPA-main/modules/evidence_manager.py:110-113 | Registration only appends: existing file records keep their order and contents, and events are untouched. |
| Evidence.RegisterDiscoveredAddsShots | PRUEBA-RPA-main/modules/evidence_manager.py:110-113 | Every appended record is a successful SCREENSHOT record of a discovered path, with empty extra. |
| Evidence.RegisterDiscoveredFresh | PRUEBA-RPA-main/modules/evidence_manager.py:111-112 | Every appended record is about a path that no earlier record mentions. |
| Evidence.RegisterDiscoveredCovers | PRUEBA-RPA-main/modules/evidence_manager.py:110-113 | Every discovered path is recorded afterwards. |
| Evidence.RegisteredOnce | PRUEBA-RPA-main/modules/evidence_manager.py:110-113 | A discovered path not yet recorded gets exactly one new SCREENSHOT record. |
| Evidence.NotRegisteredTwice | PRUEBA-RPA-main/modules/evidence_manager.py:111-112 | A path already recorded gets no new record. |
| Evidence.RegisterRecordedIsNoop | PRUEBA-RPA-main/modules/evidence_manager.py:110-113 | When every discovered path is recorded already, the manager is unchanged. |
| Evidence.RegisterDiscoveredIdempotent | PRUEBA-RPA-main/modules/evidence_manager.py:110-113 | Registering the same discoveries again, at any time, changes nothing. |
| Evidence.EvidencePath | PRUEBA-RPA-main/modules/evidence_manager.py:130-132 | The document's file name is "evidencia_" + the '%Y-%m-%d_%H-%M-%S' stamp + ".json". |
| Evidence.SaveEvidenceLog | PRUEBA-RPA-main/modules/evidence_manager.py:103-141 | The save appends registrations only, and every discovered .png is recorded. A path and a document exist exactly when the write succeeds; otherwise the result is "". The document has version 1, the start and finish timestamps, the duration, and the manager's events and files in order. It also has the given process_stats, or {} when that is None, and the logs directory as the hint. |
| Evidence.SaveTwiceRegistersOnce | PRUEBA-RPA-main/modules/evidence_manager.py:110-113 | A second save over the same discoveries leaves the manager as the first save left it. |
| Orchestrator.Step1 | PRUEBA-RPA-main/main.py:101-110 | Step 1 raises exactly when the fetch raises. Otherwise productos_procesados becomes the product count, the JSON path is appended to archivos_generados, and the products are handed on. |
| Orchestrator.Step2 | PRUEBA-RPA-main/main.py:112-119 | Step 2 raises exactly when the insert raises. Otherwise the statistics are unchanged and the last event is a successful DATABASE_INSERT carrying the inserted count. |
| Orchestrator.Step3 | PRUEBA-RPA-main/main.py:121-130 | Step 3 raises exactly when building the report raises. Otherwise the report path is appended to archivos_generados and handed on, and no process event is added. |
| Orchestrator.Step4 | PRUEBA-RPA-main/main.py:132-149 | Step 4 never raises and leaves the statistics alone. Disabled, it records a failed ONEDRIVE_UPLOAD with reason "disabled". If authentication fails, it records reason "auth_failed". Otherwise it records the upload's verdict with the file. |
| Orchestrator.Step4DisabledAsksNothing | PRUEBA-RPA-main/main.py:137-140 | With OneDrive disabled, the outcome does not depend on what authentication or upload would answer. |
| Orchestrator.Step4NoUploadWithoutAuth | PRUEBA-RPA-main/main.py:142-146 | After a failed authentication, the outcome does not depend on what the upload would answer. |
| Orchestrator.RouteOf | PRUEBA-RPA-main/main.py:155-190 | The duplicate route is taken exactly when a confirmation screenshot from today exists. Otherwise the settings route is taken when the form URL is configured, then the env route when WEB_FORM_ENABLED is true and WEB_FORM_URL is set, and otherwise the not-configured route. |
| Orchestrator.Step5 | PRUEBA-RPA-main/main.py:151-190 | Step 5 raises exactly on a failed submission through the settings route. Each route records its WEB_FORM event with its verdict and mode: skipped_duplicate, settings, env, or reason not_configured. |
| Orchestrator.Step5DuplicateSubmitsNothing | PRUEBA-RPA-main/main.py:158-166 | With today's confirmation present, the outcome does not depend on what either submitter would answer. |
| Orchestrator.Step6 | PRUEBA-RPA-main/main.py:192-199 | Step 6 never raises, keeps the statistics and events, and leaves every discovered screenshot recorded. |
| Orchestrator.Step | PRUEBA-RPA-main/main.py:207-213 | No step touches pasos_completados or evidencias_capturadas. Step 1 hands on the products and step 3 the report, and later steps keep both. |
| Orchestrator.StepRaises | PRUEBA-RPA-main/main.py:207-213 | A step whose inputs are ready raises exactly under its collaborators' answers, and when it returns, the next step's inputs are ready. |
| Orchestrator.StepsGoverned | PRUEBA-RPA-main/main.py:207-213 | The six steps, run in order from the start state, fail exactly as `Raises` says. |
| Orchestrator.Run | PRUEBA-RPA-main/main.py:201-205 | A failed environment check returns False without starting any step. |
| Orchestrator.RunOrder | PRUEBA-RPA-main/main.py:201-218 | The steps start in the order 1 to 6. A successful run started all six. A failed run after the environment check stopped at the first step that raised, and no earlier step raised. |
| Orchestrator.NoStepRaises | PRUEBA-RPA-main/main.py:207-213 | No step raises exactly when fetch, insert and report return and the settings route does not refuse the form. |
| Orchestrator.RunSucceeds | PRUEBA-RPA-main/main.py:201-218 | `run` returns True exactly when the environment is valid, fetch, insert and report return, and the settings route does not refuse the form. |
| Orchestrator.RunNeverCountsSteps | PRUEBA-RPA-main/main.py:57-61 | pasos_completados and evidencias_capturadas are 0 at the end of every run, because no step increments them. |
| Orchestrator.ExitCode | PRUEBA-RPA-main/main.py:232-235 | `main` returns 0 exactly when `run` returned True, and 1 otherwise. |
| Pipeline.RunListOk | PRUEBA-RPA-main/main.py:207-218 | For steps governed by a raise predicate, the run succeeds exactly when no step in the list raises. |
| Pipeline.RunListFacts | PRUEBA-RPA-main/main.py:207-218 | The started steps are a prefix of the list. Every started step except possibly the last returned, and a failed run's last step raised. |
| Pipeline.RunListKeeps | PRUEBA-RPA-main/main.py:207-218 | A property of the state that every step keeps holds at the end of the run. |
| Launcher.RemoveSpaces | PRUEBA-RPA-main/main_pix_rpa.py:32 | After normalising `--steps` no space remains, and a non-space character occurs in the result exactly when it occurs in the argument. |
| Launcher.StepOf | PRUEBA-RPA-main/main_pix_rpa.py:38-41 | A token names a step exactly when `int()` accepts it and its value lies in range(1, 7). |
| Launcher.CollectSteps | PRUEBA-RPA-main/main_pix_rpa.py:34-43 | The collecting loop keeps the list free of repeats and of numbers outside 1 to 6. A number is collected exactly when some token names it. |
| Launcher.Insert | PRUEBA-RPA-main/main_pix_rpa.py:44 | Inserting into the sorted list adds exactly one element and keeps all the others. |
| Launcher.InsertIncreasing | PRUEBA-RPA-main/main_pix_rpa.py:44 | Inserting a new number into a strictly increasing list keeps it strictly increasing. |
| Launcher.Sort | PRUEBA-RPA-main/main_pix_rpa.py:44 | `sorted` keeps the length and the elements. |
| Launcher.SortIncreasing | PRUEBA-RPA-main/main_pix_rpa.py:44 | `sorted` of a list without repeats is strictly increasing. |
| Launcher.ParseStepsMeaning | PRUEBA-RPA-main/main_pix_rpa.py:25-44 | `parse_steps` returns a strictly increasing list of steps 1 to 6, holding exactly the numbers that some token names. |
| Launcher.ParseStepsIgnoresSpaces | PRUEBA-RPA-main/main_pix_rpa.py:29-33 | Parsing an argument is parsing it with its spaces removed. An empty argument, or one of spaces alone, selects nothing. |
| Launcher.IncreasingUnique | PRUEBA-RPA-main/main_pix_rpa.py:44 | Two strictly increasing lists with the same elements are equal, so the result of `parse_steps` is fixed by its elements. |
| Launcher.ParseStepsIs | PRUEBA-RPA-main/main_pix_rpa.py:25-44 | Any strictly increasing list holding exactly the named steps is the result of `parse_steps`. |
| Launcher.ParseDigits | PRUEBA-RPA-main/main_pix_rpa.py:33-44 | An argument made only of digits (the "123" form) selects, in increasing order, exactly the steps 1 to 6 that its digits name. |
| Launcher.ParseStepsDigits | PRUEBA-RPA-main/main_pix_rpa.py:26-28 | "123" selects steps 1, 2 and 3. |
| Launcher.ParseStepsOutOfRange | PRUEBA-RPA-main/main_pix_rpa.py:40 | "7" selects nothing. |
| Launcher.StepOfTwoDigits | PRUEBA-RPA-main/main_pix_rpa.py:39-40 | A two-digit token without a leading zero never names a step. |
| Launcher.CommaTokens | PRUEBA-RPA-main/main_pix_rpa.py:33 | With a comma, the tokens are the comma-separated parts. |
| Launcher.NamedByPosition | PRUEBA-RPA-main/main_pix_rpa.py:35-41 | Being named by the token at some position is the same as being named by some token. |
| Launcher.ParseCommaList | PRUEBA-RPA-main/main_pix_rpa.py:33-44 | For a comma list, `parse_steps` is the increasing list of the steps the parts name. |
| Launcher.ParseStepsCommas | PRUEBA-RPA-main/main_pix_rpa.py:26-28 | "1,2,3" selects steps 1, 2 and 3. |
| Launcher.ParseStepsDropsNonSteps | PRUEBA-RPA-main/main_pix_rpa.py:38-43 | "12,3" selects step 3 alone: the token 12 is out of range. |
| Launcher.Launch | PRUEBA-RPA-main/main_pix_rpa.py:53-55 | A failed environment check fails the launch before any step starts. |
| Launcher.RunSelected | PRUEBA-RPA-main/main_pix_rpa.py:47-106 | The exit code is 0 exactly when the launch went through, and 1 otherwise. |
| Launcher.LauncherMain | PRUEBA-RPA-main/main_pix_rpa.py:109-120 | The launcher exits with 0 or 1. Without `--steps`, its exit code is that of `main.py`. |
| Launcher.EmptySelectionIsFullRun | PRUEBA-RPA-main/main_pix_rpa.py:61-75 | An empty selection runs the pipeline of `main.py`: same steps, same final state, same exit code. |
| Launcher.PerformPrepared | PRUEBA-RPA-main/main_pix_rpa.py:79-98 | When products or the report are already there, a selected step is exactly the pipeline's step. |
| Launcher.PerformsAgree | PRUEBA-RPA-main/main_pix_rpa.py:79-98 | Along the order 1 to 6, every launcher step equals the pipeline step and leaves what the next step needs. |
| Launcher.AllSelectedIsFullRun | PRUEBA-RPA-main/main_pix_rpa.py:78-106 | Selecting all six steps ends exactly as the full pipeline of `main.py` does. |
| Launcher.ReportBuiltOnDemand | PRUEBA-RPA-main/main_pix_rpa.py:89-96 | Step 4 or 5 without a report first builds it: the run ends as if step 3 had been selected just before. |
| Launcher.LaunchBuildsReport | PRUEBA-RPA-main/main_pix_rpa.py:89-96 | `--steps 4` (or 5) ends with the same verdict and state as `--steps 3,4` (or 3,5). |
| Launcher.StepTwoAloneFetchesQuietly | PRUEBA-RPA-main/main_pix_rpa.py:83-86 | Step 2 alone fetches through the API consumer directly: no statistics change, a failed fetch fails the run with the state untouched, and the run succeeds exactly when the fetch and the insert return. |
| WebAutomation.Delay | PRUEBA-RPA-main/modules/web_automation.py:46 | The backoff pause never exceeds `max_delay`, and is not negative when the delays and the jitter are not. |
| WebAutomation.RetryWithBackoff | PRUEBA-RPA-main/modules/web_automation.py:34-53 | The wrapper's loop computes the same result, number of calls and pauses as the decorator's recursive definition. |
| WebAutomation.RetryDecided | PRUEBA-RPA-main/modules/web_automation.py:40-48 | The first attempt that returns, or raises something other than a timeout, missing-element or stale-element error, decides the call. The call returns that value or raises that exception, after exactly that many calls, with the backoff delay of each earlier attempt slept between them. |
| WebAutomation.RetryExhausted | PRUEBA-RPA-main/modules/web_automation.py:40-51 | When every attempt fails in a retried way, the last exception is raised after `max_attempts` calls, with no pause after the final one. |
| WebAutomation.RetryCalls | PRUEBA-RPA-main/modules/web_automation.py:40-48 | At least one and at most `max_attempts` calls are made, with one pause between each two calls. |
| WebAutomation.RetryPausesBounded | PRUEBA-RPA-main/modules/web_automation.py:45-48 | Every pause slept is at most `max_delay`. |
| WebAutomation.RetryNoAttempts | PRUEBA-RPA-main/modules/web_automation.py:39-51 | With `max_attempts` of 0 or less, nothing is called and `raise None` is reached. |
| WebAutomation.RetryOfTotal | PRUEBA-RPA-main/modules/web_automation.py:41-42 | A first call that returns is the result: one call, no pause. |
| WebAutomation.Dispatch | PRUEBA-RPA-main/modules/web_automation.py:222-231 | FORM_TYPE, lowercased, selects the Google, Jotform or Typeform handler exactly when it is "google_forms", "jotform" or "typeform"; any other value selects the generic handler. |
| WebAutomation.DispatchIgnoresCase | PRUEBA-RPA-main/modules/web_automation.py:222 | FORM_TYPE in capitals or in lower case selects the same handler. |
| WebAutomation.Attachment | PRUEBA-RPA-main/modules/web_automation.py:195-203 | The latest screenshot is attached exactly when FILE_UPLOAD_SOURCE is "screenshot" and a screenshot exists; otherwise the report is attached. |
| WebAutomation.GoogleHandler | PRUEBA-RPA-main/modules/web_automation.py:252-390 | The Google handler clicks only with AUTO_SUBMIT on and a submit button found, and succeeds only when the form loaded and a submit button was found. |
| WebAutomation.GoogleHandlerRules | PRUEBA-RPA-main/modules/web_automation.py:252-390 | The Google handler succeeds exactly when the form loads, the file is attached or not required, a submit button is found, and, with AUTO_SUBMIT on, the click goes through. A confirmation text makes no difference. |
| WebAutomation.GoogleNeverRetries | PRUEBA-RPA-main/modules/web_automation.py:251-252 | The retry decorator on the Google handler never retries, because the handler catches every exception. It makes one call and no pause. |
| WebAutomation.OtherHandler | PRUEBA-RPA-main/modules/web_automation.py:392-581 | The Jotform, Typeform and generic handlers stop for review exactly when they reach the submit point with AUTO_SUBMIT off. They succeed exactly when they reach it and, with AUTO_SUBMIT on, the submission goes through. |
| WebAutomation.SubmitForm | PRUEBA-RPA-main/modules/web_automation.py:172-249 | A submission succeeds exactly when the form is configured, the Excel file exists, the browser starts and navigates, and the handler FORM_TYPE selects succeeds. Once the form is configured and the file exists, the attachment is the chosen upload source with the Excel file and the latest screenshot. Screenshots reach the disk only when the browser can save them, and a started browser always requests at least one. |
| WebAutomation.SubmitRefusesEarly | PRUEBA-RPA-main/modules/web_automation.py:183-193 | Without configuration or without the report on disk, the answer is False, no browser starts and no screenshot is requested. |
| WebAutomation.ConfirmationMeansSuccess | PRUEBA-RPA-main/modules/web_automation.py:233-241 | The confirmation screenshot is requested exactly when the submission succeeds. It is on disk exactly when, in addition, the browser could save it. |
| WebAutomation.ReviewBeforeConfirmation | PRUEBA-RPA-main/modules/web_automation.py:213-235 | After a success the confirmation screenshot comes last. The review screenshot comes right before it exactly when AUTO_SUBMIT is off. |
| WebAutomation.SubmitGoogle | PRUEBA-RPA-main/modules/web_automation.py:224-225 | On the Google route, the verdict is the Google handler's, from its single call. |
| FormServer.Extension | PRUEBA-RPA-main/web/form_server.py:89-90 | A name has an extension exactly when it holds a dot. The extension is the dot-free text after the last dot. |
| FormServer.AllowedFileNeedsDot | PRUEBA-RPA-main/web/form_server.py:89-90 | A name without a dot is never allowed. |
| FormServer.AllowedFileSplit | PRUEBA-RPA-main/web/form_server.py:89-90 | For stem, dot, dot-free extension, the extension is the part after the dot. The name is allowed exactly when that part, lowercased, is xlsx or xls, whatever dots the stem holds. |
| FormServer.AllowedFileIgnoresCase | PRUEBA-RPA-main/web/form_server.py:89-90 | A name in capitals is allowed exactly when the name itself is. |
| FormServer.AllowedFileCapitals | PRUEBA-RPA-main/web/form_server.py:89-90 | "R.XLSX" is allowed. |
| FormServer.AllowedFileLastExtension | PRUEBA-RPA-main/web/form_server.py:89-90 | "a.xlsx.exe" is refused: only the last extension counts. |
| FormServer.AllowedFileInnerDot | PRUEBA-RPA-main/web/form_server.py:89-90 | "a.tar.xls" has the extension "xls" alone and is allowed. |
| FormServer.Upload | PRUEBA-RPA-main/web/form_server.py:98-135 | A missing `file` field, then an empty name, then a disallowed extension are turned away, each exactly in its own case. The file is saved under its safe name exactly when the name is allowed. |
| FormServer.SuccessPageSaysSuccess | PRUEBA-RPA-main/web/form_server.py:77-86 | The success page always contains the word "success". |
| FormServer.UploadStatus | PRUEBA-RPA-main/web/form_server.py:98-135 | The reply is 200 exactly when the file has an allowed name, and then the page contains "success". Every rejection is 400. |
| FormServer.EmptyNameBeforeExtension | PRUEBA-RPA-main/web/form_server.py:111-127 | An empty name is reported as empty rather than as a bad extension, although it is not allowed either. |

## Left out

- ApiConsumer.ProcessProduct, Store.InsertProducts: one clock reading `now` per batch stands for the per-record `datetime.now()` calls (PRUEBA-RPA-main/api_consumer.py:181, PRUEBA-RPA-main/modules/database_manager.py:111), so the products of one batch share a timestamp.
- Report.GenerateReport, Evidence.RegisterDiscovered, Evidence.SaveEvidenceLog, Orchestrator.Run: one clock reading stands for several `datetime.now()` calls. GenerateReport passes one `now` to both the file name (PRUEBA-RPA-main/modules/excel_generator.py:42) and the summary footer (excel_generator.py:177), so a run that crosses midnight, named for one day and stamped with the next, is not modelled. RegisterDiscovered, and SaveEvidenceLog through it, gives every auto-registered screenshot the same stamp, where `register_screenshot` reads the clock once per file (PRUEBA-RPA-main/modules/evidence_manager.py:78, called at :110-113). Orchestrator.Run stamps every event of the run with `World.now` and uses it as step 5's date, where the source reads the clock for each event (evidence_manager.py:53, :78) and again for that date (PRUEBA-RPA-main/main.py:162).
- Numbers.ParseDecimal: models `float()` on plain decimal text only (sign, digits, one point, underscores, surrounding whitespace). Exponents such as "1e3", and "inf", "nan" and "infinity", are rejected where Python accepts them. Values.FloatOf inherits this. So ApiConsumer.ProcessProduct drops a record whose price text is written that way, and Store.InsertProducts skips it, where Python keeps it (a NaN price even passes the `price <= 0` check). Floating-point rounding is not modelled: prices and averages are exact reals.
- Text.Lower, Text.Upper: change ASCII letters only, where Python's `str.lower`/`str.upper` follow Unicode. Every use inherits this: Logger.StepLevel and Logger.IsSensitiveKey (case-insensitive status and key matching), Settings.Flag (the "true" flags), FormServer.AllowedFile (the extension), WebAutomation.Dispatch and WebAutomation.Attachment. A non-ASCII letter that Python folds to an ASCII one (for example the Kelvin sign to "k") is treated differently.
- Numbers.ParseInt: `int()` with ASCII digits only. Python also accepts digits of other scripts (Arabic-Indic, full-width). Values.IntOf (the product id, in both the filter and the store) and Launcher.StepOf (`--steps` tokens) inherit this.
- ApiConsumer.Body: a JSON list body is a list of records. A list whose elements are not all objects (numbers, strings, nested lists) is not represented, so the per-element TypeError path of `_process_products` for such elements is left out; records lacking fields are modelled.
- Orchestrator.ListText: the list of generated files is kept as the text `str()` gives for a list of paths (quotes around each, no escaping of quotes inside a path), not as a JSON array.
- OneDrive.EnsureDirectoryPrefixes: stated for directory paths without empty segments (no "a//b"). On such a path the folder service itself is also coarser than the source: the model keys answers on the slash-stripped path, so the two creations of "a//b" ("a" under the root and "" under "a") get one answer. For those, the walk's levels are exactly the cumulative prefixes. The general case, empty segments included, is stated level by level by OneDrive.WalkAt.
- ApiConsumer.GetProducts: the waits between attempts are returned as numbers of seconds, not slept. The three calls' outcomes are inputs (one transport answer and one backup-write verdict per call).
- WebAutomation.GoogleSubmit: carries no contract of its own. The jitter of its pauses is fixed to 0 in WebAutomation.HandlerOutcome, which is harmless because WebAutomation.GoogleNeverRetries shows it never pauses.
- WebAutomation.RetryWithBackoff: the jitter `random.uniform(0, 1)` draws is an input sequence; the warning and error log lines are not modelled.
- OneDrive.UploadHelper: no contract of its own; OneDrive.HelperTargets states which file type and remote name each of the three helpers passes.
- Browser automation: element lookup, clicks, waits, scrolling and screenshots are inputs (what the page does, whether the screenshot could be saved). `_setup_driver` is one yes/no input, so a driver that starts but then fails part-way is not distinguished. `web_form_manager.py` and the `health_check`/`_cleanup_driver` methods are not part of this model.
- HTTP, OAuth and MSAL: responses, status codes, tokens and the `requests` session are inputs. The text of the `Content-Range` header and the URL-quoting of remote paths are not modelled; only the byte ranges are.
- SQLite: connections, PRAGMAs, transactions and `health_check` are out. The store is a map from id to product, and a rollback leaves it unchanged.
- openpyxl: fonts, fills, column widths, number-format text and the chart object are out. Only which cell holds what, the formatted cells and the chart's reference ranges are modelled.
- Logging: handlers, colours and log files are out; only the produced message and its level are modelled. `log_db_operation` and `log_process_summary` are not part of this model (they only format durations and counts into log lines).
- `get_categories`, `validate_api_connection`, `get_connection_string`, `print_configuration_status` and `validate_settings` are not part of this model. They are diagnostics that only call the network or print; `validate_settings` creates directories.
- `PIXRPAProcess.finalize` and `_setup_logging`: they only log a summary and set up log files. `validate_environment` is one yes/no input (directory creation and dependency imports).
- Clock and randomness: the current time, durations, file modification times and random jitter are inputs.
- The constructors (`__init__` of every class) are not modelled beyond the initial values the model starts from (empty evidence lists, zero statistics, no token).
- Store.InsertProducts: a batch element that is not a dict (a number or a string) is not represented; every element is a record, possibly lacking keys.
- The `test_*` self-check functions, the setup scripts and the `__main__` blocks are not part of this model.

=== FILE: api_consumer.dfy ===
/** The Fake Store catalogue client: the validation filter that turns raw
    API records into products, the raw-backup document, the list check of the
    fetch, its three-attempt retry, and the single-product lookup. HTTP is not
    performed: what the server answered is an input. */
module ApiConsumer {
  import opened Wrappers
  import opened Values
  import Text
  import Clock
  import Settings
  import Collections
  import Numbers

  /** A product as the filter emits it. */
  datatype Product = Product(
    id: int, title: string, price: real, category: string, description: string,
    fecha: Clock.DateTime)

  /** Every raw record must carry these five keys. */
  predicate HasRequiredFields(raw: Record)
  {
    "id" in raw && "title" in raw && "price" in raw && "category" in raw && "description" in raw
  }

  /** What the filter decided about one raw record. */
  datatype Verdict =
    | Kept(p: Product)
    | MissingFields
    | ConversionFailed(error: ConversionError)
    | BadPrice
    | ShortTitle

  /** A raw record the filter keeps, stated on the raw values alone. */
  predicate Acceptable(raw: Record)
  {
    && HasRequiredFields(raw)
    && IntOf(raw["id"]).Success?
    && FloatOf(raw["price"]).Success? && FloatOf(raw["price"]).value > 0.0
    && |Text.StripSpace(StrOf(raw["title"]))| >= 3
  }

  /** One iteration of `_process_products`. The id is converted first, then
      the price; a failed conversion drops the record; a price at or below zero
      and a stripped title under three characters drop it too. Each record's
      `fecha_insercion` is the clock reading `now`. */
  function ProcessProduct(raw: Record, now: Clock.DateTime): (r: Verdict)
    ensures r.Kept? ==> HasRequiredFields(raw) && r.p.fecha == now
  {
    if !HasRequiredFields(raw) then MissingFields
    else Decide(IntOf(raw["id"]), FloatOf(raw["price"]), Text.StripSpace(StrOf(raw["title"])),
                Text.StripSpace(StrOf(raw["category"])), Text.StripSpace(StrOf(raw["description"])), now)
  }

  /** The checks of `_process_products` once the fields have been converted
      and stripped: the id conversion is looked at first, then the price. */
  function Decide(id: Result<int, ConversionError>, price: Result<real, ConversionError>,
                  title: string, category: string, description: string, now: Clock.DateTime)
    : (r: Verdict)
    ensures r.Kept? <==> id.Success? && price.Success? && price.value > 0.0 && |title| >= 3
    ensures r.Kept? ==> r.p == Product(id.value, title, price.value, category, description, now)
    ensures r.ConversionFailed? <==> id.Failure? || price.Failure?
    ensures r.ConversionFailed? ==> r.error == if id.Failure? then id.error else price.error
    ensures r == BadPrice <==> id.Success? && price.Success? && price.value <= 0.0
    ensures r != MissingFields
  {
    if id.Failure? then ConversionFailed(id.error)
    else if price.Failure? then ConversionFailed(price.error)
    else if price.value <= 0.0 then BadPrice
    else if |title| < 3 then ShortTitle
    else Kept(Product(id.value, title, price.value, category, description, now))
  }

  /** A kept product carries the converted id and price and the stripped
      texts of its raw record; its price is positive and its title has at
      least three characters and no surrounding whitespace. */
  lemma ProcessProductKept(raw: Record, now: Clock.DateTime)
    requires ProcessProduct(raw, now).Kept?
    ensures var p := ProcessProduct(raw, now).p;
            && HasRequiredFields(raw)
            && IntOf(raw["id"]) == Success(p.id)
            && FloatOf(raw["price"]) == Success(p.price)
            && p.title == Text.StripSpace(StrOf(raw["title"]))
            && p.category == Text.StripSpace(StrOf(raw["category"]))
            && p.description == Text.StripSpace(StrOf(raw["description"]))
            && p.fecha == now
    ensures ValidProduct(ProcessProduct(raw, now).p)
  {
    var id, price := IntOf(raw["id"]), FloatOf(raw["price"]);
    var t0 := StrOf(raw["title"]);
    var t, c, d := Text.StripSpace(t0), Text.StripSpace(StrOf(raw["category"])),
                   Text.StripSpace(StrOf(raw["description"]));
    assert ProcessProduct(raw, now) == Decide(id, price, t, c, d, now);
    Text.StripIdempotent(t0, Text.Space);
  }

  /** The guarantees every product leaving the filter carries. */
  predicate ValidProduct(p: Product)
  {
    p.price > 0.0 && |p.title| >= 3 && Text.StripSpace(p.title) == p.title
  }

  /** The verdict is decided by the raw record alone: missing keys first,
      then failed conversions, and the record is kept exactly when it is
      acceptable. */
  lemma ProcessProductVerdicts(raw: Record, now: Clock.DateTime)
    ensures ProcessProduct(raw, now) == MissingFields <==> !HasRequiredFields(raw)
    ensures ProcessProduct(raw, now).Kept? <==> Acceptable(raw)
    ensures ProcessProduct(raw, now).ConversionFailed? <==>
              HasRequiredFields(raw) && (IntOf(raw["id"]).Failure? || FloatOf(raw["price"]).Failure?)
    ensures ProcessProduct(raw, now) == BadPrice <==>
              HasRequiredFields(raw) && IntOf(raw["id"]).Success? && FloatOf(raw["price"]).Success?
              && FloatOf(raw["price"]).value <= 0.0
  {
  }

  /** What the filter makes of one raw record: the product, or nothing. */
  function Keep(now: Clock.DateTime): (f: Record -> Option<Product>)
  {
    raw => var v := ProcessProduct(raw, now); if v.Kept? then Some(v.p) else None
  }

  /** A record yields a product exactly when the filter keeps it, and the
      product is the one the filter built. */
  lemma KeepIsVerdict(raw: Record, now: Clock.DateTime)
    ensures Keep(now)(raw).Some? <==> ProcessProduct(raw, now).Kept?
    ensures Keep(now)(raw).Some? ==> ProcessProduct(raw, now) == Kept(Keep(now)(raw).value)
  {
  }

  /** The products the filter keeps out of `raws`, in input order. */
  function KeptProducts(raws: seq<Record>, now: Clock.DateTime): (r: seq<Product>)
    ensures |r| <= |raws|
  {
    Collections.FilterMap(Keep(now), raws)
  }

  /** Filtering a concatenation filters each part: each record is judged on
      its own, so a bad record never affects the others. */
  lemma KeptProductsAppend(a: seq<Record>, b: seq<Record>, now: Clock.DateTime)
    ensures KeptProducts(a + b, now) == KeptProducts(a, now) + KeptProducts(b, now)
  {
    Collections.FilterMapAppend(Keep(now), a, b);
  }

  /** The output is exactly the kept records, in input order: `idx` lists the
      positions of the records the filter keeps, strictly increasing, the
      product at each place comes from the record at that position, and
      every acceptable position is listed. */
  lemma KeptProductsPositions(raws: seq<Record>, now: Clock.DateTime)
    returns (idx: seq<nat>)
    ensures |idx| == |KeptProducts(raws, now)|
    ensures forall k :: 0 <= k < |idx| ==>
              idx[k] < |raws| && ProcessProduct(raws[idx[k]], now) == Kept(KeptProducts(raws, now)[k])
    ensures forall k, l :: 0 <= k < l < |idx| ==> idx[k] < idx[l]
    ensures forall i :: 0 <= i < |raws| && Acceptable(raws[i]) ==> i in idx
  {
    var out := KeptProducts(raws, now);
    idx := Collections.FilterMapPositions(Keep(now), raws);
    assert Collections.IsPositions(Keep(now), raws, out, idx);
    forall k | 0 <= k < |idx|
      ensures ProcessProduct(raws[idx[k]], now) == Kept(out[k])
    {
      KeepIsVerdict(raws[idx[k]], now);
    }
    forall i | 0 <= i < |raws| && Acceptable(raws[i])
      ensures i in idx
    {
      ProcessProductVerdicts(raws[i], now);
      KeepIsVerdict(raws[i], now);
    }
  }

  /** Every product the filter emits is valid and stamped with `now`; every
      acceptable record's product is among them. */
  lemma KeptProductsValid(raws: seq<Record>, now: Clock.DateTime)
    ensures forall p :: p in KeptProducts(raws, now) ==> ValidProduct(p) && p.fecha == now
    ensures forall i :: 0 <= i < |raws| && Acceptable(raws[i]) ==>
              ProcessProduct(raws[i], now).p in KeptProducts(raws, now)
  {
    var out := KeptProducts(raws, now);
    var idx := KeptProductsPositions(raws, now);
    forall p | p in out
      ensures ValidProduct(p) && p.fecha == now
    {
      var k :| 0 <= k < |out| && out[k] == p;
      ProcessProductKept(raws[idx[k]], now);
    }
    forall i | 0 <= i < |raws| && Acceptable(raws[i])
      ensures ProcessProduct(raws[i], now).p in out
    {
      var k :| 0 <= k < |idx| && idx[k] == i;
    }
  }

  /** `_process_products`: the loop that collects the kept products. */
  method ProcessProducts(raws: seq<Record>, now: Clock.DateTime) returns (out: seq<Product>)
    ensures out == KeptProducts(raws, now)
  {
    out := [];
    var i := 0;
    while i < |raws|
      invariant 0 <= i <= |raws|
      invariant out == KeptProducts(raws[..i], now)
    {
      Collections.FilterMapStep(Keep(now), raws, i);
      var v := ProcessProduct(raws[i], now);
      if v.Kept? {
        out := out + [v.p];
      }
      i := i + 1;
    }
    Collections.PrefixAll(raws);
  }

  /** The raw-backup document `_save_json_backup` writes. */
  datatype Backup = Backup(timestamp: string, sourceApi: string, totalProducts: nat, products: seq<Record>)

  /** The backup holds the whole unfiltered response and its length. */
  function BackupDocument(raws: seq<Record>, env: Settings.Env, now: Clock.DateTime): (b: Backup)
    ensures b.totalProducts == |b.products| && b.products == raws
    ensures b.sourceApi == Settings.ProductsEndpoint(env)
  {
    Backup(Clock.Iso(now), Settings.ProductsEndpoint(env), |raws|, raws)
  }

  /** `DATA_DIR/raw/Productos_<YYYY-MM-DD>.json`. */
  function BackupPath(base: string, now: Clock.DateTime): (r: string)
    ensures Text.PathName(r) == Settings.JsonPrefix + Clock.DateText(now) + Settings.JsonExtension
  {
    var name := Settings.JsonPrefix + Clock.DateText(now) + Settings.JsonExtension;
    BackupNameNoSlash(now);
    assert name[0] == 'P';
    Text.PathNameOfChild(Settings.RawDir(base), name);
    Settings.RawDir(base) + "/" + name
  }

  /** The backup's file name has no path separator in it. */
  lemma BackupNameNoSlash(t: Clock.DateTime)
    ensures '/' !in Settings.JsonPrefix + Clock.DateText(t) + Settings.JsonExtension
  {
    Clock.DateTextNoSlash(t);
  }

  /** The JSON body of a response. */
  datatype Body =
    | JsonList(items: seq<Record>)
    | JsonObject(rec: Record)
      /** A string, number, boolean or null; `truthy` is its truthiness. */
    | JsonScalar(truthy: bool)
    | Malformed

  /** What one HTTP GET produced. */
  datatype Transport =
    | Delivered(status: int, body: Body)
    | TimedOut
    | ConnectionFailed

  /** The exception one fetch attempt ends in. */
  datatype FetchError =
    | Timeout
    | Connection
    | HttpError(status: int)
    | JsonDecodeError
    | NotAList
    | BackupWriteFailed

  /** `response.raise_for_status()` raises for client and server errors. */
  predicate IsHttpError(status: int)
  {
    400 <= status < 600
  }

  datatype Fetched = Fetched(products: seq<Product>, jsonPath: string, backup: Backup)

  /** One attempt of `get_products`: the status is checked, then the body is
      decoded, then it must be a list; the backup is written before the
      products are filtered. `writeOk` is whether the backup file could be
      written. */
  function FetchOnce(t: Transport, writeOk: bool, env: Settings.Env, base: string, now: Clock.DateTime)
    : (r: Result<Fetched, FetchError>)
    ensures r.Success? <==>
              t.Delivered? && !IsHttpError(t.status) && t.body.JsonList? && writeOk
    ensures r == Failure(NotAList) <==>
              t.Delivered? && !IsHttpError(t.status) && (t.body.JsonObject? || t.body.JsonScalar?)
    ensures r.Success? ==>
              && r.value.products == KeptProducts(t.body.items, now)
              && r.value.backup == BackupDocument(t.body.items, env, now)
              && r.value.jsonPath == BackupPath(base, now)
  {
    match t
    case TimedOut => Failure(Timeout)
    case ConnectionFailed => Failure(Connection)
    case Delivered(status, body) =>
      if IsHttpError(status) then Failure(HttpError(status))
      else match body
        case Malformed => Failure(JsonDecodeError)
        case JsonObject(_) => Failure(NotAList)
        case JsonScalar(_) => Failure(NotAList)
        case JsonList(items) =>
          if !writeOk then Failure(BackupWriteFailed)
          else Success(Fetched(KeptProducts(items, now), BackupPath(base, now),
                               BackupDocument(items, env, now)))
  }

  /** Because the backup is written before filtering, a successful fetch
      returns exactly the filter of the saved document, never more products
      than the document counts, and saves it under the dated file name. */
  lemma FetchedIsFilteredBackup(t: Transport, writeOk: bool, env: Settings.Env, base: string,
                                now: Clock.DateTime)
    requires FetchOnce(t, writeOk, env, base, now).Success?
    ensures var f := FetchOnce(t, writeOk, env, base, now).value;
            && f.products == KeptProducts(f.backup.products, now)
            && |f.products| <= f.backup.totalProducts
            && Text.PathName(f.jsonPath) == Settings.JsonPrefix + Clock.DateText(now) + Settings.JsonExtension
  {
  }

  /** How many calls the retry decorator makes at most. */
  const MaxFetchAttempts: nat := 3

  /** The call that decided the retry, and how many calls were made. */
  datatype Attempted = Attempted(result: Result<Fetched, FetchError>, calls: nat)

  /** The retry decorator over the outcomes the successive calls would have:
      calls go on from call `k` while they fail and outcomes remain; the
      first success, or else the last failure, decides. */
  function RetryFrom(outcomes: seq<Result<Fetched, FetchError>>, k: nat): (r: Attempted)
    requires k < |outcomes|
    ensures k < r.calls <= |outcomes|
    ensures r.result == outcomes[r.calls - 1]
    ensures forall j :: k <= j < r.calls - 1 ==> outcomes[j].Failure?
    ensures r.result.Failure? ==> r.calls == |outcomes|
    decreases |outcomes| - k
  {
    if outcomes[k].Success? || k + 1 == |outcomes| then Attempted(outcomes[k], k + 1)
    else RetryFrom(outcomes, k + 1)
  }

  /** What each of the three calls would end in; `tries(k)` is what call `k`
      (from 0) met on the wire and whether its backup could be written. */
  function Outcomes(tries: nat -> (Transport, bool), env: Settings.Env, base: string,
                    now: Clock.DateTime): (r: seq<Result<Fetched, FetchError>>)
    ensures |r| == MaxFetchAttempts
    ensures forall k :: 0 <= k < MaxFetchAttempts ==> r[k] == FetchOnce(tries(k).0, tries(k).1, env, base, now)
  {
    seq(MaxFetchAttempts, k requires 0 <= k => FetchOnce(tries(k).0, tries(k).1, env, base, now))
  }

  /** The decorator is declared without `reraise`: when the attempts run out
      it raises tenacity's `RetryError`, which wraps the last attempt's
      exception instead of re-raising it. */
  datatype RetryError = RetryError(lastAttempt: FetchError)

  /** The decorated `get_products`: its result, the calls it made and the
      seconds it waited between them. */
  datatype FetchRun = FetchRun(result: Result<Fetched, RetryError>, calls: nat, waits: seq<nat>)

  /** `wait_exponential(multiplier=1, min=4, max=10)` after attempt number
      `n` (from 1): 2^(n-1) seconds, kept between 4 and 10. */
  function FetchWait(n: nat): (w: nat)
    requires n >= 1
    ensures 4 <= w <= 10
  {
    var e := Numbers.Pow2(n - 1);
    if e < 4 then 4 else if e > 10 then 10 else e
  }

  /** The waits after attempts 1 to `n`. */
  function FetchWaits(n: nat): (r: seq<nat>)
    ensures |r| == n
    ensures forall i :: 0 <= i < n ==> r[i] == FetchWait(i + 1)
  {
    seq(n, i requires 0 <= i => FetchWait(i + 1))
  }

  /** `get_products` under its retry decorator: any exception is retried, up
      to three calls in all, with a wait after each failed call but the
      last; after three failures the caller sees a `RetryError`. */
  function GetProducts(tries: nat -> (Transport, bool), env: Settings.Env, base: string, now: Clock.DateTime)
    : (r: FetchRun)
    ensures 1 <= r.calls <= MaxFetchAttempts
    ensures |r.waits| == r.calls - 1
    ensures forall i :: 0 <= i < |r.waits| ==> r.waits[i] == FetchWait(i + 1)
    ensures forall k :: 0 <= k < r.calls - 1 ==>
              FetchOnce(tries(k).0, tries(k).1, env, base, now).Failure?
    ensures r.result.Success? ==>
              FetchOnce(tries(r.calls - 1).0, tries(r.calls - 1).1, env, base, now) == Success(r.result.value)
    ensures r.result.Failure? ==>
              && r.calls == MaxFetchAttempts
              && FetchOnce(tries(2).0, tries(2).1, env, base, now).Failure?
              && r.result.error == RetryError(FetchOnce(tries(2).0, tries(2).1, env, base, now).error)
  {
    var a := RetryFrom(Outcomes(tries, env, base, now), 0);
    var result := match a.result
      case Success(f) => Success(f)
      case Failure(e) => Failure(RetryError(e));
    FetchRun(result, a.calls, FetchWaits(a.calls - 1))
  }

  /** The decorated fetch succeeds exactly when one of the three calls
      would; the calls made are those up to the first that succeeds. */
  lemma GetProductsSucceeds(tries: nat -> (Transport, bool), env: Settings.Env, base: string, now: Clock.DateTime)
    ensures var r := GetProducts(tries, env, base, now);
            var o := Outcomes(tries, env, base, now);
            && (r.result.Success? <==> o[0].Success? || o[1].Success? || o[2].Success?)
            && (o[0].Success? ==> r.calls == 1)
            && (o[0].Failure? && o[1].Success? ==> r.calls == 2)
            && (o[0].Failure? && o[1].Failure? ==> r.calls == 3)
  {
    var o := Outcomes(tries, env, base, now);
    var r := GetProducts(tries, env, base, now);
    assert o[r.calls - 1] == FetchOnce(tries(r.calls - 1).0, tries(r.calls - 1).1, env, base, now);
  }

  /** Every wait the decorator can make lasts four seconds: after the first
      and the second call 2^0 and 2^1 are both raised to the minimum. */
  lemma FetchWaitsAreFourSeconds(n: nat)
    requires 1 <= n < MaxFetchAttempts
    ensures FetchWait(n) == 4
  {
    assert Numbers.Pow2(0) == 1 && Numbers.Pow2(1) == 2;
  }

  /** A server that always answers with a list succeeds on the first call. */
  lemma GetProductsFirstCallSucceeds(tries: nat -> (Transport, bool), env: Settings.Env,
                                     base: string, now: Clock.DateTime)
    requires tries(0).0.Delivered? && tries(0).0.status == 200 && tries(0).0.body.JsonList?
    requires tries(0).1
    ensures GetProducts(tries, env, base, now).calls == 1
    ensures GetProducts(tries, env, base, now).result.Success?
    ensures GetProducts(tries, env, base, now).waits == []
  {
  }

  /** `get_product_by_id`: every failure (an error status, an undecodable
      body, a record the filter rejects, an empty or non-object body) yields
      `None`. */
  function GetProductById(t: Transport, now: Clock.DateTime): (r: Option<Product>)
    ensures r.Some? <==>
              t.Delivered? && !IsHttpError(t.status) && t.body.JsonObject? && Acceptable(t.body.rec)
    ensures r.Some? ==> ProcessProduct(t.body.rec, now) == Kept(r.value)
  {
    match t
    case Delivered(status, JsonObject(rec)) =>
      if IsHttpError(status) || |rec| == 0 then None
      else (match ProcessProduct(rec, now) case Kept(p) => Some(p) case _ => None)
    case _ => None
  }

  /** The lookup is the filter applied to the one-record list, taking its
      first element when there is one. */
  lemma GetProductByIdIsFilterOfOne(rec: Record, status: int, now: Clock.DateTime)
    requires !IsHttpError(status)
    ensures var kept := KeptProducts([rec], now);
            GetProductById(Delivered(status, JsonObject(rec)), now)
            == if |kept| == 0 then None else Some(kept[0])
  {
    assert [rec][1..] == [];
    ProcessProductVerdicts(rec, now);
  }
}

=== FILE: clock.dfy ===
/** Wall-clock values and the text formats the pipeline writes them in.
    The clock itself is never read here: every "now" is a parameter. */
module Clock {
  import opened Wrappers
  import opened Numbers
  import Text

  /** A `datetime.datetime` value. */
  datatype DateTime = DateTime(year: nat, month: nat, day: nat,
                               hour: nat, minute: nat, second: nat, micro: nat)

  /** The ranges `datetime` itself enforces (day-of-month is bounded by 31 only). */
  predicate Valid(t: DateTime)
  {
    && 1 <= t.year <= 9999 && 1 <= t.month <= 12 && 1 <= t.day <= 31
    && t.hour < 24 && t.minute < 60 && t.second < 60 && t.micro < 1000000
  }

  function Zeros(k: nat): (r: string)
    ensures |r| == k && forall i :: 0 <= i < k ==> r[i] == '0'
  {
    if k == 0 then "" else Zeros(k - 1) + "0"
  }

  /** `%0<width>d`: the decimal text of `n`, left-padded with zeros. */
  function Pad(n: nat, width: nat): (r: string)
    ensures |r| >= width
    ensures forall i :: 0 <= i < |r| ==> IsDigit(r[i])
  {
    var s := NatToString(n);
    if |s| >= width then s else Zeros(width - |s|) + s
  }

  /** The padded text still reads as `n`, and padding only ever adds zeros:
      it is as long as the width or as the plain digits, whichever is longer. */
  lemma PadValue(n: nat, width: nat)
    ensures IsDigitGroup(Pad(n, width)) && DigitsValue(Pad(n, width)) == n
    ensures |Pad(n, width)| == if |NatToString(n)| >= width then |NatToString(n)| else width
  {
    var s := NatToString(n);
    NatToStringValue(n);
    if |s| < width {
      PaddedDigits(Zeros(width - |s|), s);
    }
  }

  /** Leading zeros change neither the digit form nor the value. */
  lemma PaddedDigits(z: string, s: string)
    requires forall i :: 0 <= i < |z| ==> z[i] == '0'
    requires forall i :: 0 <= i < |s| ==> IsDigit(s[i])
    requires IsDigitGroup(s)
    ensures forall i :: 0 <= i < |z + s| ==> IsDigit((z + s)[i])
    ensures IsDigitGroup(z + s) && DigitsValue(z + s) == DigitsValue(s)
  {
    var r := z + s;
    forall i | 0 <= i < |r|
      ensures IsDigit(r[i])
    {
      if i < |z| { assert r[i] == z[i]; } else { assert r[i] == s[i - |z|]; }
    }
    ZerosValueOf(z);
    DigitsValueConcat(z, s);
  }

  lemma {:induction false} ZerosValueOf(z: string)
    requires forall i :: 0 <= i < |z| ==> z[i] == '0'
    ensures DigitsOrUnderscores(z) && DigitsValue(z) == 0
    decreases |z|
  {
    if |z| > 0 {
      ZerosValueOf(z[..|z| - 1]);
    }
  }

  /** Reading `a + b` is reading `a`, shifted by the digits of `b`, plus `b`. */
  lemma {:induction false} DigitsValueConcat(a: string, b: string)
    requires DigitsOrUnderscores(a) && DigitsOrUnderscores(b)
    ensures DigitsOrUnderscores(a + b)
    ensures DigitsValue(a + b) == DigitsValue(a) * Pow10(DigitCount(b)) + DigitsValue(b)
    decreases |b|
  {
    var s := a + b;
    if b == [] {
      assert s == a;
    } else {
      var b' := b[..|b| - 1];
      var c := b[|b| - 1];
      assert s[..|s| - 1] == a + b';
      assert s[|s| - 1] == c;
      DigitsValueConcat(a, b');
      if IsDigit(c) {
        assert DigitsValue(s) == 10 * DigitsValue(a + b') + DigitValue(c);
        assert DigitsValue(b) == 10 * DigitsValue(b') + DigitValue(c);
        assert Pow10(DigitCount(b)) == 10 * Pow10(DigitCount(b'));
        ShiftDigit(DigitsValue(a), Pow10(DigitCount(b')), DigitsValue(b'), DigitValue(c));
      } else {
        assert DigitsValue(s) == DigitsValue(a + b');
        assert DigitsValue(b) == DigitsValue(b');
        assert DigitCount(b) == DigitCount(b');
      }
    }
  }

  /** The arithmetic step of appending one digit. */
  lemma ShiftDigit(x: int, p: int, y: int, d: int)
    ensures 10 * (x * p + y) + d == x * (10 * p) + (10 * y + d)
  {
  }

  /** `strftime('%Y-%m-%d')`. The year is not zero-padded, as with glibc's `%Y`. */
  function DateText(t: DateTime): string
  {
    NatToString(t.year) + "-" + Pad(t.month, 2) + "-" + Pad(t.day, 2)
  }

  /** `%H<sep>%M<sep>%S`. */
  function TimeText(t: DateTime, sep: string): string
  {
    Pad(t.hour, 2) + sep + Pad(t.minute, 2) + sep + Pad(t.second, 2)
  }

  /** `strftime('%Y-%m-%d %H:%M:%S')`, the database and footer format. */
  function SqlStamp(t: DateTime): string
  {
    DateText(t) + " " + TimeText(t, ":")
  }

  /** `strftime('%Y-%m-%d_%H-%M-%S')`, the evidence file-name format. */
  function FileStamp(t: DateTime): string
  {
    DateText(t) + "_" + TimeText(t, "-")
  }

  /** `isoformat(timespec="seconds")`. */
  function IsoSeconds(t: DateTime): string
  {
    Pad(t.year, 4) + "-" + Pad(t.month, 2) + "-" + Pad(t.day, 2) + "T" + TimeText(t, ":")
  }

  /** `isoformat()`: microseconds appear only when non-zero. */
  function Iso(t: DateTime): string
  {
    IsoSeconds(t) + (if t.micro == 0 then "" else "." + Pad(t.micro, 6))
  }

  /** `str(t)`: like `isoformat()` with a space between date and time. */
  function StrText(t: DateTime): string
  {
    Pad(t.year, 4) + "-" + Pad(t.month, 2) + "-" + Pad(t.day, 2) + " " + TimeText(t, ":")
      + (if t.micro == 0 then "" else "." + Pad(t.micro, 6))
  }

  /** Reads year, month and day back out of a `%Y-%m-%d` text. */
  function DateFields(s: string): Option<(int, int, int)>
  {
    var parts := Text.Split(s, '-');
    if |parts| != 3 then None
    else match (ParseInt(parts[0]), ParseInt(parts[1]), ParseInt(parts[2]))
      case (Some(y), Some(m), Some(d)) => Some((y, m, d))
      case _ => None
  }

  /** A date written with `DateText` reads back as the same year, month and day. */
  lemma DateTextRoundTrip(t: DateTime)
    ensures DateFields(DateText(t)) == Some((t.year as int, t.month as int, t.day as int))
  {
    var y, m, d := NatToString(t.year), Pad(t.month, 2), Pad(t.day, 2);
    NatToStringValue(t.year);
    PadValue(t.month, 2);
    PadValue(t.day, 2);
    DateTextSplits(t);
    ParseUnsignedDigits(y);
    ParseUnsignedDigits(m);
    ParseUnsignedDigits(d);
    DateFieldsOf(DateText(t), y, m, d, t.year, t.month, t.day);
  }

  /** The three fields of a date text are the pieces between its dashes. */
  lemma DateTextSplits(t: DateTime)
    ensures Text.Split(DateText(t), '-') == [NatToString(t.year), Pad(t.month, 2), Pad(t.day, 2)]
  {
    var y, m, d := NatToString(t.year), Pad(t.month, 2), Pad(t.day, 2);
    var parts := [y, m, d];
    assert Text.Join(parts, "-") == DateText(t) by {
      assert parts[1..] == [m, d] && parts[1..][1..] == [d];
      assert Text.Join([m, d], "-") == m + "-" + d;
    }
    NoDash(y);
    NoDash(m);
    NoDash(d);
    Text.SplitJoin(parts, '-');
  }

  lemma DateFieldsOf(s: string, y: string, m: string, d: string, a: int, b: int, c: int)
    requires Text.Split(s, '-') == [y, m, d]
    requires ParseInt(y) == Some(a) && ParseInt(m) == Some(b) && ParseInt(d) == Some(c)
    ensures DateFields(s) == Some((a, b, c))
  {
  }

  /** A date text has no path separator in it. */
  lemma DateTextNoSlash(t: DateTime)
    ensures '/' !in DateText(t)
  {
    var y, m, d := NatToString(t.year), Pad(t.month, 2), Pad(t.day, 2);
    assert '/' !in y && '/' !in m && '/' !in d;
  }

  /** A file stamp has no path separator in it. */
  lemma FileStampNoSlash(t: DateTime)
    ensures '/' !in FileStamp(t)
  {
    DateTextNoSlash(t);
    var h, m, s := Pad(t.hour, 2), Pad(t.minute, 2), Pad(t.second, 2);
    assert '/' !in h && '/' !in m && '/' !in s;
  }

  lemma NoDash(s: string)
    requires forall i :: 0 <= i < |s| ==> IsDigit(s[i])
    ensures '-' !in s
  {
  }
}

=== FILE: collections.dfy ===
/** Sequence and set facts proved once for every element type: the
    filter-map that the pipeline's record filters are instances of, and the
    sorted listing of a finite set that `ORDER BY` produces. Proving the
    structural facts generically keeps the element operations out of them. */
module Collections {
  import opened Wrappers

  /** Extending a prefix by the next element. */
  lemma PrefixStep<T>(s: seq<T>, i: nat)
    requires i < |s|
    ensures s[..i + 1] == s[..i] + [s[i]]
  {
  }

  /** The whole prefix is the sequence. */
  lemma PrefixAll<T>(s: seq<T>)
    ensures s[..|s|] == s
  {
  }

  /** Indexing the tail is indexing the sequence one further on. */
  lemma TailIndex<T>(s: seq<T>, i: nat)
    requires 0 < i < |s|
    ensures s[1..][i - 1] == s[i]
  {
  }

  /** The elements an optional value contributes: none or one. */
  function Emit<B>(o: Option<B>): (r: seq<B>)
    ensures |r| <= 1
    ensures r != [] <==> o.Some?
    ensures r != [] ==> r[0] == o.value
  {
    match o
    case Some(b) => [b]
    case None => []
  }

  /** Applies `f` to every element, in order. */
  function Map<A, B>(f: A -> B, xs: seq<A>): (r: seq<B>)
    ensures |r| == |xs| && forall i :: 0 <= i < |xs| ==> r[i] == f(xs[i])
  {
    if |xs| == 0 then [] else [f(xs[0])] + Map(f, xs[1..])
  }

  /** Mapping a concatenation maps each part. */
  lemma MapConcat<A, B>(f: A -> B, a: seq<A>, b: seq<A>)
    ensures Map(f, a + b) == Map(f, a) + Map(f, b)
  {
  }

  /** Applies `f` to every element in order and keeps the results it gives. */
  function FilterMap<A, B>(f: A -> Option<B>, xs: seq<A>): (r: seq<B>)
    ensures |r| <= |xs|
  {
    if |xs| == 0 then [] else Emit(f(xs[0])) + FilterMap(f, xs[1..])
  }

  /** Filtering a concatenation filters each part. */
  lemma {:induction false} FilterMapAppend<A, B>(f: A -> Option<B>, a: seq<A>, b: seq<A>)
    ensures FilterMap(f, a + b) == FilterMap(f, a) + FilterMap(f, b)
    decreases |a|
  {
    if |a| == 0 {
      assert a + b == b;
    } else {
      assert (a + b)[1..] == a[1..] + b;
      FilterMapAppend(f, a[1..], b);
    }
  }

  /** Filtering one more element appends what that element contributes. */
  lemma FilterMapStep<A, B>(f: A -> Option<B>, xs: seq<A>, i: nat)
    requires i < |xs|
    ensures FilterMap(f, xs[..i + 1]) == FilterMap(f, xs[..i]) + Emit(f(xs[i]))
  {
    PrefixStep(xs, i);
    FilterMapAppend(f, xs[..i], [xs[i]]);
    assert [xs[i]][1..] == [];
  }

  /** `idx` lists exactly the positions of `xs` where `f` gives a result,
      in increasing order, and pairs them with the elements of `out`. */
  ghost predicate IsPositions<A, B>(f: A -> Option<B>, xs: seq<A>, out: seq<B>, idx: seq<nat>)
  {
    && |idx| == |out|
    && (forall k :: 0 <= k < |idx| ==> idx[k] < |xs| && f(xs[idx[k]]) == Some(out[k]))
    && (forall k, l :: 0 <= k < l < |idx| ==> idx[k] < idx[l])
    && (forall i :: 0 <= i < |xs| && f(xs[i]).Some? ==> i in idx)
  }

  /** The output is exactly the kept results, in input order: `idx` lists
      the positions where `f` gives a result, strictly increasing, each
      output element is the result at its position, and no position with a
      result is missed. */
  lemma {:induction false} FilterMapPositions<A, B>(f: A -> Option<B>, xs: seq<A>)
    returns (idx: seq<nat>)
    ensures IsPositions(f, xs, FilterMap(f, xs), idx)
    decreases |xs|
  {
    if |xs| == 0 {
      return [];
    }
    var tail := FilterMap(f, xs[1..]);
    var rest := FilterMapPositions(f, xs[1..]);
    var shifted := ShiftPositions(f, xs, tail, rest);
    assert FilterMap(f, xs) == Emit(f(xs[0])) + tail;
    if f(xs[0]).None? {
      idx := shifted;
      SkipPositions(f, xs, tail, shifted);
    } else {
      idx := ConsPositions(f, xs, tail, shifted);
    }
  }

  /** Positions in the tail, moved one place on, are positions in the whole
      sequence, except that the head is not looked at. */
  lemma ShiftPositions<A, B>(f: A -> Option<B>, xs: seq<A>, tail: seq<B>, rest: seq<nat>)
    returns (shifted: seq<nat>)
    requires |xs| > 0 && IsPositions(f, xs[1..], tail, rest)
    ensures |shifted| == |tail|
    ensures forall k :: 0 <= k < |shifted| ==>
              0 < shifted[k] < |xs| && f(xs[shifted[k]]) == Some(tail[k])
    ensures forall k, l :: 0 <= k < l < |shifted| ==> shifted[k] < shifted[l]
    ensures forall i :: 1 <= i < |xs| && f(xs[i]).Some? ==> i in shifted
  {
    shifted := Shift(rest);
    forall k | 0 <= k < |shifted|
      ensures f(xs[shifted[k]]) == Some(tail[k])
    {
      TailIndex(xs, shifted[k]);
    }
    forall i | 1 <= i < |xs| && f(xs[i]).Some?
      ensures i in shifted
    {
      TailIndex(xs, i);
      var k :| 0 <= k < |rest| && rest[k] == i - 1;
      assert shifted[k] == i;
    }
  }

  /** Every position moved one place on. */
  function Shift(ps: seq<nat>): (r: seq<nat>)
    ensures |r| == |ps| && forall k :: 0 <= k < |ps| ==> r[k] == ps[k] + 1
  {
    if |ps| == 0 then [] else [ps[0] + 1] + Shift(ps[1..])
  }

  /** A head without a result adds no position. */
  lemma SkipPositions<A, B>(f: A -> Option<B>, xs: seq<A>, tail: seq<B>, shifted: seq<nat>)
    requires |xs| > 0 && f(xs[0]).None?
    requires |shifted| == |tail|
    requires forall k :: 0 <= k < |shifted| ==>
               0 < shifted[k] < |xs| && f(xs[shifted[k]]) == Some(tail[k])
    requires forall k, l :: 0 <= k < l < |shifted| ==> shifted[k] < shifted[l]
    requires forall i :: 1 <= i < |xs| && f(xs[i]).Some? ==> i in shifted
    ensures IsPositions(f, xs, tail, shifted)
  {
    assert forall i :: 0 <= i < |xs| && f(xs[i]).Some? ==> 1 <= i;
  }

  /** A head with a result goes in front of the tail's shifted positions. */
  lemma ConsPositions<A, B>(f: A -> Option<B>, xs: seq<A>, tail: seq<B>, shifted: seq<nat>)
    returns (idx: seq<nat>)
    requires |xs| > 0 && f(xs[0]).Some?
    requires |shifted| == |tail|
    requires forall k :: 0 <= k < |shifted| ==>
               0 < shifted[k] < |xs| && f(xs[shifted[k]]) == Some(tail[k])
    requires forall k, l :: 0 <= k < l < |shifted| ==> shifted[k] < shifted[l]
    requires forall i :: 1 <= i < |xs| && f(xs[i]).Some? ==> i in shifted
    ensures IsPositions(f, xs, [f(xs[0]).value] + tail, idx)
  {
    var out := [f(xs[0]).value] + tail;
    idx := [0] + shifted;
    forall k | 1 <= k < |idx|
      ensures idx[k] < |xs| && f(xs[idx[k]]) == Some(out[k])
    {
      assert idx[k] == shifted[k - 1] && out[k] == tail[k - 1];
    }
  }

  /** `le` is a total order: reflexive, antisymmetric, transitive, total. */
  ghost predicate TotalOrder<T(!new)>(le: (T, T) -> bool)
  {
    && (forall a :: le(a, a))
    && (forall a, b :: le(a, b) && le(b, a) ==> a == b)
    && (forall a, b, c :: le(a, b) && le(b, c) ==> le(a, c))
    && (forall a, b :: le(a, b) || le(b, a))
  }

  /** Some element of a non-empty set. */
  lemma Pick<T>(s: set<T>) returns (x: T)
    requires s != {}
    ensures x in s
  {
    if forall y :: y !in s {
      assert false;
    }
    x :| x in s;
  }

  /** A finite set has a least element under a total order. */
  lemma {:induction false} LeastExists<T(!new)>(s: set<T>, le: (T, T) -> bool)
    requires s != {} && TotalOrder(le)
    ensures exists m :: m in s && forall y :: y in s ==> le(m, y)
    decreases |s|
  {
    var x := Pick(s);
    var rest := s - {x};
    if rest == {} {
      forall y | y in s
        ensures le(x, y)
      {
        assert y == x || y in rest;
      }
    } else {
      LeastExists(rest, le);
      var m :| m in rest && forall y :: y in rest ==> le(m, y);
      var k := if le(x, m) then x else m;
      forall y | y in s
        ensures le(k, y)
      {
        if y == x {
          if !le(x, m) {
            assert le(m, x);
          }
        } else {
          assert y in rest && le(m, y);
          if le(x, m) {
            LeTransitive(le, x, m, y);
          }
        }
      }
    }
  }

  /** One step of transitivity. */
  lemma LeTransitive<T(!new)>(le: (T, T) -> bool, a: T, b: T, c: T)
    requires TotalOrder(le) && le(a, b) && le(b, c)
    ensures le(a, c)
  {
  }

  /** The least element of a non-empty set. */
  function Least<T(==,!new)>(s: set<T>, le: (T, T) -> bool): (m: T)
    requires s != {} && TotalOrder(le)
    ensures m in s && forall y :: y in s ==> le(m, y)
  {
    LeastExists(s, le);
    var m :| m in s && forall y :: y in s ==> le(m, y);
    m
  }

  /** Strictly increasing under `le`: each element is below every later one
      and differs from it. */
  ghost predicate StrictlySorted<T>(xs: seq<T>, le: (T, T) -> bool)
  {
    forall i, j :: 0 <= i < j < |xs| ==> le(xs[i], xs[j]) && xs[i] != xs[j]
  }

  /** The elements of a finite set in increasing order, each once. */
  function SortSet<T(==,!new)>(s: set<T>, le: (T, T) -> bool): (r: seq<T>)
    requires TotalOrder(le)
    ensures |r| == |s|
    ensures forall x :: x in r <==> x in s
    ensures StrictlySorted(r, le)
    decreases |s|
  {
    if s == {} then []
    else
      var m := Least(s, le);
      var rest := SortSet(s - {m}, le);
      ConsSorted(m, rest, s - {m}, le);
      [m] + rest
  }

  /** Putting an element below every element of a sorted sequence in front
      keeps it sorted. */
  lemma ConsSorted<T>(m: T, rest: seq<T>, s: set<T>, le: (T, T) -> bool)
    requires StrictlySorted(rest, le)
    requires forall x :: x in rest ==> x in s
    requires m !in s && forall y :: y in s ==> le(m, y)
    ensures StrictlySorted([m] + rest, le)
  {
    var xs := [m] + rest;
    forall i, j | 0 <= i < j < |xs|
      ensures le(xs[i], xs[j]) && xs[i] != xs[j]
    {
      assert xs[j] == rest[j - 1] && xs[j] in s;
      if i > 0 {
        assert xs[i] == rest[i - 1];
      }
    }
  }
}

=== FILE: evidence.dfy ===
/** The evidence log of a run: the process events and file records the
    evidence manager gathers, and the JSON document it saves at the end.
    Every "now" is a parameter, and what the file system says about a path
    is a `Probe`. */
module Evidence {
  import opened Wrappers
  import opened Values
  import Clock
  import Settings
  import Text

  /** `d or {}`: a missing dict becomes an empty one (an empty one stays empty). */
  function OrEmpty(d: Option<Entries>): Entries
  {
    match d
    case Some(es) => es
    case None => []
  }

  /** One `EvidenceEvent`: a step of the process and whether it succeeded. */
  datatype Event = Event(timestamp: string, stage: string, success: bool, metadata: Entries)

  /** One `FileEvidence`: an operation on a file and what the file system
      said about the file at that moment. */
  datatype FileRecord = FileRecord(timestamp: string, operation: string, filepath: string,
                                   onDisk: bool, fileSize: Option<nat>, success: bool, extra: Entries)

  /** An `EvidenceManager`: when it started, and its events and file
      records in the order they were captured. */
  datatype Manager = Manager(startedAt: Clock.DateTime, events: seq<Event>, files: seq<FileRecord>)

  /** `initialize_evidence_manager`: nothing captured yet. */
  function NewManager(now: Clock.DateTime): Manager
  {
    Manager(now, [], [])
  }

  /** What the file system says about a path: a file of some size, no
      file, or an error while asking. */
  datatype Probe = Found(size: nat) | NotFound | ProbeFailed

  /** The file system as the probes of the paths listed; every other path
      is absent. */
  type Disk = map<string, Probe>

  function ProbeOf(disk: Disk, path: string): Probe
  {
    if path in disk then disk[path] else NotFound
  }

  /** `capture_process_evidence`: appends one event; the rest of the
      manager does not change. */
  function CaptureProcessEvidence(m: Manager, now: Clock.DateTime, stage: string, success: bool,
                                  metadata: Option<Entries>): (r: Manager)
    ensures r.startedAt == m.startedAt && r.files == m.files
    ensures |r.events| == |m.events| + 1 && r.events[..|m.events|] == m.events
    ensures var e := r.events[|m.events|];
            && e.timestamp == Clock.IsoSeconds(now) && e.stage == stage && e.success == success
            && (metadata.None? ==> e.metadata == [])
            && (metadata.Some? ==> e.metadata == metadata.value)
  {
    var e := Event(Clock.IsoSeconds(now), stage, success, OrEmpty(metadata));
    assert (m.events + [e])[..|m.events|] == m.events;
    m.(events := m.events + [e])
  }

  /** `exists` (`onDisk` here) and `file_size` as the record keeps them: a probe that fails
      reads as a missing file. */
  function Stat(p: Probe): (r: (bool, Option<nat>))
    ensures r.0 <==> p.Found?
    ensures r.1.None? <==> !r.0
    ensures p.Found? ==> r.1 == Some(p.size)
  {
    match p
    case Found(n) => (true, Some(n))
    case _ => (false, None)
  }

  /** `capture_file_operation`: appends one record; the rest of the manager
      does not change. */
  function CaptureFileOperation(m: Manager, now: Clock.DateTime, operation: string, filepath: string,
                                success: bool, extra: Option<Entries>, probe: Probe): (r: Manager)
    ensures r.startedAt == m.startedAt && r.events == m.events
    ensures |r.files| == |m.files| + 1 && r.files[..|m.files|] == m.files
    ensures var f := r.files[|m.files|];
            && f.timestamp == Clock.IsoSeconds(now) && f.operation == operation
            && f.filepath == filepath && f.success == success && f.extra == OrEmpty(extra)
            && (f.onDisk <==> probe.Found?) && (f.fileSize.None? <==> !f.onDisk)
            && (probe.Found? ==> f.fileSize == Some(probe.size))
  {
    var st := Stat(probe);
    var f := FileRecord(Clock.IsoSeconds(now), operation, filepath, st.0, st.1, success, OrEmpty(extra));
    assert (m.files + [f])[..|m.files|] == m.files;
    m.(files := m.files + [f])
  }

  const Screenshot := "SCREENSHOT"

  /** `register_screenshot`: a file operation named "SCREENSHOT". */
  function RegisterScreenshot(m: Manager, now: Clock.DateTime, filepath: string, success: bool,
                              extra: Option<Entries>, probe: Probe): (r: Manager)
    ensures r.startedAt == m.startedAt && r.events == m.events
    ensures |r.files| == |m.files| + 1 && r.files[..|m.files|] == m.files
    ensures var f := r.files[|m.files|];
            f.operation == Screenshot && f.filepath == filepath && f.success == success
            && f.extra == OrEmpty(extra) && (f.fileSize.None? <==> !f.onDisk)
  {
    CaptureFileOperation(m, now, Screenshot, filepath, success, extra, probe)
  }

  /** Some record of `files` is about `path`. */
  predicate Recorded(files: seq<FileRecord>, path: string)
  {
    exists i :: 0 <= i < |files| && files[i].filepath == path
  }

  /** The registration loop of `save_evidence_log`: every discovered
      screenshot that no record is about yet, the ones registered by the loop
      itself included, is registered as a success with no extra data. */
  function RegisterDiscovered(m: Manager, now: Clock.DateTime, shots: seq<string>, disk: Disk): (r: Manager)
    ensures r.startedAt == m.startedAt && r.events == m.events
    ensures |m.files| <= |r.files| && r.files[..|m.files|] == m.files
    decreases |shots|
  {
    if |shots| == 0 then m
    else
      var next := if Recorded(m.files, shots[0]) then m
                  else RegisterScreenshot(m, now, shots[0], true, None, ProbeOf(disk, shots[0]));
      var r := RegisterDiscovered(next, now, shots[1..], disk);
      assert r.files[..|m.files|] == r.files[..|next.files|][..|m.files|];
      r
  }

  /** A record the registration loop adds. */
  predicate ShotRecord(f: FileRecord, shots: seq<string>)
  {
    f.operation == Screenshot && f.success && f.extra == [] && f.filepath in shots
  }

  /** Every record from index k on is about a path no earlier record is about. */
  ghost predicate Fresh(files: seq<FileRecord>, k: nat)
  {
    forall i :: k <= i < |files| ==> !Recorded(files[..i], files[i].filepath)
  }

  /** A record of a prefix is a record of the whole. */
  lemma RecordedInPrefix(files: seq<FileRecord>, k: nat, path: string)
    requires k <= |files| && Recorded(files[..k], path)
    ensures Recorded(files, path)
  {
    var i :| 0 <= i < k && files[..k][i].filepath == path;
    assert files[i].filepath == path;
  }

  /** Every record from index k on is one the registration loop adds. */
  ghost predicate AddedShots(files: seq<FileRecord>, k: nat, shots: seq<string>)
  {
    forall i :: k <= i < |files| ==> ShotRecord(files[i], shots)
  }

  /** No record of a prefix without `path` is about `path`. */
  lemma NotInPrefix(files: seq<FileRecord>, k: nat, path: string, i: nat)
    requires i < k <= |files| && !Recorded(files[..k], path)
    ensures files[i].filepath != path
  {
    assert files[..k][i] == files[i];
  }

  /** Past index k, a fresh record is about a path no earlier record is about. */
  lemma FreshDistinct(files: seq<FileRecord>, k: nat, i: nat, j: nat)
    requires Fresh(files, k) && i < j < |files| && k <= j
    ensures files[i].filepath != files[j].filepath
  {
    assert !Recorded(files[..j], files[j].filepath);
    NotInPrefix(files, j, files[j].filepath, i);
  }

  /** The loop adds only screenshot records of discovered paths. */
  lemma {:induction false} RegisterDiscoveredAddsShots(m: Manager, now: Clock.DateTime, shots: seq<string>, disk: Disk)
    ensures AddedShots(RegisterDiscovered(m, now, shots, disk).files, |m.files|, shots)
    decreases |shots|
  {
    if |shots| > 0 {
      var next := if Recorded(m.files, shots[0]) then m
                  else RegisterScreenshot(m, now, shots[0], true, None, ProbeOf(disk, shots[0]));
      RegisterDiscoveredAddsShots(next, now, shots[1..], disk);
      var r := RegisterDiscovered(next, now, shots[1..], disk);
      assert r == RegisterDiscovered(m, now, shots, disk);
      assert AddedShots(r.files, |next.files|, shots[1..]);
      forall i | |m.files| <= i < |r.files|
        ensures ShotRecord(r.files[i], shots)
      {
        if i < |next.files| {
          assert r.files[i] == r.files[..|next.files|][i] == next.files[i];
        } else {
          assert ShotRecord(r.files[i], shots[1..]);
        }
      }
    }
  }

  /** Every added record is about a path that no earlier record is about:
      neither a record held before the save nor one added before it. */
  lemma {:induction false} RegisterDiscoveredFresh(m: Manager, now: Clock.DateTime, shots: seq<string>, disk: Disk)
    ensures Fresh(RegisterDiscovered(m, now, shots, disk).files, |m.files|)
    decreases |shots|
  {
    if |shots| > 0 {
      var next := if Recorded(m.files, shots[0]) then m
                  else RegisterScreenshot(m, now, shots[0], true, None, ProbeOf(disk, shots[0]));
      RegisterDiscoveredFresh(next, now, shots[1..], disk);
      var r := RegisterDiscovered(next, now, shots[1..], disk);
      assert r == RegisterDiscovered(m, now, shots, disk);
      assert Fresh(r.files, |next.files|);
      var k := |m.files|;
      if !Recorded(m.files, shots[0]) {
        assert r.files[k] == next.files[k] by {
          assert r.files[k] == r.files[..|next.files|][k];
        }
      }
      forall i | k <= i < |r.files|
        ensures !Recorded(r.files[..i], r.files[i].filepath)
      {
        if i < |next.files| {
          assert i == k && r.files[..k] == m.files;
        }
      }
    }
  }

  /** After the loop every discovered path has a record. */
  lemma {:induction false} RegisterDiscoveredCovers(m: Manager, now: Clock.DateTime, shots: seq<string>, disk: Disk)
    ensures var r := RegisterDiscovered(m, now, shots, disk);
            forall s :: s in shots ==> Recorded(r.files, s)
    decreases |shots|
  {
    if |shots| > 0 {
      var next := if Recorded(m.files, shots[0]) then m
                  else RegisterScreenshot(m, now, shots[0], true, None, ProbeOf(disk, shots[0]));
      RegisterDiscoveredCovers(next, now, shots[1..], disk);
      var r := RegisterDiscovered(next, now, shots[1..], disk);
      assert r == RegisterDiscovered(m, now, shots, disk);
      assert Recorded(next.files, shots[0]) by {
        if !Recorded(m.files, shots[0]) {
          assert next.files[|m.files|].filepath == shots[0];
        }
      }
      assert r.files[..|next.files|] == next.files;
      RecordedInPrefix(r.files, |next.files|, shots[0]);
      forall s | s in shots
        ensures Recorded(r.files, s)
      {
        if s != shots[0] {
          assert s in shots[1..];
        }
      }
    }
  }

  /** A discovered path that had no record gets exactly one new record. */
  lemma RegisteredOnce(m: Manager, now: Clock.DateTime, shots: seq<string>, disk: Disk, shot: string)
    requires shot in shots && !Recorded(m.files, shot)
    ensures var r := RegisterDiscovered(m, now, shots, disk);
            exists i :: |m.files| <= i < |r.files| && r.files[i].filepath == shot
                        && ShotRecord(r.files[i], shots)
                        && forall j :: |m.files| <= j < |r.files| && j != i ==> r.files[j].filepath != shot
  {
    var r := RegisterDiscovered(m, now, shots, disk);
    RegisterDiscoveredCovers(m, now, shots, disk);
    RegisterDiscoveredFresh(m, now, shots, disk);
    RegisterDiscoveredAddsShots(m, now, shots, disk);
    forall k | 0 <= k < |m.files|
      ensures r.files[k].filepath != shot
    {
      NotInPrefix(r.files, |m.files|, shot, k);
    }
    var i :| 0 <= i < |r.files| && r.files[i].filepath == shot;
    forall j | |m.files| <= j < |r.files| && j != i
      ensures r.files[j].filepath != shot
    {
      if i < j {
        FreshDistinct(r.files, |m.files|, i, j);
      } else {
        FreshDistinct(r.files, |m.files|, j, i);
      }
    }
  }

  /** A path that already had a record gets no new one. */
  lemma NotRegisteredTwice(m: Manager, now: Clock.DateTime, shots: seq<string>, disk: Disk, shot: string)
    requires Recorded(m.files, shot)
    ensures var r := RegisterDiscovered(m, now, shots, disk);
            forall j :: |m.files| <= j < |r.files| ==> r.files[j].filepath != shot
  {
    var r := RegisterDiscovered(m, now, shots, disk);
    RegisterDiscoveredFresh(m, now, shots, disk);
    var i :| 0 <= i < |m.files| && m.files[i].filepath == shot;
    forall j | |m.files| <= j < |r.files|
      ensures r.files[j].filepath != shot
    {
      assert r.files[..j][i] == r.files[..|m.files|][i] == m.files[i];
      assert Recorded(r.files[..j], shot);
    }
  }

  /** When every discovered path has a record, the loop changes nothing. */
  lemma {:induction false} RegisterRecordedIsNoop(m: Manager, now: Clock.DateTime, shots: seq<string>, disk: Disk)
    requires forall s :: s in shots ==> Recorded(m.files, s)
    ensures RegisterDiscovered(m, now, shots, disk) == m
    decreases |shots|
  {
    if |shots| > 0 {
      assert shots[0] in shots;
      forall s | s in shots[1..]
        ensures Recorded(m.files, s)
      {
        assert s in shots;
      }
      RegisterRecordedIsNoop(m, now, shots[1..], disk);
    }
  }

  /** Registering the same discoveries again adds nothing. */
  lemma RegisterDiscoveredIdempotent(m: Manager, now: Clock.DateTime, now': Clock.DateTime, shots: seq<string>, disk: Disk)
    ensures var r := RegisterDiscovered(m, now, shots, disk);
            RegisterDiscovered(r, now', shots, disk) == r
  {
    RegisterDiscoveredCovers(m, now, shots, disk);
    RegisterRecordedIsNoop(RegisterDiscovered(m, now, shots, disk), now', shots, disk);
  }

  // ---------------------------------------------------------------------------
  // save_evidence_log

  const EvidenceVersion := 1

  /** The saved document. `duration` is the run time in seconds rounded to
      two places, taken as given. */
  datatype Document = Document(version: int, startedAt: string, finishedAt: string, duration: real,
                               processStats: Entries, events: seq<Event>, files: seq<FileRecord>,
                               logsHint: string)

  /** `evidencia_<YYYY-MM-DD_HH-MM-SS>.json`. */
  function EvidenceName(t: Clock.DateTime): string
  {
    Settings.EvidencePrefix + Clock.FileStamp(t) + Settings.JsonExtension
  }

  /** The document is written directly in the evidence directory. */
  function EvidencePath(base: string, t: Clock.DateTime): (r: string)
    ensures |r| > 0 && Text.PathName(r) == EvidenceName(t)
  {
    var name := EvidenceName(t);
    Clock.FileStampNoSlash(t);
    assert |name| > 1;
    Text.PathNameOfChild(Settings.EvidencesDir(base), name);
    Settings.EvidencesDir(base) + "/" + name
  }

  /** What the save sees of the world: the `*.png` files found in the
      evidence directory (`None` when the search fails), the file system,
      the clock at each reading, the rounded duration, and whether writing
      the document succeeded. */
  datatype SaveWorld = SaveWorld(discovered: Option<seq<string>>, disk: Disk,
                                 registeredAt: Clock.DateTime, finishedAt: Clock.DateTime,
                                 namedAt: Clock.DateTime, duration: real, written: bool)

  /** The outcome of a save: the manager afterwards, the returned path and
      the document written, if any. */
  datatype Saved = Saved(manager: Manager, path: string, document: Option<Document>)

  /** `_auto_discover_screenshots`: a failed search finds nothing. */
  function Discovered(w: SaveWorld): seq<string>
  {
    match w.discovered
    case Some(shots) => shots
    case None => []
  }

  /** `save_evidence_log`: registers the screenshots not yet recorded, then
      writes the document and returns its path, or "" when writing fails.
      The registrations stay even when the write fails. */
  function SaveEvidenceLog(m: Manager, base: string, processStats: Option<Entries>, w: SaveWorld): (r: Saved)
    ensures r.manager.startedAt == m.startedAt && r.manager.events == m.events
    ensures |m.files| <= |r.manager.files| && r.manager.files[..|m.files|] == m.files
    ensures forall s :: s in Discovered(w) ==> Recorded(r.manager.files, s)
    ensures w.written <==> r.path != ""
    ensures w.written <==> r.document.Some?
    ensures w.written ==> Text.PathName(r.path) == EvidenceName(w.namedAt)
    ensures r.document.Some? ==>
              var doc := r.document.value;
              && doc.version == EvidenceVersion
              && doc.startedAt == Clock.IsoSeconds(m.startedAt)
              && doc.finishedAt == Clock.IsoSeconds(w.finishedAt)
              && doc.events == r.manager.events && doc.files == r.manager.files
              && (processStats.None? ==> doc.processStats == [])
              && (processStats.Some? ==> doc.processStats == processStats.value)
              && doc.duration == w.duration
              && doc.logsHint == Settings.LogsDir(base)
  {
    var shots := Discovered(w);
    var after := RegisterDiscovered(m, w.registeredAt, shots, w.disk);
    RegisterDiscoveredCovers(m, w.registeredAt, shots, w.disk);
    if !w.written then Saved(after, "", None)
    else
      var doc := Document(EvidenceVersion, Clock.IsoSeconds(m.startedAt), Clock.IsoSeconds(w.finishedAt),
                          w.duration, OrEmpty(processStats), after.events, after.files,
                          Settings.LogsDir(base));
      Saved(after, EvidencePath(base, w.namedAt), Some(doc))
  }

  /** A second save over the same discoveries registers nothing more. */
  lemma SaveTwiceRegistersOnce(m: Manager, base: string, processStats: Option<Entries>, w: SaveWorld, w': SaveWorld)
    requires w'.discovered == w.discovered && w'.disk == w.disk
    ensures var once := SaveEvidenceLog(m, base, processStats, w).manager;
            SaveEvidenceLog(once, base, processStats, w').manager == once
  {
    RegisterDiscoveredIdempotent(m, w.registeredAt, w'.registeredAt, Discovered(w), w.disk);
  }
}

=== FILE: excel.dfy ===
/** The Excel report: its file name, the products sheet, the summary sheet
    and the chart on it, as placements of values in cells. Fonts, fills,
    column widths and merged cells are styling and are not part of the model. */
module Report {
  import opened Wrappers
  import Numbers
  import Text
  import Clock
  import Settings
  import Store

  /** A cell value. */
  datatype Cell = Str(s: string) | Int(i: int) | Num(x: real)

  /** Cells by (row, column), both counted from 1 as in the workbook. */
  type Cells = map<(int, int), Cell>

  /** A worksheet: its name, its cells and the number formats set on them. */
  datatype Sheet = Sheet(name: string, cells: Cells, formats: map<(int, int), string>)

  /** A rectangular cell reference. */
  datatype Range = Range(minCol: int, minRow: int, maxCol: int, maxRow: int)

  /** The bar chart of product counts per category, anchored at a cell. */
  datatype Chart = Chart(data: Range, categories: Range, anchor: string)

  /** A saved workbook and the path it was saved under. */
  datatype Workbook = Workbook(path: string, products: Sheet, summary: Sheet, chart: Option<Chart>)

  datatype ReportError =
    | UnknownLanguage(language: string)  // the sheet-name lookup has no such key
    | SaveFailed                          // writing the file raised

  const DescriptionLimit := 100
  const Ellipsis := "..."

  const ProductHeaders := ["ID", "Título", "Precio", "Categoría", "Descripción", "Fecha Inserción"]
  const ProductColumns := 6
  const PriceColumn := 3
  const PriceFormat := "#,##0.00"

  const SummaryTitle := "RESUMEN DE PRODUCTOS"
  const GeneralHeading := "Estadísticas Generales"
  const TotalLabel := "Total de productos:"
  const AverageLabel := "Precio promedio general:"
  const CategoryHeading := "Estadísticas por Categoría"
  const CategoryHeaders := ["Categoría", "Cantidad", "Precio Promedio", "Precio Mínimo", "Precio Máximo"]
  const CategoryColumns := 5
  const CategoryHeaderRow := 8
  const FirstCategoryRow := 9
  const CurrencyFormat := "$#,##0.00"
  const FooterOffset := 12
  const FooterPrefix := "Reporte generado: "
  const ChartAnchor := "G8"

  /** `Reporte_<YYYY-MM-DD>.xlsx`. */
  function ReportName(now: Clock.DateTime): string
  {
    Settings.ExcelPrefix + Clock.DateText(now) + Settings.ExcelExtension
  }

  /** The report is saved directly in the reports directory, under its dated name. */
  function ReportPath(base: string, now: Clock.DateTime): (r: string)
    ensures Text.PathName(r) == ReportName(now)
  {
    var name := ReportName(now);
    Clock.DateTextNoSlash(now);
    assert name[0] == 'R';
    Text.PathNameOfChild(Settings.ReportsDir(base), name);
    Settings.ReportsDir(base) + "/" + name
  }

  /** The date in a report name reads back as the day of the report. */
  lemma ReportNameDate(now: Clock.DateTime)
    ensures var n := ReportName(now);
            && |n| == |Settings.ExcelPrefix| + |Clock.DateText(now)| + |Settings.ExcelExtension|
            && n[|Settings.ExcelPrefix|..|n| - |Settings.ExcelExtension|] == Clock.DateText(now)
            && Clock.DateFields(n[|Settings.ExcelPrefix|..|n| - |Settings.ExcelExtension|])
               == Some((now.year as int, now.month as int, now.day as int))
  {
    var n := ReportName(now);
    assert n[|Settings.ExcelPrefix|..|n| - |Settings.ExcelExtension|] == Clock.DateText(now);
    Clock.DateTextRoundTrip(now);
  }

  /** The description column: at most 100 characters, or the first 100
      followed by an ellipsis. */
  function ShortDescription(d: string): (r: string)
    ensures |r| <= DescriptionLimit + |Ellipsis|
    ensures var k := if |d| < DescriptionLimit then |d| else DescriptionLimit;
            k <= |r| && r[..k] == d[..k]
  {
    if |d| > DescriptionLimit then d[..DescriptionLimit] + Ellipsis else d
  }

  /** The descriptions left as they are: the short ones, and those already
      of the shortened shape (100 characters and the ellipsis). A longer one
      is cut to exactly 103 characters ending in the ellipsis. */
  lemma ShortDescriptionCases(d: string)
    ensures ShortDescription(d) == d <==>
              |d| <= DescriptionLimit
              || (|d| == DescriptionLimit + |Ellipsis| && d[DescriptionLimit..] == Ellipsis)
    ensures |d| > DescriptionLimit ==>
              |ShortDescription(d)| == DescriptionLimit + |Ellipsis|
              && ShortDescription(d)[DescriptionLimit..] == Ellipsis
  {
    if |d| > DescriptionLimit {
      var r := ShortDescription(d);
      assert r[DescriptionLimit..] == Ellipsis;
      if |d| == DescriptionLimit + |Ellipsis| && d[DescriptionLimit..] == Ellipsis {
        assert d == d[..DescriptionLimit] + d[DescriptionLimit..];
      }
    }
  }

  /** Shortening an already shortened description changes nothing. */
  lemma ShortDescriptionIdempotent(d: string)
    ensures ShortDescription(ShortDescription(d)) == ShortDescription(d)
  {
    if |d| > DescriptionLimit {
      var r := ShortDescription(d);
      assert r[..DescriptionLimit] == d[..DescriptionLimit];
    }
  }

  /** Column c of an appended product row: id, title, price, category,
      description, date. */
  function ProductCell(p: (int, Store.Row), c: int): Cell
  {
    if c == 1 then Int(p.0)
    else if c == 2 then Str(p.1.title)
    else if c == 3 then Num(p.1.price)
    else if c == 4 then Str(p.1.category)
    else if c == 5 then Str(ShortDescription(p.1.description))
    else Str(p.1.fecha)
  }

  /** The header row followed by one appended row per product. */
  function ProductCells(ps: seq<(int, Store.Row)>): Cells
  {
    map r, c | 1 <= r <= |ps| + 1 && 1 <= c <= ProductColumns ::
      (r, c) := if r == 1 then Str(ProductHeaders[c - 1]) else ProductCell(ps[r - 2], c)
  }

  /** The price number format on column 3 of rows 2 to n + 1. */
  function PriceFormats(n: nat): map<(int, int), string>
  {
    map r | 2 <= r <= n + 1 :: (r, PriceColumn) := PriceFormat
  }

  function ProductsSheet(name: string, ps: seq<(int, Store.Row)>): Sheet
  {
    Sheet(name, ProductCells(ps), PriceFormats(|ps|))
  }

  /** The products sheet has the header row and one row per product, and
      no other cell. */
  lemma ProductsDomain(name: string, ps: seq<(int, Store.Row)>)
    ensures var cells := ProductsSheet(name, ps).cells;
            forall k :: k in cells <==> 1 <= k.0 <= |ps| + 1 && 1 <= k.1 <= ProductColumns
  {
  }

  /** Row 1 holds the column headers, in order. */
  lemma ProductsHeader(name: string, ps: seq<(int, Store.Row)>)
    ensures var cells := ProductsSheet(name, ps).cells;
            forall c :: 1 <= c <= ProductColumns ==> (1, c) in cells && cells[(1, c)] == Str(ProductHeaders[c - 1])
  {
  }

  /** Rows 2 to n + 1 hold the products in input order. */
  lemma ProductsInOrder(name: string, ps: seq<(int, Store.Row)>)
    ensures var cells := ProductsSheet(name, ps).cells;
            forall r, c :: 2 <= r <= |ps| + 1 && 1 <= c <= ProductColumns ==>
              (r, c) in cells && cells[(r, c)] == ProductCell(ps[r - 2], c)
  {
  }

  /** Row i + 2 holds product i: its id, title, price, category, shortened
      description and date, in that column order. */
  lemma ProductRowAt(name: string, ps: seq<(int, Store.Row)>, i: nat)
    requires i < |ps|
    ensures var cells := ProductsSheet(name, ps).cells;
            && cells[(i + 2, 1)] == Int(ps[i].0)
            && cells[(i + 2, 2)] == Str(ps[i].1.title)
            && cells[(i + 2, 3)] == Num(ps[i].1.price)
            && cells[(i + 2, 4)] == Str(ps[i].1.category)
            && cells[(i + 2, 5)] == Str(ShortDescription(ps[i].1.description))
            && cells[(i + 2, 6)] == Str(ps[i].1.fecha)
  {
    ProductsInOrder(name, ps);
  }

  /** The price format lands on exactly the cells that hold a price. */
  lemma PriceFormatOnPrices(name: string, ps: seq<(int, Store.Row)>)
    ensures var s := ProductsSheet(name, ps);
            forall k :: k in s.formats <==> k in s.cells && s.cells[k].Num?
  {
    var s := ProductsSheet(name, ps);
    forall k
      ensures k in s.formats <==> k in s.cells && s.cells[k].Num?
    {
      if k in s.cells && k.0 > 1 {
        assert s.cells[k] == ProductCell(ps[k.0 - 2], k.1);
      }
    }
  }

  /** The statistics dictionary as the summary reads it: `total_products` and
      `avg_price` are read with a default of 0, `category_stats` with a
      default of no rows. */
  datatype SummaryInput = SummaryInput(total: Option<int>, avg: Option<real>,
                                       categoryStats: Option<seq<Store.CategoryStat>>)

  /** The dictionary `get_statistics` produces, where every key is present. */
  function FromStatistics(s: Store.Statistics): SummaryInput
  {
    SummaryInput(Some(s.totalProducts), Some(s.avgPrice), Some(s.categoryStats))
  }

  function CategoryRows(s: SummaryInput): seq<Store.CategoryStat>
  {
    s.categoryStats.GetOr([])
  }

  /** The value written next to the total label. */
  function TotalCell(s: SummaryInput): Cell
  {
    Int(s.total.GetOr(0))
  }

  /** The value written next to the average label; the default is the integer 0. */
  function AverageCell(s: SummaryInput): Cell
  {
    if s.avg.Some? then Num(s.avg.value) else Int(0)
  }

  /** Column c of the row of one category: name, count, average, minimum, maximum. */
  function CategoryCell(st: Store.CategoryStat, c: int): Cell
  {
    if c == 1 then Str(st.category)
    else if c == 2 then Int(st.count)
    else if c == 3 then Num(st.avgPrice)
    else if c == 4 then Num(st.minPrice)
    else Num(st.maxPrice)
  }

  /** The footer sits four rows below the last category row. */
  function FooterRow(n: nat): int
  {
    n + FooterOffset
  }

  function FooterText(now: Clock.DateTime): string
  {
    FooterPrefix + Clock.SqlStamp(now)
  }

  /** The cells the summary writes when there are n categories: the title,
      the headings, the two labelled totals, the category table (its header
      row 8 and one row per category) and the footer. */
  predicate InSummary(n: nat, r: int, c: int)
  {
    || (c == 1 && (r == 1 || r == 3 || r == 4 || r == 5 || r == 7))
    || (c == 2 && (r == 4 || r == 5))
    || (CategoryHeaderRow <= r < FirstCategoryRow + n && 1 <= c <= CategoryColumns)
    || (r == FooterRow(n) && c == 1)
  }

  /** What the summary writes into one of its cells. */
  function SummaryCell(s: SummaryInput, now: Clock.DateTime, r: int, c: int): Cell
    requires InSummary(|CategoryRows(s)|, r, c)
  {
    var stats := CategoryRows(s);
    if r == 1 then Str(SummaryTitle)
    else if r == 3 then Str(GeneralHeading)
    else if r == 4 then (if c == 1 then Str(TotalLabel) else TotalCell(s))
    else if r == 5 then (if c == 1 then Str(AverageLabel) else AverageCell(s))
    else if r == 7 then Str(CategoryHeading)
    else if r == CategoryHeaderRow then Str(CategoryHeaders[c - 1])
    else if r < FirstCategoryRow + |stats| then CategoryCell(stats[r - FirstCategoryRow], c)
    else Str(FooterText(now))
  }

  /** The summary sheet. Its pieces are written to distinct cells (see
      `FooterBelowTable`), so the order of the writes does not matter. */
  function SummaryCells(s: SummaryInput, now: Clock.DateTime): Cells
  {
    var n := |CategoryRows(s)|;
    map r, c | 1 <= r <= FooterRow(n) && 1 <= c <= CategoryColumns && InSummary(n, r, c) ::
      (r, c) := SummaryCell(s, now, r, c)
  }

  /** Cells under the currency format: the overall average and the average,
      minimum and maximum of every category row. */
  predicate IsCurrencyCell(n: nat, r: int, c: int)
  {
    (r == 5 && c == 2) || (FirstCategoryRow <= r < FirstCategoryRow + n && 3 <= c <= CategoryColumns)
  }

  function SummaryFormats(n: nat): map<(int, int), string>
  {
    map r, c | 1 <= r < FirstCategoryRow + n && 1 <= c <= CategoryColumns && IsCurrencyCell(n, r, c) ::
      (r, c) := CurrencyFormat
  }

  function SummarySheet(name: string, s: SummaryInput, now: Clock.DateTime): Sheet
  {
    Sheet(name, SummaryCells(s, now), SummaryFormats(|CategoryRows(s)|))
  }

  /** The chart is added only when charts are enabled and there are categories.
      Its data is the count column from the header row down, its categories
      the name column of the category rows. */
  function CategoryChart(includeCharts: bool, n: nat): (r: Option<Chart>)
    ensures r.Some? <==> includeCharts && n > 0
  {
    if includeCharts && n > 0 then
      Some(Chart(Range(2, CategoryHeaderRow, 2, CategoryHeaderRow + n),
                 Range(1, FirstCategoryRow, 1, CategoryHeaderRow + n), ChartAnchor))
    else None
  }

  /** The summary writes exactly its listed cells. */
  lemma SummaryDomain(s: SummaryInput, now: Clock.DateTime)
    ensures forall k :: k in SummaryCells(s, now) <==> InSummary(|CategoryRows(s)|, k.0, k.1)
  {
  }

  /** The footer row n + 12 is below the last category row n + 8, so the
      footer overwrites no cell of the table. */
  lemma FooterBelowTable(n: nat)
    ensures FooterRow(n) > FirstCategoryRow + n - 1
    ensures forall r, c :: CategoryHeaderRow <= r < FirstCategoryRow + n ==> (r, c) != (FooterRow(n), 1)
  {
  }

  /** Category i is on row 9 + i, below the header row of the table. */
  lemma SummaryCategoryRows(s: SummaryInput, now: Clock.DateTime)
    ensures var stats, cells := CategoryRows(s), SummaryCells(s, now);
            && (forall c :: 1 <= c <= CategoryColumns ==>
                  (CategoryHeaderRow, c) in cells && cells[(CategoryHeaderRow, c)] == Str(CategoryHeaders[c - 1]))
            && (forall r, c :: FirstCategoryRow <= r < FirstCategoryRow + |stats| && 1 <= c <= CategoryColumns ==>
                  (r, c) in cells && cells[(r, c)] == CategoryCell(stats[r - FirstCategoryRow], c))
  {
  }

  /** The totals sit next to their labels, and the footer with the generation
      time on row n + 12. */
  lemma SummaryTotalsAndFooter(s: SummaryInput, now: Clock.DateTime)
    ensures var n, cells := |CategoryRows(s)|, SummaryCells(s, now);
            && (4, 1) in cells && cells[(4, 1)] == Str(TotalLabel)
            && (4, 2) in cells && cells[(4, 2)] == TotalCell(s)
            && (5, 1) in cells && cells[(5, 1)] == Str(AverageLabel)
            && (5, 2) in cells && cells[(5, 2)] == AverageCell(s)
            && (FooterRow(n), 1) in cells && cells[(FooterRow(n), 1)] == Str(FooterText(now))
  {
  }

  /** A missing total or average is shown as 0; the dictionary of
      `get_statistics` shows its own values. */
  lemma SummaryDefaults(s: SummaryInput, t: Store.Statistics)
    ensures s.total.None? ==> TotalCell(s) == Int(0)
    ensures s.avg.None? ==> AverageCell(s) == Int(0)
    ensures s.categoryStats.None? ==> CategoryRows(s) == []
    ensures var f := FromStatistics(t);
            TotalCell(f) == Int(t.totalProducts) && AverageCell(f) == Num(t.avgPrice)
            && CategoryRows(f) == t.categoryStats
  {
  }

  /** Every currency-formatted cell holds a number, and every real number on
      the summary is currency-formatted. */
  lemma CurrencyOnNumbers(name: string, s: SummaryInput, now: Clock.DateTime)
    ensures var sh := SummarySheet(name, s, now);
            && (forall k :: k in sh.formats ==> k in sh.cells && (sh.cells[k].Num? || sh.cells[k].Int?))
            && (forall k :: k in sh.cells && sh.cells[k].Num? ==> k in sh.formats)
  {
    var n := |CategoryRows(s)|;
    var sh := SummarySheet(name, s, now);
    SummaryDomain(s, now);
    forall k | k in sh.formats
      ensures k in sh.cells && (sh.cells[k].Num? || sh.cells[k].Int?)
    {
      assert IsCurrencyCell(n, k.0, k.1);
      assert sh.cells[k] == SummaryCell(s, now, k.0, k.1);
    }
    forall k | k in sh.cells && sh.cells[k].Num?
      ensures k in sh.formats
    {
      assert sh.cells[k] == SummaryCell(s, now, k.0, k.1);
      assert IsCurrencyCell(n, k.0, k.1);
    }
  }

  /** The chart plots exactly the count column under its header against the
      category names, row by row. */
  lemma ChartReferences(s: SummaryInput, now: Clock.DateTime, includeCharts: bool)
    requires CategoryChart(includeCharts, |CategoryRows(s)|).Some?
    ensures var ch, stats, cells := CategoryChart(includeCharts, |CategoryRows(s)|).value, CategoryRows(s), SummaryCells(s, now);
            && ch.data.minCol == ch.data.maxCol == 2 && ch.categories.minCol == ch.categories.maxCol == 1
            && cells[(ch.data.minRow, 2)] == Str("Cantidad")
            && ch.data.maxRow - ch.data.minRow == |stats| && ch.categories.maxRow - ch.categories.minRow + 1 == |stats|
            && (forall r :: ch.data.minRow < r <= ch.data.maxRow ==>
                  (r, 2) in cells && cells[(r, 2)] == Int(stats[r - FirstCategoryRow].count))
            && (forall r :: ch.categories.minRow <= r <= ch.categories.maxRow ==>
                  (r, 1) in cells && cells[(r, 1)] == Str(stats[r - FirstCategoryRow].category))
  {
    SummaryCategoryRows(s, now);
  }

  /** `generate_report`: both sheets, the optional chart, saved under the dated
      name. An unknown report language fails before anything is saved. */
  function GenerateReport(base: string, products: seq<(int, Store.Row)>, statistics: SummaryInput,
                          language: string, includeCharts: bool, saveOk: bool,
                          now: Clock.DateTime): (r: Result<Workbook, ReportError>)
    ensures r.Failure? <==> Settings.SheetNames(language).None? || !saveOk
    ensures Settings.SheetNames(language).None? ==> r == Failure(UnknownLanguage(language))
    ensures r.Success? ==>
              && Text.PathName(r.value.path) == ReportName(now)
              && r.value.products.cells == ProductCells(products)
              && r.value.summary.cells == SummaryCells(statistics, now)
              && (r.value.chart.Some? <==> includeCharts && |CategoryRows(statistics)| > 0)
  {
    match Settings.SheetNames(language)
    case None => Failure(UnknownLanguage(language))
    case Some(names) =>
      if !saveOk then Failure(SaveFailed)
      else Success(Workbook(ReportPath(base, now), ProductsSheet(names.0, products),
                            SummarySheet(names.1, statistics, now),
                            CategoryChart(includeCharts, |CategoryRows(statistics)|)))
  }

  /** The report of a table: one product row per stored id, one category row
      per category, and chart bars that add up to the stored total. */
  lemma ReportOfTable(t: Store.Table, now: Clock.DateTime)
    ensures var s := FromStatistics(Store.GetStatistics(t));
            && |Store.AllProducts(t)| == |t|
            && |CategoryRows(s)| == |Store.Categories(t)|
            && Store.TotalCount(CategoryRows(s)) == |t|
            && TotalCell(s) == Int(|t|)
  {
    Store.StatisticsCountsSum(t);
  }
}

=== FILE: form_server.dfy ===
/** The local upload server of `web/form_server.py`: which file names it
    accepts and the order in which `upload` turns a request away. Flask,
    `secure_filename` and the disk are outside the model; the name
    `secure_filename` produces is an input. */
module FormServer {
  import opened Wrappers
  import Text

  const AllowedExtensions: set<string> := {"xlsx", "xls"}

  /** `filename.rsplit(".", 1)[1]`: the text after the last dot, when there
      is a dot. */
  function Extension(name: string): (r: Option<string>)
    ensures r.None? <==> '.' !in name
    ensures r.Some? ==> '.' !in r.value && |r.value| < |name|
                        && name == name[..|name| - |r.value| - 1] + "." + r.value
  {
    var i := Text.LastIndexOf(name, '.');
    if i < 0 then None
    else
      assert name == name[..i] + "." + name[i + 1..];
      Some(name[i + 1..])
  }

  /** `allowed_file(filename)`. */
  function AllowedFile(name: string): bool
  {
    var ext := Extension(name);
    ext.Some? && Text.Lower(ext.value) in AllowedExtensions
  }

  /** A name without a dot is never allowed. */
  lemma AllowedFileNeedsDot(name: string)
    requires '.' !in name
    ensures !AllowedFile(name)
  {
  }

  /** For a name written as stem, dot, extension (no dot in the extension),
      only the extension decides, lowercased; the stem may hold dots of
      its own. Every name with a dot can be written so, in one way. */
  lemma AllowedFileSplit(stem: string, ext: string)
    requires '.' !in ext
    ensures Extension(stem + "." + ext) == Some(ext)
    ensures AllowedFile(stem + "." + ext) <==> Text.Lower(ext) in AllowedExtensions
  {
    var name := stem + "." + ext;
    assert name[|stem|] == '.';
    assert name[|stem| + 1..] == ext;
    Text.LastIndexOfAt(name, '.', |stem|);
  }

  /** Upper-casing maps a dot to a dot and nothing else to one. */
  lemma UpperKeepsDots(s: string)
    ensures '.' in Text.Upper(s) <==> '.' in s
  {
    if '.' in s {
      var i :| 0 <= i < |s| && s[i] == '.';
      assert Text.Upper(s)[i] == '.';
    }
  }

  /** Upper-casing distributes over concatenation. */
  lemma UpperConcat(a: string, b: string)
    ensures Text.Upper(a + b) == Text.Upper(a) + Text.Upper(b)
  {
    assert forall i :: 0 <= i < |a + b| ==> Text.Upper(a + b)[i] == (Text.Upper(a) + Text.Upper(b))[i];
  }

  /** The check ignores case: a name in capitals is allowed exactly when
      the name is. */
  lemma AllowedFileIgnoresCase(name: string)
    ensures AllowedFile(Text.Upper(name)) == AllowedFile(name)
  {
    UpperKeepsDots(name);
    var ext := Extension(name);
    if ext.Some? {
      var e := ext.value;
      var stem := name[..|name| - |e| - 1];
      AllowedFileSplit(stem, e);
      UpperConcat(stem, "." + e);
      UpperConcat(".", e);
      assert Text.Upper(".") == ".";
      UpperKeepsDots(e);
      assert Text.Upper(name) == Text.Upper(stem) + "." + Text.Upper(e);
      AllowedFileSplit(Text.Upper(stem), Text.Upper(e));
      Text.CaseFoldingForgetsCase(e);
    }
  }

  /** Lower-casing, checked character by character. */
  lemma LowerIs(s: string, t: string)
    requires |s| == |t| && forall i :: 0 <= i < |s| ==> Text.LowerChar(s[i]) == t[i]
    ensures Text.Lower(s) == t
  {
  }

  /** The check is case-insensitive: "R.XLSX" is accepted. */
  lemma AllowedFileCapitals()
    ensures AllowedFile("R.XLSX")
  {
    AllowedFileSplit("R", "XLSX");
    assert "R" + "." + "XLSX" == "R.XLSX";
    LowerIs("XLSX", "xlsx");
  }

  /** Only the last extension counts: "a.xlsx.exe" is turned away. */
  lemma AllowedFileLastExtension()
    ensures !AllowedFile("a.xlsx.exe")
  {
    AllowedFileSplit("a.xlsx", "exe");
    assert "a.xlsx" + "." + "exe" == "a.xlsx.exe";
    LowerIs("exe", "exe");
  }

  /** A dot inside the stem is not an extension: "a.tar.xls" has the
      extension "xls" alone, and is accepted. */
  lemma AllowedFileInnerDot()
    ensures Extension("a.tar.xls") == Some("xls")
    ensures AllowedFile("a.tar.xls")
  {
    AllowedFileSplit("a.tar", "xls");
    assert "a.tar" + "." + "xls" == "a.tar.xls";
    LowerIs("xls", "xls");
  }

  /** The multipart `file` field: the name the client sent and the name
      `secure_filename` makes of it. */
  datatype FilePart = FilePart(filename: string, safeName: string)

  /** Why `upload` turned a request away. */
  datatype Rejection = MissingField | EmptyName | BadExtension

  /** The page `upload` answers with. */
  datatype Reply = Rejected(reason: Rejection) | Saved(savedName: string)

  /** The HTTP status of a reply: 400 for every rejection. */
  function Status(r: Reply): nat
  {
    if r.Rejected? then 400 else 200
  }

  /** `upload()`: no `file` field, then an empty name, then a disallowed
      extension are turned away, in that order; anything else is saved
      under its safe name. */
  function Upload(file: Option<FilePart>): (r: Reply)
    ensures r.Rejected? && r.reason == MissingField <==> file.None?
    ensures r.Rejected? && r.reason == EmptyName <==> file.Some? && file.value.filename == ""
    ensures r.Rejected? && r.reason == BadExtension <==>
              file.Some? && file.value.filename != "" && !AllowedFile(file.value.filename)
    ensures r.Saved? <==> file.Some? && AllowedFile(file.value.filename)
    ensures r.Saved? ==> r.savedName == file.value.safeName
  {
    match file
    case None => Rejected(MissingField)
    case Some(f) =>
      if f.filename == "" then Rejected(EmptyName)
      else if !AllowedFile(f.filename) then Rejected(BadExtension)
      else Saved(f.safeName)
  }

  /** The line of the success page that names the saved file. */
  function SuccessLine(savedName: string): string
  {
    "Archivo subido exitosamente: " + savedName + " - success"
  }

  /** The success page always carries the word the form robot looks for. */
  lemma SuccessPageSaysSuccess(savedName: string)
    ensures Text.Contains(SuccessLine(savedName), "success")
  {
    var a := "Archivo subido exitosamente: ";
    var c := " - success";
    var page := a + savedName + c;
    var i := |a| + |savedName| + 3;
    assert page[i..i + 7] == c[3..10] == "success";
    Text.ContainsSlice(page, i, i + 7);
  }

  /** Every upload that is not turned away answers 200 with the success
      page; every other one answers 400. */
  lemma UploadStatus(file: Option<FilePart>)
    ensures Status(Upload(file)) == 200 <==> file.Some? && AllowedFile(file.value.filename)
    ensures Upload(file).Saved? ==> Text.Contains(SuccessLine(Upload(file).savedName), "success")
  {
    if Upload(file).Saved? {
      SuccessPageSaysSuccess(Upload(file).savedName);
    }
  }

  /** An empty name is reported as empty, not as a bad extension, although
      it has no extension either: the name check comes first. */
  lemma EmptyNameBeforeExtension(safeName: string)
    ensures !AllowedFile("")
    ensures Upload(Some(FilePart("", safeName))) == Rejected(EmptyName)
  {
  }
}

=== FILE: launcher.dfy ===
/** The command-line launcher `main_pix_rpa.py`: `--steps` picks which of the
    six steps run, and the launcher fills in what a picked step needs from
    a step that was not picked. */
module Launcher {
  import opened Wrappers
  import Text
  import Numbers
  import Pipeline
  import Orchestrator

  // ---------------------------------------------------------------------
  // Parsing --steps
  // ---------------------------------------------------------------------

  /** `s.replace(" ", "")`. */
  function RemoveSpaces(s: string): (r: string)
    ensures ' ' !in r
    ensures forall c :: c != ' ' ==> (c in r <==> c in s)
  {
    if |s| == 0 then ""
    else (if s[0] == ' ' then "" else [s[0]]) + RemoveSpaces(s[1..])
  }

  /** The pieces the argument is cut into: at commas when it has one,
      otherwise one piece per character. */
  function Tokens(arg: string): seq<string>
  {
    var s := RemoveSpaces(arg);
    if ',' in s then Text.Split(s, ',') else Text.Chars(s)
  }

  /** A valid step number: 1 to 6. */
  predicate IsStep(k: int)
  {
    1 <= k <= 6
  }

  /** The step a piece names, if it names one: empty pieces and those
      `int()` rejects are skipped, as are numbers outside 1 to 6. */
  function StepOf(p: string): (r: Option<nat>)
    ensures r.Some? <==> (Numbers.ParseInt(p).Some? && IsStep(Numbers.ParseInt(p).value))
    ensures r.Some? ==> r.value == Numbers.ParseInt(p).value
  {
    if |p| == 0 then None
    else
      match Numbers.ParseInt(p)
      case None => None
      case Some(v) => if IsStep(v) then Some(v as nat) else None
  }

  /** No number occurs twice. */
  predicate Distinct(xs: seq<nat>)
  {
    forall i, j :: 0 <= i < j < |xs| ==> xs[i] != xs[j]
  }

  /** The loop over the pieces: each step named and not yet listed is
      appended. */
  function Collect(parts: seq<string>, acc: seq<nat>): (r: seq<nat>)
    decreases |parts|
  {
    if |parts| == 0 then acc
    else
      var next := match StepOf(parts[0])
                  case Some(v) => if v in acc then acc else acc + [v]
                  case None => acc;
      Collect(parts[1..], next)
  }

  /** A number is collected exactly when it was there already or some piece
      names it; every collected number is a step, listed once. */
  lemma {:induction false} CollectSteps(parts: seq<string>, acc: seq<nat>)
    requires Distinct(acc) && forall i :: 0 <= i < |acc| ==> IsStep(acc[i])
    ensures var r := Collect(parts, acc);
            && Distinct(r)
            && (forall i :: 0 <= i < |r| ==> IsStep(r[i]))
            && (forall k: nat :: k in r <==> k in acc || exists p :: p in parts && StepOf(p) == Some(k))
    decreases |parts|
  {
    if |parts| > 0 {
      var next := match StepOf(parts[0])
                  case Some(v) => if v in acc then acc else acc + [v]
                  case None => acc;
      CollectSteps(parts[1..], next);
      var r := Collect(parts, acc);
      forall k: nat
        ensures k in r <==> k in acc || exists p :: p in parts && StepOf(p) == Some(k)
      {
        if exists p :: p in parts && StepOf(p) == Some(k) {
          var p :| p in parts && StepOf(p) == Some(k);
          if p != parts[0] {
            assert p in parts[1..];
          }
        }
        if exists p :: p in parts[1..] && StepOf(p) == Some(k) {
          var p :| p in parts[1..] && StepOf(p) == Some(k);
          assert p in parts;
        }
      }
    }
  }

  /** Strictly increasing. */
  predicate Increasing(xs: seq<nat>)
  {
    forall i, j :: 0 <= i < j < |xs| ==> xs[i] < xs[j]
  }

  /** Inserts `x` into an increasing sequence before the first larger element. */
  function Insert(x: nat, xs: seq<nat>): (r: seq<nat>)
    ensures |r| == |xs| + 1
    ensures forall y :: y in r <==> y == x || y in xs
    decreases |xs|
  {
    if |xs| == 0 || x <= xs[0] then [x] + xs else [xs[0]] + Insert(x, xs[1..])
  }

  lemma {:induction false} InsertIncreasing(x: nat, xs: seq<nat>)
    requires Increasing(xs) && x !in xs
    ensures Increasing(Insert(x, xs))
    decreases |xs|
  {
    if |xs| > 0 && x > xs[0] {
      assert Increasing(xs[1..]);
      InsertIncreasing(x, xs[1..]);
      var tail := Insert(x, xs[1..]);
      forall j | 0 <= j < |tail| ensures xs[0] < tail[j] {
        assert tail[j] in tail;
      }
    } else if |xs| > 0 {
      assert x < xs[0];
    }
  }

  /** `sorted(xs)`, as an insertion sort. */
  function Sort(xs: seq<nat>): (r: seq<nat>)
    ensures |r| == |xs|
    ensures forall y :: y in r <==> y in xs
    decreases |xs|
  {
    if |xs| == 0 then [] else Insert(xs[0], Sort(xs[1..]))
  }

  /** Sorting numbers that are all different gives them in increasing order. */
  lemma {:induction false} SortIncreasing(xs: seq<nat>)
    requires Distinct(xs)
    ensures Increasing(Sort(xs))
    decreases |xs|
  {
    if |xs| > 0 {
      assert Distinct(xs[1..]);
      SortIncreasing(xs[1..]);
      assert xs[0] !in xs[1..];
      InsertIncreasing(xs[0], Sort(xs[1..]));
    }
  }

  /** `parse_steps(steps_arg)`. */
  function ParseSteps(arg: string): (r: seq<nat>)
  {
    if |arg| == 0 then [] else Sort(Collect(Tokens(arg), []))
  }

  /** The parsed steps are in increasing order, each a step from 1 to 6, and
      a step is among them exactly when some piece of the argument names it. */
  lemma ParseStepsMeaning(arg: string)
    ensures var r := ParseSteps(arg);
            && Increasing(r)
            && (forall i :: 0 <= i < |r| ==> IsStep(r[i]))
            && (forall k: nat :: k in r <==> exists p :: p in Tokens(arg) && StepOf(p) == Some(k))
  {
    if |arg| > 0 {
      CollectSteps(Tokens(arg), []);
      var c := Collect(Tokens(arg), []);
      SortIncreasing(c);
      var r := Sort(c);
      forall i | 0 <= i < |r| ensures IsStep(r[i]) {
        assert r[i] in c;
      }
    } else {
      assert Tokens(arg) == [];
    }
  }

  /** Spaces are ignored: removing them first parses the same, and an
      argument of spaces alone, or none at all, selects nothing. */
  lemma ParseStepsIgnoresSpaces(arg: string)
    ensures ParseSteps(RemoveSpaces(arg)) == ParseSteps(arg)
    ensures (forall i :: 0 <= i < |arg| ==> arg[i] == ' ') ==> ParseSteps(arg) == []
  {
    var s := RemoveSpaces(arg);
    RemoveSpacesNone(s);
    assert Tokens(s) == Tokens(arg);
    if |s| == 0 {
      assert Tokens(arg) == [] by { assert Text.Chars(s) == []; }
      assert Collect([], []) == [];
      assert Sort([]) == [];
    }
    if forall i :: 0 <= i < |arg| ==> arg[i] == ' ' {
      RemoveSpacesBlank(arg);
    }
  }

  /** An argument of spaces alone has nothing left once they are removed. */
  lemma {:induction false} RemoveSpacesBlank(s: string)
    requires forall i :: 0 <= i < |s| ==> s[i] == ' '
    ensures RemoveSpaces(s) == ""
    decreases |s|
  {
    if |s| > 0 {
      RemoveSpacesBlank(s[1..]);
    }
  }

  /** The head of an increasing sequence is its least element. */
  lemma HeadIsLeast(xs: seq<nat>, k: nat)
    requires Increasing(xs) && k in xs
    ensures xs[0] <= k
  {
    var j :| 0 <= j < |xs| && xs[j] == k;
    if j > 0 {
      assert xs[0] < xs[j];
    }
  }

  lemma HeadMember(xs: seq<nat>)
    ensures |xs| > 0 ==> xs[0] in xs
  {
  }

  /** Past the head of an increasing sequence come exactly its other elements. */
  lemma TailMember(xs: seq<nat>, k: nat)
    requires Increasing(xs) && |xs| > 0
    ensures k in xs[1..] <==> k in xs && k != xs[0]
  {
    if k in xs[1..] {
      var i :| 0 <= i < |xs| - 1 && xs[1..][i] == k;
      assert xs[0] < xs[i + 1];
    }
    if k in xs && k != xs[0] {
      var j :| 0 <= j < |xs| && xs[j] == k;
      assert xs[1..][j - 1] == k;
    }
  }

  /** An increasing sequence is fixed by the numbers it holds. */
  lemma {:induction false} IncreasingUnique(xs: seq<nat>, ys: seq<nat>)
    requires Increasing(xs) && Increasing(ys)
    requires forall k :: k in xs <==> k in ys
    ensures xs == ys
    decreases |xs|
  {
    HeadMember(xs);
    HeadMember(ys);
    if |xs| > 0 && |ys| > 0 {
      HeadIsLeast(xs, ys[0]);
      HeadIsLeast(ys, xs[0]);
      forall k ensures k in xs[1..] <==> k in ys[1..] {
        TailMember(xs, k);
        TailMember(ys, k);
      }
      IncreasingUnique(xs[1..], ys[1..]);
      assert xs == [xs[0]] + xs[1..] && ys == [ys[0]] + ys[1..];
    }
  }

  /** A one-digit piece names that digit. */
  lemma StepOfDigit(c: char)
    requires Numbers.IsDigit(c)
    ensures Numbers.ParseInt([c]) == Some(Numbers.DigitValue(c) as int)
  {
    var d := [c];
    assert Numbers.DigitsValue(d[..0]) == 0;
    Numbers.ParseUnsignedDigits(d);
  }

  /** Without spaces, removing them changes nothing. */
  lemma {:induction false} RemoveSpacesNone(s: string)
    requires ' ' !in s
    ensures RemoveSpaces(s) == s
    decreases |s|
  {
    if |s| > 0 {
      assert ' ' !in s[1..] by { forall c | c in s[1..] ensures c in s { } }
      RemoveSpacesNone(s[1..]);
      assert s == [s[0]] + s[1..];
    }
  }

  /** The parse is the increasing sequence of the steps the pieces name. */
  lemma ParseStepsIs(arg: string, r: seq<nat>)
    requires Increasing(r)
    requires forall k: nat :: k in r <==> exists p :: p in Tokens(arg) && StepOf(p) == Some(k)
    ensures ParseSteps(arg) == r
  {
    ParseStepsMeaning(arg);
    IncreasingUnique(ParseSteps(arg), r);
  }

  /** A digit names the step of its value, when that is 1 to 6. */
  predicate DigitNames(arg: string, k: nat)
    requires forall i :: 0 <= i < |arg| ==> Numbers.IsDigit(arg[i])
  {
    IsStep(k) && exists i :: 0 <= i < |arg| && Numbers.DigitValue(arg[i]) == k
  }

  /** An argument of digits alone (the `123` form) selects, in increasing
      order, the steps its digits name. */
  lemma ParseDigits(arg: string, r: seq<nat>)
    requires forall i :: 0 <= i < |arg| ==> Numbers.IsDigit(arg[i])
    requires Increasing(r) && forall k: nat :: k in r <==> DigitNames(arg, k)
    ensures ParseSteps(arg) == r
  {
    assert ' ' !in arg && ',' !in arg;
    RemoveSpacesNone(arg);
    var t := Tokens(arg);
    assert t == Text.Chars(arg);
    forall k: nat ensures k in r <==> exists p :: p in t && StepOf(p) == Some(k) {
      if exists p :: p in t && StepOf(p) == Some(k) {
        var p :| p in t && StepOf(p) == Some(k);
        var i :| 0 <= i < |t| && t[i] == p;
        StepOfDigit(arg[i]);
      }
      if DigitNames(arg, k) {
        var i :| 0 <= i < |arg| && Numbers.DigitValue(arg[i]) == k;
        StepOfDigit(arg[i]);
        assert t[i] in t && StepOf(t[i]) == Some(k);
      }
    }
    ParseStepsIs(arg, r);
  }

  /** `--steps 123` selects steps 1, 2 and 3. */
  lemma ParseStepsDigits()
    ensures ParseSteps("123") == [1, 2, 3]
  {
    var a := "123";
    forall k: nat ensures k in [1, 2, 3] <==> DigitNames(a, k) {
      if k in [1, 2, 3] {
        assert Numbers.DigitValue(a[k - 1]) == k;
      }
    }
    ParseDigits(a, [1, 2, 3]);
  }

  /** `--steps 7` selects nothing: 7 is not a step. */
  lemma ParseStepsOutOfRange()
    ensures ParseSteps("7") == []
  {
    var b := "7";
    assert forall k: nat :: !DigitNames(b, k);
    ParseDigits(b, []);
  }

  /** A piece of two digits, the first not zero, is 10 or more: no step. */
  lemma StepOfTwoDigits(a: char, b: char)
    requires Numbers.IsDigit(a) && Numbers.IsDigit(b) && a != '0'
    ensures StepOf([a, b]) == None
  {
    var d := [a, b];
    assert d[..1] == [a] && d[..0] == [];
    Numbers.ParseUnsignedDigits(d);
  }

  /** With a comma and no spaces, the pieces are the comma-separated parts. */
  lemma CommaTokens(arg: string, parts: seq<string>)
    requires ' ' !in arg && ',' in arg
    requires |parts| >= 1 && (forall k :: 0 <= k < |parts| ==> ',' !in parts[k])
    requires arg == Text.Join(parts, [','])
    ensures Tokens(arg) == parts
  {
    RemoveSpacesNone(arg);
    Text.SplitJoin(parts, ',');
  }

  /** The steps named by some piece, counted by position. */
  lemma NamedByPosition(parts: seq<string>, r: seq<nat>)
    requires forall k: nat :: k in r <==> exists i :: 0 <= i < |parts| && StepOf(parts[i]) == Some(k)
    ensures forall k: nat :: k in r <==> exists p :: p in parts && StepOf(p) == Some(k)
  {
    forall k: nat ensures k in r <==> exists p :: p in parts && StepOf(p) == Some(k) {
      if exists p :: p in parts && StepOf(p) == Some(k) {
        var p :| p in parts && StepOf(p) == Some(k);
        var i :| 0 <= i < |parts| && parts[i] == p;
      }
    }
  }

  /** An argument of comma-separated parts (the `1,2,3` form) selects, in
      increasing order, the steps its parts name. */
  lemma ParseCommaList(arg: string, parts: seq<string>, r: seq<nat>)
    requires ' ' !in arg && ',' in arg
    requires |parts| >= 1 && (forall k :: 0 <= k < |parts| ==> ',' !in parts[k])
    requires arg == Text.Join(parts, [','])
    requires Increasing(r) && forall k: nat :: k in r <==> exists i :: 0 <= i < |parts| && StepOf(parts[i]) == Some(k)
    ensures ParseSteps(arg) == r
  {
    CommaTokens(arg, parts);
    NamedByPosition(parts, r);
    ParseStepsIs(arg, r);
  }

  /** `--steps 1,2,3` selects steps 1, 2 and 3, as `123` does. */
  lemma ParseStepsCommas()
    ensures ParseSteps("1,2,3") == [1, 2, 3]
  {
    var t := ["1", "2", "3"];
    assert Text.Join(t, [',']) == "1,2,3" by {
      assert Text.Join(t[1..], [',']) == "2,3" by { assert t[1..][1..] == ["3"]; }
    }
    StepOfDigit('1');
    StepOfDigit('2');
    StepOfDigit('3');
    ParseCommaList("1,2,3", t, [1, 2, 3]);
  }

  /** `--steps 12,3` selects step 3 alone: 12 is a number, but no step. */
  lemma ParseStepsDropsNonSteps()
    ensures ParseSteps("12,3") == [3]
  {
    var t := ["12", "3"];
    assert Text.Join(t, [',']) == "12,3" by { assert t[1..] == ["3"]; }
    StepOfTwoDigits('1', '2');
    StepOfDigit('3');
    ParseCommaList("12,3", t, [3]);
  }

  // ---------------------------------------------------------------------
  // Running the selected steps
  // ---------------------------------------------------------------------

  /** One selected step. Step 2 without products fetches them straight from
      the API consumer (no statistics, no evidence); steps 4 and 5 without a
      report build it first with step 3; a number outside 1 to 6 does
      nothing. */
  function Perform(k: nat, s: Orchestrator.State, w: Orchestrator.World): (r: Orchestrator.Outcome)
  {
    if !IsStep(k) then Pipeline.Done(s)
    else if k == 2 && s.carry.products.None? then
      match w.fetched
      case Raised => Pipeline.Failed(s)
      case Returned((n, _)) => Orchestrator.Step(2, s.(carry := s.carry.(products := Some(n))), w)
    else if (k == 4 || k == 5) && s.carry.excel.None? then
      match Orchestrator.Step(3, s, w)
      case Failed(t) => Pipeline.Failed(t)
      case Done(t) => Orchestrator.Step(k, t, w)
    else Orchestrator.Step(k, s, w)
  }

  /** The selected steps as one function, for the run. */
  function Performs(w: Orchestrator.World): (nat, Orchestrator.State) -> Orchestrator.Outcome
  {
    (k: nat, s: Orchestrator.State) => Perform(k, s, w)
  }

  /** `run_selected_steps(steps)`: the environment check, then the whole
      pipeline when no step is selected, or else the selected steps in the
      order given. */
  function Launch(steps: seq<nat>, w: Orchestrator.World): (r: Orchestrator.RunResult)
    ensures !w.environmentOk ==> !r.ok && |r.started| == 0
  {
    if !w.environmentOk then Pipeline.Trace(false, [], Orchestrator.Start(w))
    else if |steps| == 0 then Pipeline.RunList(Orchestrator.AllSteps, Orchestrator.Start(w), Orchestrator.Steps(w))
    else Pipeline.RunList(steps, Orchestrator.Start(w), Performs(w))
  }

  /** The exit code of `run_selected_steps`: 0 exactly when the run went
      through. */
  function RunSelected(steps: seq<nat>, w: Orchestrator.World): (code: int)
    ensures code == 0 <==> Launch(steps, w).ok
    ensures code == 0 || code == 1
  {
    if Launch(steps, w).ok then 0 else 1
  }

  /** `main` of the launcher: parse `--steps`, then run them. */
  function LauncherMain(arg: string, w: Orchestrator.World): (code: int)
    ensures code == 0 || code == 1
    ensures |arg| == 0 ==> code == Orchestrator.ExitCode(w)
  {
    RunSelected(ParseSteps(arg), w)
  }

  /** No selection is the pipeline of `main.py`: same steps, same state,
      same exit code. */
  lemma EmptySelectionIsFullRun(w: Orchestrator.World)
    ensures Launch([], w) == Orchestrator.Run(w)
    ensures RunSelected([], w) == Orchestrator.ExitCode(w)
  {
  }

  /** Where what a step needs is already there, the launcher performs
      exactly the pipeline's step. */
  lemma PerformPrepared(k: nat, s: Orchestrator.State, w: Orchestrator.World)
    requires IsStep(k) && Orchestrator.Prepared(k, s.carry)
    ensures Perform(k, s, w) == Orchestrator.Step(k, s, w)
  {
  }

  /** Along the pipeline's order, the launcher's steps are the pipeline's. */
  lemma PerformsAgree(w: Orchestrator.World)
    ensures Pipeline.Agree(Orchestrator.AllSteps, Performs(w), Orchestrator.Steps(w), Orchestrator.PreparedAt(), 0)
  {
    var steps := Orchestrator.AllSteps;
    forall i, t | 0 <= i < |steps| && Orchestrator.PreparedAt()(i, t)
      ensures && Performs(w)(steps[i - 0], t) == Orchestrator.Steps(w)(steps[i - 0], t)
              && (Performs(w)(steps[i - 0], t).Done? ==> Orchestrator.PreparedAt()(i + 1, Performs(w)(steps[i - 0], t).state))
    {
      assert steps[i - 0] == i + 1;
      PerformPrepared(i + 1, t, w);
      Orchestrator.StepRaises(i + 1, t, w);
    }
  }

  /** Selecting all six steps runs exactly the pipeline of `main.py`. */
  lemma AllSelectedIsFullRun(w: Orchestrator.World)
    ensures Launch(Orchestrator.AllSteps, w) == Orchestrator.Run(w)
  {
    if w.environmentOk {
      PerformsAgree(w);
      Pipeline.RunListAgree(Orchestrator.AllSteps, Orchestrator.Start(w), Performs(w), Orchestrator.Steps(w),
                            Orchestrator.PreparedAt(), 0);
    }
  }

  /** Selecting step 4 or 5 without step 3 builds the report first: the run
      ends as it would had step 3 been selected just before. */
  lemma ReportBuiltOnDemand(k: nat, rest: seq<nat>, s: Orchestrator.State, w: Orchestrator.World)
    requires k == 4 || k == 5
    requires s.carry.excel.None?
    ensures var once := Pipeline.RunList([k] + rest, s, Performs(w));
            var twice := Pipeline.RunList([3, k] + rest, s, Performs(w));
            once.ok == twice.ok && once.state == twice.state
  {
    assert ([k] + rest)[1..] == rest;
    assert ([3, k] + rest)[1..] == [k] + rest;
    assert Perform(3, s, w) == Orchestrator.Step(3, s, w);
    match Orchestrator.Step(3, s, w)
    case Failed(t) =>
    case Done(t) =>
      assert t.carry.excel.Some?;
      assert Perform(k, t, w) == Orchestrator.Step(k, t, w);
  }

  /** The same, for a whole launch: `--steps 4` ends as `--steps 3,4` does. */
  lemma LaunchBuildsReport(k: nat, rest: seq<nat>, w: Orchestrator.World)
    requires k == 4 || k == 5
    ensures Launch([k] + rest, w).ok == Launch([3, k] + rest, w).ok
    ensures Launch([k] + rest, w).state == Launch([3, k] + rest, w).state
  {
    ReportBuiltOnDemand(k, rest, Orchestrator.Start(w), w);
  }

  /** Step 2 alone fetches the products without recording anything about
      the fetch: no statistics change, no backup file is listed, and a
      failed fetch ends the run before any evidence is captured. */
  lemma StepTwoAloneFetchesQuietly(w: Orchestrator.World)
    requires w.environmentOk
    ensures var r := Launch([2], w);
            && r.state.process.stats == Orchestrator.Start(w).process.stats
            && (w.fetched.Raised? ==> !r.ok && r.state == Orchestrator.Start(w))
            && (r.ok <==> w.fetched.Returned? && w.inserted.Returned?)
  {
    assert [2][1..] == [];
  }
}

=== FILE: logger.dfy ===
/** The message and level the project's logger produces. Handlers, colours
    and log files are not modelled: a log call yields one `LogLine`. */
module Logger {
  import opened Values
  import Text
  import Numbers

  datatype Level = Debug | Info | Warning | Error | Critical

  /** One emitted log line: its level and its fully formatted message. */
  datatype LogLine = LogLine(level: Level, message: string)

  /** The `extra_data` argument of a log call: absent, a dict, or any other value. */
  datatype Extra = NoExtra | Fields(entries: Entries) | Other(v: Value)

  /** Whether `if extra_data:` takes the formatting branch. */
  predicate ExtraPresent(e: Extra)
  {
    match e
    case NoExtra => false
    case Fields(es) => |es| > 0
    case Other(v) => Truthy(v)
  }

  /** The `k=v` text of every entry, in insertion order. */
  function FieldTexts(es: Entries): (r: seq<string>)
    ensures |r| == |es|
    ensures forall i :: 0 <= i < |es| ==> r[i] == es[i].0 + "=" + StrOf(es[i].1)
  {
    seq(|es|, i requires 0 <= i < |es| => es[i].0 + "=" + StrOf(es[i].1))
  }

  /** `_format_message`: the message, then " | " and the extra data when present. */
  function FormatMessage(message: string, extra: Extra): (r: string)
    ensures message <= r
    ensures !ExtraPresent(extra) ==> r == message
    ensures ExtraPresent(extra) ==> |r| >= |message| + 3 && r[|message|..|message| + 3] == " | "
  {
    if !ExtraPresent(extra) then message
    else match extra
      case Fields(es) => message + " | " + Text.Join(FieldTexts(es), " | ")
      case Other(v) => message + " | " + StrOf(v)
  }

  /** Formatting with a dict of fields `a` followed by `b` is the same as
      formatting with `a` and then formatting the result with `b`. */
  lemma FormatMessageFieldsCompose(message: string, a: Entries, b: Entries)
    ensures FormatMessage(message, Fields(a + b))
            == FormatMessage(FormatMessage(message, Fields(a)), Fields(b))
  {
    if |a| > 0 && |b| > 0 {
      FieldsCompose(message, a, b);
    } else if |a| == 0 {
      assert a + b == b;
    } else {
      assert a + b == a;
    }
  }

  lemma FieldsCompose(message: string, a: Entries, b: Entries)
    requires |a| > 0 && |b| > 0
    ensures FormatMessage(message, Fields(a + b))
            == FormatMessage(FormatMessage(message, Fields(a)), Fields(b))
  {
    var ta, tb := FieldTexts(a), FieldTexts(b);
    var ja, jb := Text.Join(ta, " | "), Text.Join(tb, " | ");
    FieldTextsConcat(a, b);
    Text.JoinConcat(ta, tb, " | ");
    var first := message + " | " + ja;
    calc {
      FormatMessage(message, Fields(a + b));
      { FormatFields(message, a + b); }
      message + " | " + Text.Join(ta + tb, " | ");
      message + " | " + (ja + " | " + jb);
      first + " | " + jb;
      { FormatFields(first, b); }
      FormatMessage(first, Fields(b));
      { FormatFields(message, a); }
      FormatMessage(FormatMessage(message, Fields(a)), Fields(b));
    }
  }

  lemma FieldTextsConcat(a: Entries, b: Entries)
    ensures FieldTexts(a + b) == FieldTexts(a) + FieldTexts(b)
  {
    var l, r := FieldTexts(a + b), FieldTexts(a) + FieldTexts(b);
    forall k | 0 <= k < |l|
      ensures l[k] == r[k]
    {
      if k < |a| { assert (a + b)[k] == a[k]; } else { assert (a + b)[k] == b[k - |a|]; }
    }
  }

  /** A non-empty dict of fields is appended after " | ". */
  lemma FormatFields(message: string, es: Entries)
    requires |es| > 0
    ensures FormatMessage(message, Fields(es)) == message + " | " + Text.Join(FieldTexts(es), " | ")
  {
  }

  const StartWords := ["INICIADO", "STARTED", "BEGIN"]
  const DoneWords := ["COMPLETADO", "COMPLETED", "SUCCESS"]
  const ErrorWords := ["ERROR", "FAILED", "FALLIDO"]
  const WarningWords := ["WARNING", "ADVERTENCIA"]

  /** "PASO n: name - status", the core of every step message. */
  function StepText(step: int, name: string, status: string): string
  {
    "PASO " + Numbers.IntToString(step) + ": " + name + " - " + status
  }

  /** The level a step status is logged at, decided on the upper-cased status. */
  function StepLevel(status: string): Level
  {
    var u := Text.Upper(status);
    if u in ErrorWords then Error
    else if u in WarningWords then Warning
    else Info
  }

  /** The emoji the step message starts with. */
  function StepIcon(status: string): string
  {
    var u := Text.Upper(status);
    if u in StartWords then "\U{1F680} "
    else if u in DoneWords then "\U{2705} "
    else if u in ErrorWords then "\U{274C} "
    else if u in WarningWords then "\U{26A0}\U{FE0F} "
    else ""
  }

  /** `log_step`: the message always begins with an icon and the step text;
      ERROR/FAILED/FALLIDO log an error, WARNING/ADVERTENCIA a warning, and
      every other status (the start and done words included) logs info. */
  function LogStep(step: int, name: string, status: string, details: Extra): (r: LogLine)
    ensures StepIcon(status) + StepText(step, name, status) <= r.message
    ensures r.level == Error <==> Text.Upper(status) in ErrorWords
    ensures r.level == Warning <==> Text.Upper(status) in WarningWords
    ensures r.level != Error && r.level != Warning ==> r.level == Info
  {
    LogLine(StepLevel(status), FormatMessage(StepIcon(status) + StepText(step, name, status), details))
  }

  /** The level of a step does not depend on how its status is capitalised. */
  lemma LogStepIgnoresCase(step: int, name: string, status: string, details: Extra)
    ensures LogStep(step, name, status, details).level
            == LogStep(step, name, Text.Lower(status), details).level
    ensures StepIcon(Text.Lower(status)) == StepIcon(status)
  {
    Text.CaseFoldingForgetsCase(status);
  }

  /** `log_api_call`: a 2xx status logs success at info, any other non-zero
      status logs an error, and no status (None or 0) logs a plain info line. */
  function LogApiCall(url: string, verb: string, status: Wrappers.Option<int>, responseTime: Value): (r: LogLine)
    ensures r.level == Error <==> status.Some? && status.value != 0 && !(200 <= status.value < 300)
    ensures r.level != Error ==> r.level == Info
    ensures r.level == Info && status.Some? && status.value != 0 ==>
              "API CALL SUCCESS: " <= r.message
  {
    var code := match status case Some(c) => Int(c) case None => Null;
    var details := Fields([("url", Str(url)), ("method", Str(verb)),
                           ("status_code", code), ("response_time_ms", responseTime)]);
    if status.Some? && status.value != 0 && 200 <= status.value < 300 then
      LogLine(Info, FormatMessage("API CALL SUCCESS: " + verb + " " + url, details))
    else if status.Some? && status.value != 0 then
      LogLine(Error, FormatMessage("API CALL ERROR: " + verb + " " + url, details))
    else
      LogLine(Info, FormatMessage("API CALL: " + verb + " " + url, details))
  }

  /** `log_file_operation`: info on success, error otherwise. */
  function LogFileOperation(operation: string, path: string, size: Value, success: bool): (r: LogLine)
    ensures r.level == (if success then Info else Error)
    ensures (if success then "FILE OPERATION SUCCESS: " else "FILE OPERATION FAILED: ") + operation <= r.message
  {
    var details := Fields([("operation", Str(operation)), ("filepath", Str(path)),
                           ("file_size_bytes", size), ("success", Bool(success))]);
    if success then LogLine(Info, FormatMessage("FILE OPERATION SUCCESS: " + operation, details))
    else LogLine(Error, FormatMessage("FILE OPERATION FAILED: " + operation, details))
  }

  /** The data handed to `mask_sensitive_data`: a dict, or anything else. */
  datatype Loggable = DictData(entries: Entries) | ScalarData(v: Value)

  const MaskText := "***MASKED***"

  const DefaultSensitiveKeys := ["password", "secret", "token", "key", "credential",
                                 "client_secret", "api_key", "auth", "authorization"]

  /** A key is sensitive when, lower-cased, it contains one of the lower-cased
      sensitive names. */
  predicate IsSensitiveKey(key: string, names: seq<string>)
  {
    exists j | 0 <= j < |names| :: Text.Contains(Text.Lower(key), Text.Lower(names[j]))
  }

  function MaskEntry(e: (string, Value), names: seq<string>): (string, Value)
  {
    if IsSensitiveKey(e.0, names) then (e.0, Str(MaskText)) else e
  }

  /** The dict branch of `mask_sensitive_data`: same keys in the same order;
      a value is replaced by the mask exactly when its key is sensitive. */
  function MaskEntries(es: Entries, names: seq<string>): (r: Entries)
    ensures |r| == |es|
    ensures forall i :: 0 <= i < |es| ==> r[i].0 == es[i].0
    ensures forall i :: 0 <= i < |es| ==>
              r[i].1 == (if IsSensitiveKey(es[i].0, names) then Str(MaskText) else es[i].1)
  {
    if |es| == 0 then [] else [MaskEntry(es[0], names)] + MaskEntries(es[1..], names)
  }

  /** `mask_sensitive_data(data, sensitive_keys)`: non-dict data comes back
      unchanged; `None` for the key list means the default names. */
  function MaskSensitiveData(data: Loggable, sensitiveKeys: Wrappers.Option<seq<string>>): (r: Loggable)
    ensures data.ScalarData? ==> r == data
    ensures data.DictData? ==> r.DictData? && |r.entries| == |data.entries|
    ensures data.DictData? ==>
              var names := sensitiveKeys.GetOr(DefaultSensitiveKeys);
              forall i :: 0 <= i < |data.entries| ==>
                && r.entries[i].0 == data.entries[i].0
                && r.entries[i].1 == (if IsSensitiveKey(data.entries[i].0, names) then Str(MaskText)
                                      else data.entries[i].1)
  {
    match data
    case ScalarData(_) => data
    case DictData(es) => DictData(MaskEntries(es, sensitiveKeys.GetOr(DefaultSensitiveKeys)))
  }

  /** Masking twice is masking once. */
  lemma {:induction false} MaskEntriesIdempotent(es: Entries, names: seq<string>)
    ensures MaskEntries(MaskEntries(es, names), names) == MaskEntries(es, names)
  {
    if |es| > 0 {
      MaskEntriesIdempotent(es[1..], names);
      var m := MaskEntries(es, names);
      assert m[1..] == MaskEntries(es[1..], names);
    }
  }

  lemma MaskSensitiveDataIdempotent(data: Loggable, sensitiveKeys: Wrappers.Option<seq<string>>)
    ensures MaskSensitiveData(MaskSensitiveData(data, sensitiveKeys), sensitiveKeys)
            == MaskSensitiveData(data, sensitiveKeys)
  {
    if data.DictData? {
      MaskEntriesIdempotent(data.entries, sensitiveKeys.GetOr(DefaultSensitiveKeys));
    }
  }

  /** Leaving out the key list is the same as passing the default names. */
  lemma MaskDefaultKeys(data: Loggable)
    ensures MaskSensitiveData(data, Wrappers.None) == MaskSensitiveData(data, Wrappers.Some(DefaultSensitiveKeys))
  {
  }

  /** Concrete cases: an access token is masked, a product id is not. */
  lemma MaskExample()
    ensures MaskSensitiveData(DictData([("Access_Token", Str("abc")), ("id", Int(3))]), Wrappers.None)
            == DictData([("Access_Token", Str(MaskText)), ("id", Int(3))])
  {
    TokenKeyIsSensitive();
    IdKeyIsNotSensitive();
    var es: Entries := [("Access_Token", Str("abc")), ("id", Int(3))];
    var m := MaskEntries(es, DefaultSensitiveKeys);
    assert m[0] == ("Access_Token", Str(MaskText));
    assert m[1] == ("id", Int(3));
  }

  lemma TokenKeyIsSensitive()
    ensures IsSensitiveKey("Access_Token", DefaultSensitiveKeys)
  {
    LowerAccessToken();
    TokenInAccessToken();
    assert Text.Lower(DefaultSensitiveKeys[2]) == "token";
  }

  lemma LowerAccessToken()
    ensures Text.Lower("Access_Token") == "access_token"
  {
  }

  lemma TokenInAccessToken()
    ensures Text.Contains("access_token", "token")
  {
    Text.ContainsSlice("access_token", 7, 12);
    assert "access_token"[7..12] == "token";
  }

  lemma IdKeyIsNotSensitive()
    ensures !IsSensitiveKey("id", DefaultSensitiveKeys)
  {
    assert Text.Lower("id") == "id";
    forall j | 0 <= j < |DefaultSensitiveKeys|
      ensures !Text.Contains("id", Text.Lower(DefaultSensitiveKeys[j]))
    {
      var n := Text.Lower(DefaultSensitiveKeys[j]);
      assert n[0] in "pstkca";
      FirstCharAbsent("id", n);
    }
  }

  /** A string lacking the first character of `sub` does not contain `sub`. */
  lemma {:induction false} FirstCharAbsent(s: string, sub: string)
    requires |sub| > 0 && sub[0] !in s
    ensures !Text.Contains(s, sub)
    decreases |s|
  {
    if |sub| <= |s| {
      assert s[..|sub|][0] == s[0];
      FirstCharAbsent(s[1..], sub);
    }
  }
}

=== FILE: numbers.dfy ===
/** Decimal text of integers and the base-10 string parsing of Python's
    `int()` and `float()`. */
module Numbers {
  import opened Wrappers
  import Text

  predicate IsDigit(c: char)
  {
    '0' <= c <= '9'
  }

  function DigitValue(c: char): nat
    requires IsDigit(c)
  {
    c as int - '0' as int
  }

  function DigitChar(d: nat): (c: char)
    requires d < 10
    ensures IsDigit(c) && DigitValue(c) == d
  {
    ('0' as int + d) as char
  }

  function Pow10(k: nat): (r: nat)
    ensures r >= 1
  {
    if k == 0 then 1 else 10 * Pow10(k - 1)
  }

  function Pow2(k: nat): (r: nat)
    ensures r >= 1
  {
    if k == 0 then 1 else 2 * Pow2(k - 1)
  }

  /** `str(n)` for a natural number: decimal digits, most significant first. */
  function NatToString(n: nat): (r: string)
    ensures |r| >= 1
    ensures forall i :: 0 <= i < |r| ==> IsDigit(r[i])
  {
    if n < 10 then [DigitChar(n)] else NatToString(n / 10) + [DigitChar(n % 10)]
  }

  /** `str(i)` for any integer. */
  function IntToString(i: int): (r: string)
    ensures |r| >= 1
  {
    if i < 0 then "-" + NatToString(-i) else NatToString(i)
  }

  predicate DigitsOrUnderscores(s: string)
  {
    forall i :: 0 <= i < |s| ==> IsDigit(s[i]) || s[i] == '_'
  }

  /** Decimal digits with single underscores between them: the digit part
      Python's `int()` and `float()` accept. */
  predicate IsDigitGroup(s: string)
  {
    && |s| >= 1
    && IsDigit(s[0])
    && IsDigit(s[|s| - 1])
    && DigitsOrUnderscores(s)
    && forall i :: 0 <= i < |s| - 1 ==> !UnderscorePairAt(s, i)
  }

  /** Two underscores in a row start at index `i`. */
  predicate UnderscorePairAt(s: string, i: int)
  {
    0 <= i < |s| - 1 && s[i] == '_' && s[i + 1] == '_'
  }

  /** The number a run of digits denotes, underscores ignored. */
  function DigitsValue(s: string): nat
    requires DigitsOrUnderscores(s)
  {
    if s == [] then 0
    else if s[|s| - 1] == '_' then DigitsValue(s[..|s| - 1])
    else 10 * DigitsValue(s[..|s| - 1]) + DigitValue(s[|s| - 1])
  }

  /** How many digits (not underscores) a run holds. */
  function DigitCount(s: string): nat
  {
    if s == [] then 0
    else DigitCount(s[..|s| - 1]) + (if IsDigit(s[|s| - 1]) then 1 else 0)
  }

  /** `int(s)` in base 10: `None` where Python raises ValueError. Surrounding
      whitespace is ignored and one sign is allowed. */
  function ParseInt(s: string): Option<int>
  {
    ParseSigned(Text.StripSpace(s))
  }

  /** The text after stripping: an optional sign, then a digit group. */
  function ParseSigned(t: string): Option<int>
  {
    if |t| > 0 && (t[0] == '+' || t[0] == '-') then
      if IsDigitGroup(t[1..]) then
        var v: int := DigitsValue(t[1..]);
        Some(if t[0] == '-' then -v else v)
      else None
    else if IsDigitGroup(t) then Some(DigitsValue(t))
    else None
  }

  /** `float(s)` for plain decimal text (`12`, `-3.5`, `.5`, `1.`): `None` where
      Python raises ValueError. */
  function ParseDecimal(s: string): Option<real>
  {
    SignedDecimal(Text.StripSpace(s))
  }

  /** The text after stripping: an optional sign, then an unsigned decimal. */
  function SignedDecimal(t: string): Option<real>
  {
    if |t| > 0 && (t[0] == '+' || t[0] == '-') then
      match UnsignedDecimal(t[1..])
      case Some(v) => Some(if t[0] == '-' then -v else v)
      case None => None
    else UnsignedDecimal(t)
  }

  function UnsignedDecimal(t: string): Option<real>
  {
    if '.' in t then
      var k := Text.IndexOf(t, '.');
      var whole := t[..k];
      var frac := t[k + 1..];
      if (whole == "" || IsDigitGroup(whole)) && (frac == "" || IsDigitGroup(frac))
         && !(whole == "" && frac == "")
      then Some(DigitsValue(whole) as real + DigitsValue(frac) as real / Pow10(DigitCount(frac)) as real)
      else None
    else if IsDigitGroup(t) then Some(DigitsValue(t) as real)
    else None
  }

  /** Digits alone never contain whitespace, so stripping leaves them alone. */
  lemma DigitsUnstripped(s: string)
    requires forall i :: 0 <= i < |s| ==> IsDigit(s[i]) || s[i] == '-'
    ensures Text.StripSpace(s) == s
  {
    Text.StripNoneOf(s, Text.Space);
  }

  /** The decimal text of `n` reads back as `n`. */
  lemma {:induction false} NatToStringValue(n: nat)
    ensures IsDigitGroup(NatToString(n))
    ensures DigitsValue(NatToString(n)) == n
    ensures DigitCount(NatToString(n)) == |NatToString(n)|
  {
    var s := NatToString(n);
    if n >= 10 {
      NatToStringValue(n / 10);
      var p := NatToString(n / 10);
      assert s == p + [DigitChar(n % 10)];
      assert s[..|s| - 1] == p;
    }
  }

  /** Round trip: `int(str(i)) == i`. */
  lemma ParseIntOfIntToString(i: int)
    ensures ParseInt(IntToString(i)) == Some(i)
  {
    if i < 0 {
      ParseIntOfNegative(i);
    } else {
      ParseIntOfNonNegative(i);
    }
  }

  lemma ParseIntOfNegative(i: int)
    requires i < 0
    ensures ParseInt(IntToString(i)) == Some(i)
  {
    var n: nat := -i;
    var d := NatToString(n);
    assert IntToString(i) == "-" + d;
    NatToStringValue(n);
    ParseNegativeDigits(d);
  }

  lemma ParseIntOfNonNegative(i: int)
    requires i >= 0
    ensures ParseInt(IntToString(i)) == Some(i)
  {
    var n: nat := i;
    var d := NatToString(n);
    assert IntToString(i) == d;
    NatToStringValue(n);
    ParseUnsignedDigits(d);
  }

  /** Text that stripping leaves alone is parsed as it stands. */
  lemma ParseOfStripped(s: string)
    requires Text.StripSpace(s) == s
    ensures ParseInt(s) == ParseSigned(s)
    ensures ParseDecimal(s) == SignedDecimal(s)
  {
  }

  lemma ParseUnsignedDigits(d: string)
    requires forall k :: 0 <= k < |d| ==> IsDigit(d[k])
    requires IsDigitGroup(d)
    ensures ParseInt(d) == Some(DigitsValue(d) as int)
  {
    DigitsUnstripped(d);
    ParseOfStripped(d);
    ParseSignedDigits(d);
  }

  lemma ParseSignedDigits(d: string)
    requires forall k :: 0 <= k < |d| ==> IsDigit(d[k])
    requires IsDigitGroup(d)
    ensures ParseSigned(d) == Some(DigitsValue(d) as int)
  {
    assert IsDigit(d[0]);
  }

  lemma ParseNegativeDigits(d: string)
    requires forall k :: 0 <= k < |d| ==> IsDigit(d[k])
    requires IsDigitGroup(d)
    ensures ParseInt("-" + d) == Some(-(DigitsValue(d) as int))
  {
    NegativeDigitsChars(d);
    DigitsUnstripped("-" + d);
    ParseOfStripped("-" + d);
    ParseSignedNegative(d);
  }

  lemma NegativeDigitsChars(d: string)
    requires forall k :: 0 <= k < |d| ==> IsDigit(d[k])
    ensures forall k :: 0 <= k < |"-" + d| ==> IsDigit(("-" + d)[k]) || ("-" + d)[k] == '-'
  {
    var s := "-" + d;
    forall k | 0 <= k < |s|
      ensures IsDigit(s[k]) || s[k] == '-'
    {
      if k > 0 { assert s[k] == d[k - 1]; }
    }
  }

  lemma ParseSignedNegative(d: string)
    requires IsDigitGroup(d)
    ensures ParseSigned("-" + d) == Some(-(DigitsValue(d) as int))
  {
    var s := "-" + d;
    assert s[0] == '-' && s[1..] == d;
  }

  /** Round trip: `float(str(n)) == n` for a natural number. */
  lemma ParseDecimalOfNatToString(n: nat)
    ensures ParseDecimal(NatToString(n)) == Some(n as real)
  {
    var d := NatToString(n);
    NatToStringValue(n);
    DigitsUnstripped(d);
    ParseOfStripped(d);
    SignedDecimalOfDigits(d);
  }

  lemma SignedDecimalOfDigits(d: string)
    requires forall k :: 0 <= k < |d| ==> IsDigit(d[k])
    requires IsDigitGroup(d)
    ensures SignedDecimal(d) == Some(DigitsValue(d) as real)
  {
    assert IsDigit(d[0]);
    assert '.' !in d;
  }
}

=== FILE: onedrive.dfy ===
/** The OneDrive client: the outcome of authentication, the routing of an
    upload by file size, the byte ranges of a chunked upload and the walk that
    creates the remote folder level by level. Every answer of the token
    service and of Microsoft Graph is an input. */
module OneDrive {
  import opened Wrappers
  import Text
  import Settings
  import Collections

  /** What one HTTP call gave: a status code, or an exception raised by the
      HTTP library. */
  datatype Response = Status(code: int) | Raised

  /** The token request's reply: the access token if the reply has that key,
      and whether it carries an id token (delegated tokens do, app-only
      tokens do not). */
  datatype TokenReply = Reply(accessToken: Option<string>, hasIdToken: bool) | ReplyRaised

  /** The client's state between calls. */
  datatype Client = Client(token: Option<string>, appOnly: bool)

  /** `authenticate()`. An app-only token without a target user is refused,
      yet it is kept: the next upload will not authenticate again. */
  function Authenticate(c: Client, s: Settings.OneDriveSettings, reply: TokenReply): (r: (Client, bool))
    ensures r.1 <==> && Settings.OneDriveConfigured(s) && reply.Reply? && reply.accessToken.Some?
                     && (reply.hasIdToken || Settings.HasTargetUser(s))
    ensures r.1 ==> r.0.token == reply.accessToken
    ensures !Settings.OneDriveConfigured(s) || reply.ReplyRaised? ==> r.0 == c
  {
    if !Settings.OneDriveConfigured(s) then (c, false)
    else match reply
      case ReplyRaised => (c, false)
      case Reply(token, idToken) =>
        var appOnly := !idToken;
        if token.None? then (c.(appOnly := appOnly), false)
        else (Client(token, appOnly), !(appOnly && !Settings.HasTargetUser(s)))
  }

  /** An app-only token without a target user fails authentication but stays
      in the client, so a later upload goes ahead without authenticating. */
  lemma RefusedTokenIsKept(c: Client, s: Settings.OneDriveSettings, token: string, reply: TokenReply)
    requires Settings.OneDriveConfigured(s) && !Settings.HasTargetUser(s) && token != ""
    ensures var r := Authenticate(c, s, Reply(Some(token), false));
            !r.1 && r.0.token == Some(token) && Authorized(r.0, s, reply).1
  {
  }

  /** A client that came out of a successful authorization is authorized
      again, as is, whatever the token endpoint would answer next. */
  lemma AuthorizedClientIsReused(c: Client, s: Settings.OneDriveSettings, reply: TokenReply, next: TokenReply)
    requires Authorized(c, s, reply).1 && Settings.IsSet(Authorized(c, s, reply).0.token)
    ensures var c1 := Authorized(c, s, reply).0;
            Authorized(c1, s, next) == (c1, true)
  {
  }

  /** The token check at the start of `upload_file`: a client without a
      (non-empty) token authenticates first. */
  function Authorized(c: Client, s: Settings.OneDriveSettings, reply: TokenReply): (r: (Client, bool))
    ensures Settings.IsSet(c.token) ==> r == (c, true)
    ensures !Settings.IsSet(c.token) ==> r == Authenticate(c, s, reply)
  {
    if Settings.IsSet(c.token) then (c, true) else Authenticate(c, s, reply)
  }

  const Slash := Text.OneOf({'/'})

  /** `p.strip('/')`. */
  function StripSlashes(p: string): string
  {
    Text.Strip(p, Slash)
  }

  /** The remote folder of a file type; an unknown type goes with the JSON files. */
  function BasePath(s: Settings.OneDriveSettings, fileType: string): string
  {
    if fileType == "json" then s.jsonPath
    else if fileType == "excel" then s.reportsPath
    else if fileType == "evidence" then s.evidencesPath
    else s.jsonPath
  }

  /** How a file of a given size is sent. */
  datatype Route = TooLarge | SinglePut | Chunked

  /** Larger than the maximum: refused; smaller than one chunk: one PUT;
      otherwise, a file of exactly one chunk included: an upload session. */
  function RouteFor(size: nat): (r: Route)
    ensures r == TooLarge <==> size > Settings.MaxFileSize
    ensures r == SinglePut <==> size < Settings.ChunkSize
    ensures r == Chunked <==> Settings.ChunkSize <= size <= Settings.MaxFileSize
  {
    if size > Settings.MaxFileSize then TooLarge
    else if size < Settings.ChunkSize then SinglePut
    else Chunked
  }

  // ---------------------------------------------------------------------------
  // Chunked upload

  /** The `Content-Range` numbers of one chunk and its `Content-Length`. */
  datatype ChunkRange = ChunkRange(start: nat, end: nat, total: nat, length: nat)

  /** Statuses the upload session accepts for a chunk. */
  predicate Accepted(r: Response)
  {
    r == Status(200) || r == Status(201) || r == Status(202)
  }

  /** The next chunk once `uploaded` bytes are sent: a read of at most
      `chunk` bytes, its range clamped to the last byte of the file. */
  function NextChunk(size: nat, chunk: nat, uploaded: nat): (r: ChunkRange)
    requires uploaded < size && chunk > 0
  {
    var len := if chunk <= size - uploaded then chunk else size - uploaded;
    var end := uploaded + len - 1;
    ChunkRange(uploaded, if end <= size - 1 then end else size - 1, size, len)
  }

  /** All chunks of a file from byte `uploaded` on. */
  function ChunksFrom(size: nat, chunk: nat, uploaded: nat): seq<ChunkRange>
    requires chunk > 0
    decreases size - uploaded
  {
    if uploaded >= size then []
    else var r := NextChunk(size, chunk, uploaded); [r] + ChunksFrom(size, chunk, uploaded + r.length)
  }

  function Chunks(size: nat, chunk: nat): seq<ChunkRange>
    requires chunk > 0
  {
    ChunksFrom(size, chunk, 0)
  }

  /** The ranges follow each other without gap or overlap and together span
      bytes `from` to `size - 1`; every chunk but the last is full. */
  ghost predicate Tiles(cs: seq<ChunkRange>, from: nat, size: nat, chunk: nat)
  {
    && (|cs| == 0 <==> from >= size)
    && (|cs| > 0 ==> cs[0].start == from && cs[|cs| - 1].end == size - 1)
    && (forall j :: 0 <= j < |cs| ==>
          && cs[j].total == size && 1 <= cs[j].length <= chunk
          && cs[j].end == cs[j].start + cs[j].length - 1)
    && (forall j :: 0 <= j < |cs| - 1 ==> cs[j + 1].start == cs[j].end + 1 && cs[j].length == chunk)
  }

  /** The chunks of a file cover it: their ranges are contiguous, start at
      byte 0 and end at the last byte, and the clamp to the last byte never
      shortens a range. */
  lemma ChunksCover(size: nat, chunk: nat)
    requires chunk > 0
    ensures Tiles(Chunks(size, chunk), 0, size, chunk)
  {
    ChunksFromTile(size, chunk, 0);
  }

  lemma {:induction false} ChunksFromTile(size: nat, chunk: nat, from: nat)
    requires chunk > 0
    ensures Tiles(ChunksFrom(size, chunk, from), from, size, chunk)
    decreases size - from
  {
    if from < size {
      var r := NextChunk(size, chunk, from);
      var rest := ChunksFrom(size, chunk, from + r.length);
      ChunksFromTile(size, chunk, from + r.length);
      TilesCons(r, rest, from, size, chunk);
    }
  }

  lemma TilesCons(r: ChunkRange, rest: seq<ChunkRange>, from: nat, size: nat, chunk: nat)
    requires from < size && chunk > 0 && r == NextChunk(size, chunk, from)
    requires Tiles(rest, from + r.length, size, chunk)
    ensures Tiles([r] + rest, from, size, chunk)
  {
    var cs := [r] + rest;
    assert forall j :: 1 <= j < |cs| ==> cs[j] == rest[j - 1];
    if |rest| > 0 {
      assert r.length == chunk;
    }
  }

  /** What the upload loop sends, chunk `k` onwards: it stops after the first
      chunk the session does not accept. */
  function SendFrom(cs: seq<ChunkRange>, k: nat, status: nat -> Response): (r: (bool, seq<ChunkRange>))
    requires k <= |cs|
    decreases |cs| - k
  {
    if k == |cs| then (true, [])
    else if !Accepted(status(k)) then (false, [cs[k]])
    else var rest := SendFrom(cs, k + 1, status); (rest.0, [cs[k]] + rest.1)
  }

  /** The loop sends the chunks in order and stops at the first rejection:
      success means every chunk was sent and accepted. */
  lemma {:induction false} SendFromPrefix(cs: seq<ChunkRange>, k: nat, status: nat -> Response)
    requires k <= |cs|
    ensures var r := SendFrom(cs, k, status);
            && k + |r.1| <= |cs| && r.1 == cs[k..k + |r.1|]
            && (forall j :: k <= j < k + |r.1| - 1 ==> Accepted(status(j)))
            && (r.0 <==> k + |r.1| == |cs| && forall j :: k <= j < |cs| ==> Accepted(status(j)))
            && (!r.0 ==> |r.1| > 0 && !Accepted(status(k + |r.1| - 1)))
    decreases |cs| - k
  {
    if k < |cs| && Accepted(status(k)) {
      SendFromPrefix(cs, k + 1, status);
      var rest := SendFrom(cs, k + 1, status).1;
      assert cs[k..k + 1 + |rest|] == [cs[k]] + cs[k + 1..k + 1 + |rest|];
    }
  }

  /** The upload loop of `_upload_large_file`, chunk by chunk. */
  method UploadChunks(size: nat, chunk: nat, status: nat -> Response) returns (ok: bool, sent: seq<ChunkRange>)
    requires chunk > 0
    ensures (ok, sent) == SendFrom(Chunks(size, chunk), 0, status)
  {
    var uploaded := 0;
    sent := [];
    var cs := Chunks(size, chunk);
    assert cs[0..] == cs;
    assert SendFrom(cs, 0, status).1 == [] + SendFrom(cs, 0, status).1;
    while uploaded < size
      invariant |sent| <= |cs|
      invariant cs[|sent|..] == ChunksFrom(size, chunk, uploaded)
      invariant SendFrom(cs, 0, status) == After(sent, SendFrom(cs, |sent|, status))
      decreases size - uploaded
    {
      var k := |sent|;
      var r := NextChunk(size, chunk, uploaded);
      NextOfRest(cs, k, size, chunk, uploaded);
      if !Accepted(status(k)) {
        return false, sent + [r];
      }
      SendAccepted(cs, k, status, sent);
      sent := sent + [r];
      uploaded := uploaded + r.length;
    }
    assert |cs[|sent|..]| == 0;
    assert sent + [] == sent;
    ok := true;
  }

  /** The outcome of a send once `sent` has gone before it. */
  function After(sent: seq<ChunkRange>, r: (bool, seq<ChunkRange>)): (bool, seq<ChunkRange>)
  {
    (r.0, sent + r.1)
  }

  /** The chunks still to send start with the next chunk of the file. */
  lemma NextOfRest(cs: seq<ChunkRange>, k: nat, size: nat, chunk: nat, uploaded: nat)
    requires chunk > 0 && uploaded < size && k <= |cs| && cs[k..] == ChunksFrom(size, chunk, uploaded)
    ensures var r := NextChunk(size, chunk, uploaded);
            k < |cs| && cs[k] == r && cs[k + 1..] == ChunksFrom(size, chunk, uploaded + r.length)
  {
    assert cs[k + 1..] == cs[k..][1..];
  }

  /** An accepted chunk joins what was sent before the rest of the send. */
  lemma SendAccepted(cs: seq<ChunkRange>, k: nat, status: nat -> Response, sent: seq<ChunkRange>)
    requires k < |cs| && Accepted(status(k))
    ensures After(sent, SendFrom(cs, k, status)) == After(sent + [cs[k]], SendFrom(cs, k + 1, status))
  {
    var rest := SendFrom(cs, k + 1, status);
    assert sent + ([cs[k]] + rest.1) == (sent + [cs[k]]) + rest.1;
  }

  // ---------------------------------------------------------------------------
  // Folder walk

  /** The answers of the folder service, to the check of a path and to the
      creation of a folder: the answers for the paths listed, and one answer
      for every other path. Answers are keyed on the slash-stripped path. For
      a path without empty segments every request of a walk names a
      different folder, so any behaviour of the service is one of these. A
      path such as "a//b" asks twice about "a" and creates both "a" under
      the root and "" under "a"; here those requests share one answer. */
  datatype FolderService = FolderService(checks: map<string, Response>, otherCheck: Response,
                                         creations: map<string, Response>, otherCreation: Response)

  function Check(fs: FolderService, path: string): Response
  {
    if path in fs.checks then fs.checks[path] else fs.otherCheck
  }

  function Create(fs: FolderService, path: string): Response
  {
    if path in fs.creations then fs.creations[path] else fs.otherCreation
  }

  /** `directory_path.strip('/').replace('\\', '/')`. */
  function NormalizeDir(d: string): (r: string)
    ensures '\\' !in r && |r| <= |d|
  {
    Text.ReplaceChar(StripSlashes(d), '\\', '/')
  }

  /** The next cumulative path; an empty path takes the segment alone. */
  function Advance(cur: string, seg: string): string
  {
    if |cur| == 0 then seg else cur + "/" + seg
  }

  /** The cumulative path the walk holds after its first i segments. */
  function LevelAfter(segs: seq<string>, i: nat): string
    requires i <= |segs|
  {
    if i == 0 then "" else Advance(LevelAfter(segs, i - 1), segs[i - 1])
  }

  /** The parent of a path: what comes before its last slash, or nothing. */
  function ParentOf(path: string): string
  {
    var i := Text.LastIndexOf(path, '/');
    if i < 0 then "" else path[..i]
  }

  /** The parent is `"/".join(path.split('/')[:-1])`, as the client computes it. */
  lemma ParentOfSplit(path: string)
    ensures var parts := Text.Split(path, '/');
            ParentOf(path) == Text.Join(parts[..|parts| - 1], "/")
  {
    Text.JoinSplitInit(path, '/');
  }

  /** One level of the walk: the cumulative path, the path checked, the
      parent a missing folder is created under (none for the drive root) and
      the new folder's name. */
  datatype Level = Level(path: string, checked: string, parent: Option<string>, name: string)

  function LevelFor(path: string, name: string): Level
  {
    var parent := ParentOf(path);
    Level(path, StripSlashes(path), if |parent| > 0 then Some(StripSlashes(parent)) else None, name)
  }

  /** The levels of a split path, in order. */
  function Levels(segs: seq<string>): (r: seq<Level>)
    ensures |r| == |segs|
  {
    seq(|segs|, j requires 0 <= j < |segs| => LevelFor(LevelAfter(segs, j + 1), segs[j]))
  }

  /** A folder creation request: the parent folder, the new folder's name
      and the answer. */
  datatype Creation = Creation(parent: Option<string>, name: string, status: Response)

  /** What the walk did at one level: the path checked, the answer and,
      after a 404, the creation request. */
  datatype Visit = Visit(checked: string, status: Response, creation: Option<Creation>)

  /** Checks one level, creating it under its parent after a 404. */
  function VisitLevel(l: Level, fs: FolderService): (v: Visit)
    ensures v.checked == l.checked && v.status == Check(fs, l.checked)
    ensures v.creation.Some? <==> v.status == Status(404)
    ensures v.creation.Some? ==> v.creation.value == Creation(l.parent, l.name, Create(fs, l.checked))
  {
    var status := Check(fs, l.checked);
    if status == Status(404) then Visit(l.checked, status, Some(Creation(l.parent, l.name, Create(fs, l.checked))))
    else Visit(l.checked, status, None)
  }

  /** An exception ends the walk (the walk itself never raises). */
  predicate Stops(v: Visit)
  {
    v.status.Raised? || (v.creation.Some? && v.creation.value.status.Raised?)
  }

  /** The walk over the levels from level i on. It goes on after any status,
      404 and 409 included, and stops only after an exception. */
  function Walk(levels: seq<Level>, i: nat, fs: FolderService): (r: seq<Visit>)
    requires i <= |levels|
    ensures |r| <= |levels| - i
    ensures i < |levels| <==> |r| > 0
    ensures forall j :: 0 <= j < |r| - 1 ==> !Stops(r[j])
    ensures 0 < |r| < |levels| - i ==> Stops(r[|r| - 1])
    decreases |levels| - i
  {
    if i == |levels| then []
    else
      var v := VisitLevel(levels[i], fs);
      if Stops(v) then [v] else [v] + Walk(levels, i + 1, fs)
  }

  /** `_ensure_directory_exists`: an empty normalized path makes no request. */
  function EnsureDirectory(d: string, fs: FolderService): (r: seq<Visit>)
    ensures |NormalizeDir(d)| == 0 <==> r == []
  {
    var clean := NormalizeDir(d);
    if |clean| == 0 then [] else Walk(Levels(Text.Split(clean, '/')), 0, fs)
  }

  /** Visit j of a walk is the visit of level j: the walk skips no level. */
  lemma {:induction false} WalkAt(levels: seq<Level>, i: nat, fs: FolderService, j: nat)
    requires i <= |levels| && j < |Walk(levels, i, fs)|
    ensures i + j < |levels| && Walk(levels, i, fs)[j] == VisitLevel(levels[i + j], fs)
    decreases j
  {
    if j > 0 {
      WalkAt(levels, i + 1, fs, j - 1);
      assert i + 1 + (j - 1) == i + j;
    }
  }

  /** The segments of a normalized path, none of them empty. */
  ghost predicate ProperSegments(segs: seq<string>)
  {
    forall k :: 0 <= k < |segs| ==> |segs[k]| > 0 && '/' !in segs[k]
  }

  /** With no empty segment, level j is the path of the first j + 1 segments,
      checked as it is and created under the path of the first j segments
      (under the root for j = 0). */
  lemma LevelsOfProper(segs: seq<string>, j: nat)
    requires j < |segs| && ProperSegments(segs)
    ensures var path := Text.Join(segs[..j + 1], "/");
            Levels(segs)[j] == Level(path, path, if j == 0 then None else Some(Text.Join(segs[..j], "/")), segs[j])
  {
    var path, parent := ProperPath(segs, j);
    var name := segs[j];
    assert LevelAfter(segs, j + 1) == path by { LevelAfterJoin(segs, j + 1); }
    assert LevelFor(path, name) == Level(path, path, if |parent| == 0 then None else Some(parent), name) by {
      LevelForOf(path, name, parent);
    }
    LevelsAt(segs, j);
  }

  lemma LevelsAt(segs: seq<string>, j: nat)
    requires j < |segs|
    ensures Levels(segs)[j] == LevelFor(LevelAfter(segs, j + 1), segs[j])
  {
  }

  /** The path of the first j + 1 proper segments and its parent have no
      slash at either end. */
  lemma ProperPath(segs: seq<string>, j: nat) returns (path: string, parent: string)
    requires j < |segs| && ProperSegments(segs)
    ensures path == Text.Join(segs[..j + 1], "/") && parent == (if j == 0 then "" else Text.Join(segs[..j], "/"))
    ensures |path| > 0 && path[0] != '/' && path[|path| - 1] != '/'
    ensures ParentOf(path) == parent && (|parent| == 0 <==> j == 0)
    ensures |parent| == 0 || (parent[0] != '/' && parent[|parent| - 1] != '/')
  {
    path := Text.Join(segs[..j + 1], "/");
    parent := if j == 0 then "" else Text.Join(segs[..j], "/");
    JoinEnds(segs[..j + 1]);
    assert segs[..j + 1][0] == segs[0] && segs[..j + 1][j] == segs[j];
    assert segs[0][0] in segs[0] && segs[j][|segs[j]| - 1] in segs[j];
    ParentOfPrefix(segs, j);
  }

  /** A path with no slash at either end is checked as it is; so is its
      parent, when it has one. */
  lemma LevelForOf(path: string, name: string, parent: string)
    requires |path| > 0 && path[0] != '/' && path[|path| - 1] != '/'
    requires ParentOf(path) == parent
    requires |parent| == 0 || (parent[0] != '/' && parent[|parent| - 1] != '/')
    ensures LevelFor(path, name) == Level(path, path, if |parent| == 0 then None else Some(parent), name)
  {
    Text.StripOfStripped(path, Slash);
    if |parent| > 0 {
      Text.StripOfStripped(parent, Slash);
    }
  }

  /** The parent of the path of the first j + 1 proper segments is the path
      of the first j, which has no slash at either end. */
  lemma ParentOfPrefix(segs: seq<string>, j: nat)
    requires j < |segs| && ProperSegments(segs)
    ensures var parent := ParentOf(Text.Join(segs[..j + 1], "/"));
            && parent == (if j == 0 then "" else Text.Join(segs[..j], "/"))
            && (|parent| == 0 <==> j == 0)
            && (|parent| == 0 || (parent[0] != '/' && parent[|parent| - 1] != '/'))
  {
    ParentOfJoin(segs[..j + 1]);
    assert segs[..j + 1][..j] == segs[..j];
    if j > 0 {
      JoinEnds(segs[..j]);
      assert segs[0][0] in segs[0];
      assert segs[j - 1][|segs[j - 1]| - 1] in segs[j - 1];
    } else {
      assert segs[..0] == [];
    }
  }

  /** What the walk over proper segments does at level j. */
  ghost predicate ProperVisit(segs: seq<string>, j: nat, fs: FolderService, v: Visit)
    requires j < |segs|
  {
    VisitOf(v, Text.Join(segs[..j + 1], "/"), if j == 0 then None else Some(Text.Join(segs[..j], "/")), segs[j], fs)
  }

  /** A visit that checks `path` and, after a 404, creates `name` under `parent`. */
  ghost predicate VisitOf(v: Visit, path: string, parent: Option<string>, name: string, fs: FolderService)
  {
    && v.checked == path && v.status == Check(fs, path)
    && (v.creation.Some? <==> v.status == Status(404))
    && (v.creation.Some? ==> v.creation.value == Creation(parent, name, Create(fs, path)))
  }

  /** The walk over proper segments checks the folders from the outermost in,
      each as the path of its first segments, and creates a missing one under
      the folder before it (the first under the root). */
  lemma WalkProper(segs: seq<string>, fs: FolderService, j: nat)
    requires ProperSegments(segs) && j < |Walk(Levels(segs), 0, fs)|
    ensures j < |segs| && ProperVisit(segs, j, fs, Walk(Levels(segs), 0, fs)[j])
  {
    var levels := Levels(segs);
    assert j < |segs| && Walk(levels, 0, fs)[j] == VisitLevel(levels[j], fs) by {
      WalkAt(levels, 0, fs, j);
      assert 0 + j == j;
    }
    var path := Text.Join(segs[..j + 1], "/");
    var parent := if j == 0 then None else Some(Text.Join(segs[..j], "/"));
    assert levels[j] == Level(path, path, parent, segs[j]) by { LevelsOfProper(segs, j); }
    VisitOfLevel(levels[j], path, parent, segs[j], fs);
  }

  lemma VisitOfLevel(l: Level, path: string, parent: Option<string>, name: string, fs: FolderService)
    requires l == Level(path, path, parent, name)
    ensures VisitOf(VisitLevel(l, fs), path, parent, name, fs)
  {
  }

  /** `_ensure_directory_exists` on a path with no empty segment: visit j is
      that of the first j + 1 segments. */
  lemma EnsureDirectoryPrefixes(d: string, fs: FolderService, j: nat)
    requires |NormalizeDir(d)| > 0 && ProperSegments(Text.Split(NormalizeDir(d), '/'))
    requires j < |EnsureDirectory(d, fs)|
    ensures var segs := Text.Split(NormalizeDir(d), '/');
            j < |segs| && ProperVisit(segs, j, fs, EnsureDirectory(d, fs)[j])
  {
    WalkProper(Text.Split(NormalizeDir(d), '/'), fs, j);
  }

  /** With proper segments the cumulative path is the join of the segments so far. */
  lemma {:induction false} LevelAfterJoin(segs: seq<string>, i: nat)
    requires 0 < i <= |segs| && ProperSegments(segs)
    ensures LevelAfter(segs, i) == Text.Join(segs[..i], "/")
  {
    if i == 1 {
      assert segs[..1] == [segs[0]];
    } else {
      LevelAfterJoin(segs, i - 1);
      JoinEnds(segs[..i - 1]);
      Text.JoinInit(segs[..i], "/");
      assert segs[..i][..i - 1] == segs[..i - 1];
    }
  }

  /** A path of proper segments has no slash to strip. */
  lemma StrippedJoin(parts: seq<string>)
    requires |parts| >= 1 && ProperSegments(parts)
    ensures StripSlashes(Text.Join(parts, "/")) == Text.Join(parts, "/")
  {
    JoinEnds(parts);
    assert parts[0][0] in parts[0];
    var l := parts[|parts| - 1];
    assert l[|l| - 1] in l;
    Text.StripOfStripped(Text.Join(parts, "/"), Slash);
  }

  /** The parent of a path of proper segments is the path without its last one. */
  lemma ParentOfJoin(parts: seq<string>)
    requires |parts| >= 1 && ProperSegments(parts)
    ensures ParentOf(Text.Join(parts, "/")) == Text.Join(parts[..|parts| - 1], "/")
  {
    if |parts| == 1 {
      assert parts[..0] == [];
    } else {
      Text.JoinInit(parts, "/");
      ParentOfChild(Text.Join(parts[..|parts| - 1], "/"), parts[|parts| - 1]);
    }
  }

  /** The parent of `dir/name`, for a name without a slash, is `dir`. */
  lemma ParentOfChild(dir: string, name: string)
    requires '/' !in name
    ensures ParentOf(dir + "/" + name) == dir
  {
    var path := dir + "/" + name;
    assert path[|dir|] == '/' && path[|dir| + 1..] == name && path[..|dir|] == dir;
    Text.LastIndexOfAt(path, '/', |dir|);
  }

  /** A join of non-empty parts is non-empty, and starts and ends as its
      first and last part do. */
  lemma {:induction false} JoinEnds(parts: seq<string>)
    requires |parts| >= 1 && forall k :: 0 <= k < |parts| ==> |parts[k]| > 0
    ensures var s := Text.Join(parts, "/");
            |s| > 0 && s[0] == parts[0][0] && s[|s| - 1] == parts[|parts| - 1][|parts[|parts| - 1]| - 1]
    decreases |parts|
  {
    if |parts| > 1 {
      JoinEnds(parts[1..]);
      Text.JoinCons(parts[0], parts[1..], "/");
      assert [parts[0]] + parts[1..] == parts;
    }
  }

  // ---------------------------------------------------------------------------
  // upload_file

  /** The local file: missing, or present with its size in bytes. */
  datatype LocalFile = Missing | Present(size: nat)

  /** A request that sends file content. */
  datatype Transfer = PutContent(path: string) | CreateSession(path: string) | PutChunk(range: ChunkRange)

  /** The answers of the upload endpoints. */
  datatype UploadService = UploadService(put: Response, session: Response, hasUploadUrl: bool,
                                         chunk: nat -> Response)

  /** What an upload did: its verdict, the folder walk and the content requests. */
  datatype Upload = Upload(ok: bool, directory: seq<Visit>, transfers: seq<Transfer>)

  function ChunkTransfer(r: ChunkRange): Transfer
  {
    PutChunk(r)
  }

  /** `_upload_small_file`: one PUT, accepted with 200 or 201. */
  function SmallUpload(path: string, up: UploadService): (r: (bool, seq<Transfer>))
    ensures r.1 == [PutContent(StripSlashes(path))]
    ensures r.0 <==> up.put == Status(200) || up.put == Status(201)
  {
    (up.put == Status(200) || up.put == Status(201), [PutContent(StripSlashes(path))])
  }

  /** `_upload_large_file`: an upload session, then the chunks. A session
      answer other than 200, or one without an upload URL, ends it. */
  function LargeUpload(path: string, size: nat, up: UploadService): (r: (bool, seq<Transfer>))
  {
    var session := CreateSession(StripSlashes(path));
    if up.session != Status(200) || !up.hasUploadUrl then (false, [session])
    else
      var sent := SendFrom(Chunks(size, Settings.ChunkSize), 0, up.chunk);
      (sent.0, [session] + Collections.Map(ChunkTransfer, sent.1))
  }

  /** `upload_file(local_path, remote_path, file_type)`. */
  function UploadFile(c: Client, s: Settings.OneDriveSettings, reply: TokenReply, file: LocalFile,
                      remote: string, fileType: string, fs: FolderService,
                      up: UploadService): (r: (Client, Upload))
  {
    var (c1, authed) := Authorized(c, s, reply);
    if !authed || file.Missing? then (c1, Upload(false, [], []))
    else
      var base := BasePath(s, fileType);
      var full := base + "/" + remote;
      var dir := EnsureDirectory(base, fs);
      match RouteFor(file.size)
      case TooLarge => (c1, Upload(false, dir, []))
      case SinglePut => var t := SmallUpload(full, up); (c1, Upload(t.0, dir, t.1))
      case Chunked => var t := LargeUpload(full, file.size, up); (c1, Upload(t.0, dir, t.1))
  }

  /** Without authorization, or without the local file, nothing is requested.
      A file over the maximum is refused after the folder walk, with no
      content sent. */
  lemma UploadRefusals(c: Client, s: Settings.OneDriveSettings, reply: TokenReply, file: LocalFile,
                       remote: string, fileType: string, fs: FolderService, up: UploadService)
    ensures var u := UploadFile(c, s, reply, file, remote, fileType, fs, up).1;
            && (!Authorized(c, s, reply).1 || file.Missing? ==> u == Upload(false, [], []))
            && (file.Present? && file.size > Settings.MaxFileSize ==> !u.ok && u.transfers == [])
            && (u.ok ==> Authorized(c, s, reply).1 && file.Present? && file.size <= Settings.MaxFileSize)
  {
  }

  /** An authorized upload of a present file walks the folder of its type and
      sends to `<folder>/<remote>`: one PUT below the chunk size, otherwise a
      session followed by the chunks in order, the last one sent being the
      first one refused. */
  lemma UploadRouting(c: Client, s: Settings.OneDriveSettings, reply: TokenReply, size: nat,
                      remote: string, fileType: string, fs: FolderService, up: UploadService)
    requires Authorized(c, s, reply).1 && size <= Settings.MaxFileSize
    ensures var u := UploadFile(c, s, reply, Present(size), remote, fileType, fs, up).1;
            var path := StripSlashes(BasePath(s, fileType) + "/" + remote);
            && u.directory == EnsureDirectory(BasePath(s, fileType), fs)
            && |u.transfers| >= 1
            && (size < Settings.ChunkSize ==> u.transfers == [PutContent(path)])
            && (size < Settings.ChunkSize ==> (u.ok <==> up.put == Status(200) || up.put == Status(201)))
            && (size >= Settings.ChunkSize ==>
                  && u.transfers[0] == CreateSession(path)
                  && |u.transfers| - 1 <= |Chunks(size, Settings.ChunkSize)|
                  && (forall j :: 1 <= j < |u.transfers| ==>
                        u.transfers[j] == PutChunk(Chunks(size, Settings.ChunkSize)[j - 1])))
  {
    if size >= Settings.ChunkSize && up.session == Status(200) && up.hasUploadUrl {
      SendFromPrefix(Chunks(size, Settings.ChunkSize), 0, up.chunk);
    }
  }

  /** A chunked upload succeeds only when the session opened and every chunk
      of the file, covering it from the first byte to the last, was accepted. */
  lemma ChunkedSuccess(path: string, size: nat, up: UploadService)
    requires LargeUpload(path, size, up).0
    ensures var cs := Chunks(size, Settings.ChunkSize);
            && up.session == Status(200) && up.hasUploadUrl
            && LargeUpload(path, size, up).1 == [CreateSession(StripSlashes(path))] + Collections.Map(ChunkTransfer, cs)
            && (forall j :: 0 <= j < |cs| ==> Accepted(up.chunk(j)))
            && Tiles(cs, 0, size, Settings.ChunkSize)
  {
    var cs := Chunks(size, Settings.ChunkSize);
    SendFromPrefix(cs, 0, up.chunk);
    assert cs[0..|cs|] == cs;
    ChunksCover(size, Settings.ChunkSize);
  }

  /** The three helpers. */
  datatype Kind = JsonBackup | ExcelReport | Evidence

  /** The remote name and file type a helper passes to `upload_file`. */
  function HelperArguments(kind: Kind, localPath: string): (r: (string, string))
  {
    (Text.PathName(localPath),
     match kind
     case JsonBackup => "json"
     case ExcelReport => "excel"
     case Evidence => "evidence")
  }

  /** A helper uploads under the bare file name, directly into the folder of
      its kind. */
  lemma HelperTargets(kind: Kind, localPath: string, s: Settings.OneDriveSettings)
    ensures var (remote, fileType) := HelperArguments(kind, localPath);
            && remote == Text.PathName(localPath) && '/' !in remote
            && BasePath(s, fileType) == (match kind
                                         case JsonBackup => s.jsonPath
                                         case ExcelReport => s.reportsPath
                                         case Evidence => s.evidencesPath)
  {
  }

  function UploadHelper(kind: Kind, c: Client, s: Settings.OneDriveSettings, reply: TokenReply,
                        localPath: string, file: LocalFile, fs: FolderService,
                        up: UploadService): (Client, Upload)
  {
    var (remote, fileType) := HelperArguments(kind, localPath);
    UploadFile(c, s, reply, file, remote, fileType, fs, up)
  }
}

=== FILE: orchestrator.dfy ===
/** The pipeline driver of `main.py`: six steps in a fixed order, each turning
    the answers of its collaborators into statistics and evidence, and an
    exception in any step ending the run. The collaborators (API consumer,
    store, report generator, OneDrive client, form submitters) have models
    of their own; here only their answers matter, and they are inputs. */
module Orchestrator {
  import opened Wrappers
  import opened Values
  import Text
  import Settings
  import Evidence
  import Clock
  import Pipeline

  /** A collaborator's answer: a value, or an exception. */
  datatype Answer<T> = Returned(value: T) | Raised

  /** `process_stats`. */
  datatype Stats = Stats(processed: nat, completed: nat, generated: seq<string>, evidences: nat)

  /** A run's state: its statistics and its evidence manager. */
  datatype Process = Process(stats: Stats, evidence: Evidence.Manager)

  function NewProcess(startedAt: Clock.DateTime): Process
  {
    Process(Stats(0, 0, [], 0), Evidence.NewManager(startedAt))
  }

  /** Everything a run sees from outside: whether the dependencies import,
      the clock, the environment, each collaborator's answer, the
      modification time of the confirmation screenshot (none when it is
      absent), the project root and the file system. */
  datatype World = World(
    environmentOk: bool,
    startedAt: Clock.DateTime,
    now: Clock.DateTime,
    env: Settings.Env,
    fetched: Answer<(nat, string)>,  // get_products(): how many products, and the backup path
    inserted: Answer<int>,           // insert_products(...)
    report: Answer<string>,          // the report path from step 3's collaborators
    authenticated: bool,             // OneDriveClient.authenticate()
    uploaded: bool,                  // upload_excel_report(...)
    confirmation: Option<Clock.DateTime>,
    submitted: bool,                 // WebFormAutomator.submit_form(...)
    envSubmitted: bool,              // upload_to_web_form(...)
    base: string,
    disk: Evidence.Disk,
    save: Evidence.SaveWorld)

  /** What the steps hand on to later ones: the products of step 1 (their
      number here) and the report path of step 3. */
  datatype Carry = Carry(products: Option<nat>, excel: Option<string>)

  /** What a run holds between steps. */
  datatype State = State(process: Process, carry: Carry)

  /** A step's outcome: it returned, with what it hands on, or it raised.
      Either way the evidence captured before that point stays. */
  type Outcome = Pipeline.Outcome<State>

  /** `capture_process_evidence(stage, success, metadata)`. */
  function Event(p: Process, w: World, stage: string, success: bool, metadata: Entries): Process
  {
    p.(evidence := Evidence.CaptureProcessEvidence(p.evidence, w.now, stage, success, Some(metadata)))
  }

  /** `capture_file_operation(operation, path, True)`. */
  function FileOperation(p: Process, w: World, operation: string, path: string): Process
  {
    p.(evidence := Evidence.CaptureFileOperation(p.evidence, w.now, operation, path, true, None,
                                                 Evidence.ProbeOf(w.disk, path)))
  }

  /** The last event of the run is `stage` with this verdict and metadata. */
  ghost predicate LastEvent(p: Process, stage: string, success: bool, metadata: Entries)
  {
    var es := p.evidence.events;
    |es| > 0 && es[|es| - 1].stage == stage && es[|es| - 1].success == success
    && es[|es| - 1].metadata == metadata
  }

  /** `step_1_api`. */
  function Step1(s: State, w: World): (r: Outcome)
    ensures r.Failed? <==> w.fetched.Raised?
    ensures r.Done? ==>
              var (n, json) := w.fetched.value;
              && r.state.carry == s.carry.(products := Some(n))
              && r.state.process.stats.processed == n
              && r.state.process.stats.generated == s.process.stats.generated + [json]
              && r.state.process.stats.completed == s.process.stats.completed
  {
    match w.fetched
    case Raised => Pipeline.Failed(s)
    case Returned((n, json)) =>
      var p := s.process;
      var q := p.(stats := p.stats.(processed := n, generated := p.stats.generated + [json]));
      var q := Event(q, w, "API_CONSUMPTION", true, [("count", Int(n))]);
      Pipeline.Done(State(FileOperation(q, w, "JSON_BACKUP", json), s.carry.(products := Some(n))))
  }

  /** `step_2_database(productos)`. */
  function Step2(s: State, w: World): (r: Outcome)
    ensures r.Failed? <==> w.inserted.Raised?
    ensures r.Done? ==> r.state.process.stats == s.process.stats && r.state.carry == s.carry
                        && LastEvent(r.state.process, "DATABASE_INSERT", true, [("inserted", Int(w.inserted.value))])
  {
    match w.inserted
    case Raised => Pipeline.Failed(s)
    case Returned(k) => Pipeline.Done(s.(process := Event(s.process, w, "DATABASE_INSERT", true, [("inserted", Int(k))])))
  }

  /** `step_3_excel`. */
  function Step3(s: State, w: World): (r: Outcome)
    ensures r.Failed? <==> w.report.Raised?
    ensures r.Done? ==>
              && r.state.carry == s.carry.(excel := Some(w.report.value))
              && r.state.process.stats == s.process.stats.(generated := s.process.stats.generated + [w.report.value])
              && r.state.process.evidence.events == s.process.evidence.events
  {
    match w.report
    case Raised => Pipeline.Failed(s)
    case Returned(path) =>
      var p := s.process;
      var q := p.(stats := p.stats.(generated := p.stats.generated + [path]));
      Pipeline.Done(State(FileOperation(q, w, "EXCEL_REPORT", path), s.carry.(excel := Some(path))))
  }

  /** Whether step 4 is switched on: ONEDRIVE_ENABLED, lowercased, is "true". */
  predicate OneDriveEnabled(env: Settings.Env)
  {
    Settings.Flag(env, "ONEDRIVE_ENABLED", "false")
  }

  /** `step_4_onedrive(excel_path)`: it never raises. Switched off, it does
      not authenticate; without authentication, it does not upload. */
  function Step4(p: Process, w: World, excel: string): (r: Process)
    ensures r.stats == p.stats
    ensures !OneDriveEnabled(w.env) ==> LastEvent(r, "ONEDRIVE_UPLOAD", false, [("reason", Str("disabled"))])
    ensures OneDriveEnabled(w.env) && !w.authenticated ==>
              LastEvent(r, "ONEDRIVE_UPLOAD", false, [("reason", Str("auth_failed"))])
    ensures OneDriveEnabled(w.env) && w.authenticated ==>
              LastEvent(r, "ONEDRIVE_UPLOAD", w.uploaded, [("file", Str(excel))])
  {
    if !OneDriveEnabled(w.env) then Event(p, w, "ONEDRIVE_UPLOAD", false, [("reason", Str("disabled"))])
    else if !w.authenticated then Event(p, w, "ONEDRIVE_UPLOAD", false, [("reason", Str("auth_failed"))])
    else Event(p, w, "ONEDRIVE_UPLOAD", w.uploaded, [("file", Str(excel))])
  }

  /** A switched-off step 4 asks nothing of OneDrive: its outcome is the same
      whatever authentication and upload would answer. */
  lemma Step4DisabledAsksNothing(p: Process, w: World, excel: string, authenticated: bool, uploaded: bool)
    requires !OneDriveEnabled(w.env)
    ensures Step4(p, w, excel) == Step4(p, w.(authenticated := authenticated, uploaded := uploaded), excel)
  {
  }

  /** A failed authentication means no upload: the outcome does not depend
      on what the upload would answer. */
  lemma Step4NoUploadWithoutAuth(p: Process, w: World, excel: string, uploaded: bool)
    requires !w.authenticated
    ensures Step4(p, w, excel) == Step4(p, w.(uploaded := uploaded), excel)
  {
  }

  /** The confirmation screenshot was last modified today. */
  predicate ConfirmedToday(w: World)
  {
    w.confirmation.Some? && Clock.DateText(w.confirmation.value) == Clock.DateText(w.now)
  }

  /** The form route step 5 takes. */
  datatype Route = SkippedDuplicate | SettingsRoute | EnvRoute | NotConfigured

  /** The routes are tried in order: a confirmation from today, then the
      form settings, then the WEB_FORM_* variables. */
  function RouteOf(w: World): (r: Route)
    ensures r == SettingsRoute ==> !ConfirmedToday(w) && Settings.WebConfigured(Settings.WebFromEnv(w.env))
    ensures r == EnvRoute ==> !ConfirmedToday(w) && !Settings.WebConfigured(Settings.WebFromEnv(w.env))
                              && Settings.Flag(w.env, "WEB_FORM_ENABLED", "false")
                              && Settings.IsSet(Settings.GetEnv(w.env, "WEB_FORM_URL"))
    ensures r == NotConfigured ==> !ConfirmedToday(w) && !Settings.WebConfigured(Settings.WebFromEnv(w.env))
                                   && !(Settings.Flag(w.env, "WEB_FORM_ENABLED", "false")
                                        && Settings.IsSet(Settings.GetEnv(w.env, "WEB_FORM_URL")))
    ensures ConfirmedToday(w) <==> r == SkippedDuplicate
  {
    if ConfirmedToday(w) then SkippedDuplicate
    else if Settings.WebConfigured(Settings.WebFromEnv(w.env)) then SettingsRoute
    else if Settings.Flag(w.env, "WEB_FORM_ENABLED", "false") && Settings.IsSet(Settings.GetEnv(w.env, "WEB_FORM_URL"))
    then EnvRoute
    else NotConfigured
  }

  /** `step_5_web(excel_path)`: only a failed submission on the settings
      route raises; a failure on the environment route is only logged. */
  function Step5(p: Process, w: World, excel: string): (r: Pipeline.Outcome<Process>)
    ensures r.Failed? <==> RouteOf(w) == SettingsRoute && !w.submitted
    ensures r.state.stats == p.stats
    ensures RouteOf(w) == SkippedDuplicate ==>
              LastEvent(r.state, "WEB_FORM", true, [("file", Str(excel)), ("mode", Str("skipped_duplicate"))])
    ensures RouteOf(w) == SettingsRoute ==>
              LastEvent(r.state, "WEB_FORM", w.submitted, [("file", Str(excel)), ("mode", Str("settings"))])
    ensures RouteOf(w) == EnvRoute ==>
              LastEvent(r.state, "WEB_FORM", w.envSubmitted, [("file", Str(excel)), ("mode", Str("env"))])
    ensures RouteOf(w) == NotConfigured ==>
              LastEvent(r.state, "WEB_FORM", false, [("reason", Str("not_configured"))])
  {
    match RouteOf(w)
    case SkippedDuplicate =>
      Pipeline.Done(Event(p, w, "WEB_FORM", true, [("file", Str(excel)), ("mode", Str("skipped_duplicate"))]))
    case SettingsRoute =>
      var q := Event(p, w, "WEB_FORM", w.submitted, [("file", Str(excel)), ("mode", Str("settings"))]);
      if w.submitted then Pipeline.Done(q) else Pipeline.Failed(q)
    case EnvRoute => Pipeline.Done(Event(p, w, "WEB_FORM", w.envSubmitted, [("file", Str(excel)), ("mode", Str("env"))]))
    case NotConfigured => Pipeline.Done(Event(p, w, "WEB_FORM", false, [("reason", Str("not_configured"))]))
  }

  /** A confirmation from today means nothing is submitted: the outcome is
      the same whatever either submitter would answer. */
  lemma Step5DuplicateSubmitsNothing(p: Process, w: World, excel: string, submitted: bool, envSubmitted: bool)
    requires ConfirmedToday(w)
    ensures Step5(p, w, excel) == Step5(p, w.(submitted := submitted, envSubmitted := envSubmitted), excel)
  {
  }

  /** The list of generated files, kept as the text `str()` gives for it
      (quotes around each path, no escaping); the JSON document would hold
      a list of the same paths, in the same order. */
  function ListText(paths: seq<string>): string
  {
    "[" + Text.Join(seq(|paths|, i requires 0 <= i < |paths| => "'" + paths[i] + "'"), ", ") + "]"
  }

  /** `process_stats` as the dict the evidence document holds. */
  function StatsEntries(s: Stats): Entries
  {
    [("productos_procesados", Int(s.processed)), ("pasos_completados", Int(s.completed)),
     ("archivos_generados", Compound(ListText(s.generated), |s.generated| == 0)),
     ("evidencias_capturadas", Int(s.evidences))]
  }

  /** `step_6_evidences`: saves the evidence log; a failed save is only
      logged, so the step never raises. */
  function Step6(p: Process, w: World): (r: Process)
    ensures r.stats == p.stats && r.evidence.events == p.evidence.events
    ensures forall s :: s in Evidence.Discovered(w.save) ==> Evidence.Recorded(r.evidence.files, s)
  {
    p.(evidence := Evidence.SaveEvidenceLog(p.evidence, w.base, Some(StatsEntries(p.stats)), w.save).manager)
  }

  /** What step k needs from earlier steps: the products for step 2, the
      report for steps 4 and 5. */
  predicate Ready(k: nat, c: Carry)
  {
    (k == 2 ==> c.products.Some?) && (k == 4 || k == 5 ==> c.excel.Some?)
  }

  /** Step k of the pipeline (1 to 6). A step whose inputs are missing, or
      a number outside 1 to 6, is refused; the run never asks for either. */
  function Step(k: nat, s: State, w: World): (r: Outcome)
    ensures r.state.process.stats.completed == s.process.stats.completed
    ensures r.state.process.stats.evidences == s.process.stats.evidences
    ensures r.Done? ==> && (s.carry.products.Some? || k == 1 ==> r.state.carry.products.Some?)
                        && (s.carry.excel.Some? || k == 3 ==> r.state.carry.excel.Some?)
  {
    if !(1 <= k <= 6 && Ready(k, s.carry)) then Pipeline.Failed(s)
    else if k == 1 then Step1(s, w)
    else if k == 2 then Step2(s, w)
    else if k == 3 then Step3(s, w)
    else if k == 4 then Pipeline.Done(s.(process := Step4(s.process, w, s.carry.excel.value)))
    else if k == 5 then
      match Step5(s.process, w, s.carry.excel.value)
      case Done(q) => Pipeline.Done(s.(process := q))
      case Failed(q) => Pipeline.Failed(s.(process := q))
    else Pipeline.Done(s.(process := Step6(s.process, w)))
  }

  /** The steps as one function, for the run. */
  function Steps(w: World): (nat, State) -> Outcome
  {
    (k: nat, s: State) => Step(k, s, w)
  }

  /** The steps that can raise, and on what answer: fetching, inserting,
      building the report, and a refused form on the settings route. */
  predicate Raises(k: nat, w: World)
  {
    || (k == 1 && w.fetched.Raised?)
    || (k == 2 && w.inserted.Raised?)
    || (k == 3 && w.report.Raised?)
    || (k == 5 && RouteOf(w) == SettingsRoute && !w.submitted)
  }

  /** `Raises` as a function of the step number. */
  function RaisesIn(w: World): nat -> bool
  {
    (k: nat) => Raises(k, w)
  }

  /** What steps k onwards need from earlier steps. */
  predicate Prepared(k: nat, c: Carry)
  {
    (k > 1 ==> c.products.Some?) && (k > 3 ==> c.excel.Some?)
  }

  /** Before the step at position i of the run (step i + 1), what it and
      the later steps need is there. */
  function PreparedAt(): (nat, State) -> bool
  {
    (i: nat, s: State) => Prepared(i + 1, s.carry)
  }

  /** Whether a prepared step raises depends on the collaborators' answers
      only, never on what earlier steps did; a step that returns prepares
      the next one. */
  lemma StepRaises(k: nat, s: State, w: World)
    requires 1 <= k <= 6 && Prepared(k, s.carry)
    ensures Step(k, s, w).Failed? <==> Raises(k, w)
    ensures Step(k, s, w).Done? ==> Prepared(k + 1, Step(k, s, w).state.carry)
  {
  }

  /** The six steps in the order `run` calls them. */
  const AllSteps: seq<nat> := [1, 2, 3, 4, 5, 6]

  lemma StepsGoverned(w: World)
    ensures Pipeline.Governed(AllSteps, Steps(w), RaisesIn(w), PreparedAt(), 0)
  {
    forall i, t | 0 <= i < |AllSteps| && PreparedAt()(i, t)
      ensures && (Steps(w)(AllSteps[i - 0], t).Failed? <==> RaisesIn(w)(AllSteps[i - 0]))
              && (Steps(w)(AllSteps[i - 0], t).Done? ==> PreparedAt()(i + 1, Steps(w)(AllSteps[i - 0], t).state))
    {
      assert AllSteps[i - 0] == i + 1;
      StepRaises(i + 1, t, w);
    }
  }

  /** The state a run starts in. */
  function Start(w: World): State
  {
    State(NewProcess(w.startedAt), Carry(None, None))
  }

  /** The result of `run`: its verdict, the steps started in order, and the
      state it ended in. */
  type RunResult = Pipeline.Trace<State>

  /** `run`: the environment check, then the six steps. */
  function Run(w: World): (r: RunResult)
    ensures !w.environmentOk ==> r == Pipeline.Trace(false, [], Start(w))
  {
    if !w.environmentOk then Pipeline.Trace(false, [], Start(w))
    else Pipeline.RunList(AllSteps, Start(w), Steps(w))
  }

  /** The run fails at the environment check with no step started;
      otherwise it starts the steps in order up to the first that raises,
      and stops there. */
  lemma RunOrder(w: World)
    ensures var r := Run(w);
            && r.started == AllSteps[..|r.started|]
            && (r.ok ==> r.started == AllSteps)
            && (!r.ok && w.environmentOk ==> |r.started| > 0 && Raises(r.started[|r.started| - 1], w))
            && (forall i :: 0 <= i < |r.started| - 1 ==> !Raises(r.started[i], w))
  {
    if w.environmentOk {
      StepsGoverned(w);
      Pipeline.RunListFacts(AllSteps, Start(w), Steps(w), RaisesIn(w), PreparedAt(), 0);
    }
  }

  /** Which of the collaborators' answers let every step through. */
  lemma NoStepRaises(w: World)
    ensures Pipeline.NoneRaises(AllSteps, RaisesIn(w)) <==>
            && w.fetched.Returned? && w.inserted.Returned? && w.report.Returned?
            && !(RouteOf(w) == SettingsRoute && !w.submitted)
  {
    Pipeline.NoneRaisesEach(AllSteps, RaisesIn(w));
    if Pipeline.NoneRaises(AllSteps, RaisesIn(w)) {
      assert !RaisesIn(w)(AllSteps[0]) && !RaisesIn(w)(AllSteps[1]) && !RaisesIn(w)(AllSteps[2]) && !RaisesIn(w)(AllSteps[4]);
    }
  }

  /** A run succeeds exactly when the environment is fine, the products are
      fetched and stored, the report is built, and the form is not refused
      on the settings route. */
  lemma RunSucceeds(w: World)
    ensures Run(w).ok <==> && w.environmentOk && w.fetched.Returned? && w.inserted.Returned?
                           && w.report.Returned? && !(RouteOf(w) == SettingsRoute && !w.submitted)
  {
    if w.environmentOk {
      StepsGoverned(w);
      Pipeline.RunListOk(AllSteps, Start(w), Steps(w), RaisesIn(w), PreparedAt(), 0);
    }
    NoStepRaises(w);
  }

  /** Neither counter of a state has moved from zero. */
  function Uncounted(): State -> bool
  {
    (s: State) => s.process.stats.completed == 0 && s.process.stats.evidences == 0
  }

  /** `pasos_completados` and `evidencias_capturadas` stay 0 for the whole
      run: no step ever counts itself. */
  lemma RunNeverCountsSteps(w: World)
    ensures Run(w).state.process.stats.completed == 0 && Run(w).state.process.stats.evidences == 0
  {
    if w.environmentOk {
      forall k, t | Uncounted()(t) ensures Uncounted()(Steps(w)(k, t).state) {
        var r := Step(k, t, w);
      }
      Pipeline.RunListKeeps(AllSteps, Start(w), Steps(w), Uncounted());
    }
  }

  /** `main`: exit code 0 exactly when the run succeeded. */
  function ExitCode(w: World): (code: int)
    ensures code == 0 <==> Run(w).ok
    ensures code == 0 || code == 1
  {
    if Run(w).ok then 0 else 1
  }
}

=== FILE: pipeline.dfy ===
/** A run of numbered steps, in the order of a list, that stops at the first
    step to raise. The facts about the order are proved once here, for any
    step function; the drivers instantiate them with their own steps. */
module Pipeline {

  /** A step's outcome: it returned, or it raised; either way the state it left. */
  datatype Outcome<S> = Done(state: S) | Failed(state: S)

  /** What a run did: its verdict, the steps it started in order, and the
      state it ended in. */
  datatype Trace<S> = Trace(ok: bool, started: seq<nat>, state: S)

  /** Runs `steps` in order from state `s`, stopping after the first step
      that raises. */
  function RunList<S>(steps: seq<nat>, s: S, step: (nat, S) -> Outcome<S>): (r: Trace<S>)
    ensures |r.started| <= |steps|
    decreases |steps|
  {
    if |steps| == 0 then Trace(true, [], s)
    else
      match step(steps[0], s)
      case Failed(t) => Trace(false, [steps[0]], t)
      case Done(t) =>
        var rest := RunList(steps[1..], t, step);
        Trace(rest.ok, [steps[0]] + rest.started, rest.state)
  }

  /** The steps start in the order given; a run that succeeds starts them all. */
  lemma {:induction false} RunListPrefix<S>(steps: seq<nat>, s: S, step: (nat, S) -> Outcome<S>)
    ensures var r := RunList(steps, s, step);
            && r.started == steps[..|r.started|]
            && (r.ok ==> r.started == steps)
            && (!r.ok ==> |r.started| > 0)
    decreases |steps|
  {
    if |steps| > 0 {
      match step(steps[0], s)
      case Failed(t) =>
      case Done(t) =>
        RunListPrefix(steps[1..], t, step);
        var rest := RunList(steps[1..], t, step);
        assert [steps[0]] + steps[1..][..|rest.started|] == steps[..1 + |rest.started|];
    }
  }

  /** While `inv` holds before the step at each position (counted from
      `from`), whether a step raises depends on the step alone, as `raises`
      says. */
  ghost predicate Governed<S(!new)>(steps: seq<nat>, step: (nat, S) -> Outcome<S>, raises: nat -> bool,
                              inv: (nat, S) -> bool, from: nat)
  {
    forall i, t :: from <= i < from + |steps| && inv(i, t) ==>
      && (step(steps[i - from], t).Failed? <==> raises(steps[i - from]))
      && (step(steps[i - from], t).Done? ==> inv(i + 1, step(steps[i - from], t).state))
  }

  /** A governed list, minus its first step, is governed from the next position. */
  lemma GovernedTail<S(!new)>(steps: seq<nat>, step: (nat, S) -> Outcome<S>, raises: nat -> bool,
                        inv: (nat, S) -> bool, from: nat)
    requires |steps| > 0 && Governed(steps, step, raises, inv, from)
    ensures Governed(steps[1..], step, raises, inv, from + 1)
  {
    var tail := steps[1..];
    forall i, u | from + 1 <= i < from + 1 + |tail| && inv(i, u)
      ensures && (step(tail[i - (from + 1)], u).Failed? <==> raises(tail[i - (from + 1)]))
              && (step(tail[i - (from + 1)], u).Done? ==> inv(i + 1, step(tail[i - (from + 1)], u).state))
    {
      assert tail[i - (from + 1)] == steps[i - from];
    }
  }

  /** A governed run succeeds exactly when none of its steps raises. */
  lemma {:induction false} RunListOk<S(!new)>(steps: seq<nat>, s: S, step: (nat, S) -> Outcome<S>,
                                        raises: nat -> bool, inv: (nat, S) -> bool, from: nat)
    requires inv(from, s) && Governed(steps, step, raises, inv, from)
    ensures RunList(steps, s, step).ok <==> NoneRaises(steps, raises)
    decreases |steps|
  {
    if |steps| > 0 {
      assert steps[from - from] == steps[0];
      match step(steps[0], s)
      case Failed(t) =>
      case Done(t) =>
        GovernedTail(steps, step, raises, inv, from);
        RunListOk(steps[1..], t, step, raises, inv, from + 1);
    }
  }

  /** A governed run that fails stops at a step that raises, and none of the
      steps it started before that one raises. */
  lemma {:induction false} RunListStops<S(!new)>(steps: seq<nat>, s: S, step: (nat, S) -> Outcome<S>,
                                           raises: nat -> bool, inv: (nat, S) -> bool, from: nat)
    requires inv(from, s) && Governed(steps, step, raises, inv, from)
    ensures var r := RunList(steps, s, step);
            && (!r.ok ==> |r.started| > 0 && raises(r.started[|r.started| - 1]))
            && (forall i :: 0 <= i < |r.started| - 1 ==> !raises(r.started[i]))
    decreases |steps|
  {
    if |steps| > 0 {
      assert steps[from - from] == steps[0];
      match step(steps[0], s)
      case Failed(t) =>
      case Done(t) =>
        GovernedTail(steps, step, raises, inv, from);
        RunListStops(steps[1..], t, step, raises, inv, from + 1);
        var rest := RunList(steps[1..], t, step);
        var r := RunList(steps, s, step);
        assert r.started == [steps[0]] + rest.started;
        forall i | 0 <= i < |r.started| - 1 ensures !raises(r.started[i]) {
          if i > 0 { assert r.started[i] == rest.started[i - 1]; }
        }
    }
  }

  /** Everything above about a governed run, in one place. */
  lemma RunListFacts<S(!new)>(steps: seq<nat>, s: S, step: (nat, S) -> Outcome<S>,
                              raises: nat -> bool, inv: (nat, S) -> bool, from: nat)
    requires inv(from, s) && Governed(steps, step, raises, inv, from)
    ensures var r := RunList(steps, s, step);
            && r.started == steps[..|r.started|]
            && (r.ok <==> NoneRaises(steps, raises))
            && (r.ok ==> r.started == steps)
            && (!r.ok ==> |r.started| > 0 && raises(r.started[|r.started| - 1]))
            && (forall i :: 0 <= i < |r.started| - 1 ==> !raises(r.started[i]))
  {
    RunListPrefix(steps, s, step);
    RunListOk(steps, s, step, raises, inv, from);
    RunListStops(steps, s, step, raises, inv, from);
  }

  /** No step of the list raises. */
  predicate NoneRaises(steps: seq<nat>, raises: nat -> bool)
    decreases |steps|
  {
    |steps| == 0 || (!raises(steps[0]) && NoneRaises(steps[1..], raises))
  }

  /** `NoneRaises`, stated for each step. */
  lemma {:induction false} NoneRaisesEach(steps: seq<nat>, raises: nat -> bool)
    ensures NoneRaises(steps, raises) <==> forall i :: 0 <= i < |steps| ==> !raises(steps[i])
    decreases |steps|
  {
    if |steps| > 0 {
      NoneRaisesEach(steps[1..], raises);
      if forall i :: 0 <= i < |steps| ==> !raises(steps[i]) {
        forall i | 0 <= i < |steps| - 1 ensures !raises(steps[1..][i]) {
          assert steps[1..][i] == steps[i + 1];
        }
      }
      if NoneRaises(steps, raises) {
        forall i | 0 <= i < |steps| ensures !raises(steps[i]) {
          if i > 0 { assert steps[i] == steps[1..][i - 1]; }
        }
      }
    }
  }

  /** Two step functions that agree while `inv` holds (positions counted
      from `from`) on the steps of the list. */
  ghost predicate Agree<S(!new)>(steps: seq<nat>, f: (nat, S) -> Outcome<S>, g: (nat, S) -> Outcome<S>,
                                 inv: (nat, S) -> bool, from: nat)
  {
    forall i, t :: from <= i < from + |steps| && inv(i, t) ==>
      && f(steps[i - from], t) == g(steps[i - from], t)
      && (f(steps[i - from], t).Done? ==> inv(i + 1, f(steps[i - from], t).state))
  }

  /** Step functions that agree on the way give the same run. */
  lemma {:induction false} RunListAgree<S(!new)>(steps: seq<nat>, s: S, f: (nat, S) -> Outcome<S>,
                                                 g: (nat, S) -> Outcome<S>, inv: (nat, S) -> bool, from: nat)
    requires inv(from, s) && Agree(steps, f, g, inv, from)
    ensures RunList(steps, s, f) == RunList(steps, s, g)
    decreases |steps|
  {
    if |steps| > 0 {
      assert steps[from - from] == steps[0];
      match f(steps[0], s)
      case Failed(t) =>
      case Done(t) =>
        var tail := steps[1..];
        forall i, u | from + 1 <= i < from + 1 + |tail| && inv(i, u)
          ensures && f(tail[i - (from + 1)], u) == g(tail[i - (from + 1)], u)
                  && (f(tail[i - (from + 1)], u).Done? ==> inv(i + 1, f(tail[i - (from + 1)], u).state))
        {
          assert tail[i - (from + 1)] == steps[i - from];
        }
        RunListAgree(tail, t, f, g, inv, from + 1);
    }
  }

  /** A property every step keeps holds at the end of the run. */
  lemma {:induction false} RunListKeeps<S>(steps: seq<nat>, s: S, step: (nat, S) -> Outcome<S>, keep: S -> bool)
    requires keep(s)
    requires forall k, t :: keep(t) ==> keep(step(k, t).state)
    ensures keep(RunList(steps, s, step).state)
    decreases |steps|
  {
    if |steps| > 0 {
      match step(steps[0], s)
      case Failed(t) =>
      case Done(t) => RunListKeeps(steps[1..], t, step, keep);
    }
  }
}

=== FILE: settings.dfy ===
/** The configuration classes read from the environment at start-up. The
    environment is an explicit map here; `os.getenv` is a lookup in it. */
module Settings {
  import opened Wrappers
  import Text

  /** The process environment: variable name to value. */
  type Env = map<string, string>

  /** `os.getenv(name)`: `None` when the variable is unset. */
  function GetEnv(env: Env, name: string): Option<string>
  {
    if name in env then Some(env[name]) else None
  }

  /** `os.getenv(name, default)`. */
  function GetEnvOr(env: Env, name: string, default: string): string
  {
    GetEnv(env, name).GetOr(default)
  }

  /** `os.getenv(name, default).lower() == 'true'`, the shape of every on/off flag. */
  predicate Flag(env: Env, name: string, default: string)
  {
    Text.Lower(GetEnvOr(env, name, default)) == "true"
  }

  /** Python truthiness of an optional string: set and non-empty. */
  predicate IsSet(o: Option<string>)
  {
    o.Some? && o.value != ""
  }

  const DefaultFakeStoreUrl := "https://fakestoreapi.com"
  const DefaultFormUrl := "https://docs.google.com/forms/d/e/1FAIpQLSdVQEHNQsSIBN3Tl1bEBJaABs_3Mg4Wv_Wbg1oXnFM7wsrjUA/viewform?usp=dialog"
  const GraphUrl := "https://graph.microsoft.com/v1.0"

  /** Upload chunk size (4 MiB) and the largest file accepted (250 MiB). */
  const ChunkSize: nat := 1024 * 1024 * 4
  const MaxFileSize: nat := 1024 * 1024 * 250

  /** The project directories, below the project root `base`. */
  function DataDir(base: string): string { base + "/data" }
  function RawDir(base: string): string { DataDir(base) + "/raw" }
  function ReportsDir(base: string): string { base + "/reports" }
  function EvidencesDir(base: string): string { base + "/evidencias" }
  function LogsDir(base: string): string { base + "/logs" }

  /** `FileSettings`: file-name prefixes and extensions. */
  const JsonPrefix := "Productos_"
  const ExcelPrefix := "Reporte_"
  const EvidencePrefix := "evidencia_"
  const JsonExtension := ".json"
  const ExcelExtension := ".xlsx"

  /** `APISettings.PRODUCTS_ENDPOINT`: the catalogue base URL followed by "/products". */
  function ProductsEndpoint(env: Env): (r: string)
    ensures r == GetEnvOr(env, "FAKE_STORE_API_URL", DefaultFakeStoreUrl) + "/products"
    ensures "FAKE_STORE_API_URL" !in env ==> r == "https://fakestoreapi.com/products"
  {
    GetEnvOr(env, "FAKE_STORE_API_URL", DefaultFakeStoreUrl) + "/products"
  }

  /** The endpoint pins the catalogue URL down: it is that URL followed by
      "/products", so two environments share an endpoint exactly when they
      share the URL. */
  lemma {:induction false} ProductsEndpointDeterminesBase(e1: Env, e2: Env)
    ensures var b := GetEnvOr(e1, "FAKE_STORE_API_URL", DefaultFakeStoreUrl);
            var p := ProductsEndpoint(e1);
            |p| == |b| + 9 && p[..|b|] == b && p[|b|..] == "/products"
    ensures ProductsEndpoint(e1) == ProductsEndpoint(e2)
            <==> GetEnvOr(e1, "FAKE_STORE_API_URL", DefaultFakeStoreUrl)
                 == GetEnvOr(e2, "FAKE_STORE_API_URL", DefaultFakeStoreUrl)
  {
    var b1 := GetEnvOr(e1, "FAKE_STORE_API_URL", DefaultFakeStoreUrl);
    var b2 := GetEnvOr(e2, "FAKE_STORE_API_URL", DefaultFakeStoreUrl);
    var p1 := ProductsEndpoint(e1);
    var p2 := ProductsEndpoint(e2);
    assert p1[..|b1|] == b1 && p1[|b1|..] == "/products";
    assert p2[..|b2|] == b2;
    if p1 == p2 {
      assert |b1| == |b2|;
    }
  }

  /** `OneDriveSettings`. */
  datatype OneDriveSettings = OneDriveSettings(
    clientId: Option<string>,
    clientSecret: Option<string>,
    tenantId: Option<string>,
    jsonPath: string,
    reportsPath: string,
    evidencesPath: string,
    conflictBehavior: string,
    targetUserId: Option<string>,
    targetUserEmail: Option<string>)

  function OneDriveFromEnv(env: Env): OneDriveSettings
  {
    OneDriveSettings(
      GetEnv(env, "AZURE_CLIENT_ID"),
      GetEnv(env, "AZURE_CLIENT_SECRET"),
      GetEnv(env, "AZURE_TENANT_ID"),
      GetEnvOr(env, "ONEDRIVE_JSON_PATH", "RPA/Logs"),
      GetEnvOr(env, "ONEDRIVE_REPORTS_PATH", "RPA/Reportes"),
      GetEnvOr(env, "ONEDRIVE_EVIDENCES_PATH", "RPA/Evidencias"),
      GetEnvOr(env, "ONEDRIVE_CONFLICT_BEHAVIOR", "replace"),
      GetEnv(env, "ONEDRIVE_USER_ID"),
      GetEnv(env, "ONEDRIVE_USER_EMAIL"))
  }

  /** Whether a target user is named: app-only tokens need one. */
  predicate HasTargetUser(s: OneDriveSettings)
  {
    IsSet(s.targetUserId) || IsSet(s.targetUserEmail)
  }

  /** `OneDriveSettings.get_drive_base_url()`. */
  function DriveBaseUrl(s: OneDriveSettings): (r: string)
    ensures IsSet(s.targetUserId) ==> r == GraphUrl + "/users/" + s.targetUserId.value + "/drive"
    ensures !IsSet(s.targetUserId) && IsSet(s.targetUserEmail) ==>
              r == GraphUrl + "/users/" + s.targetUserEmail.value + "/drive"
    ensures !HasTargetUser(s) ==> r == GraphUrl + "/me/drive"
  {
    if HasTargetUser(s) then
      var user := if IsSet(s.targetUserId) then s.targetUserId.value else s.targetUserEmail.value;
      GraphUrl + "/users/" + user + "/drive"
    else GraphUrl + "/me/drive"
  }

  /** The "/me/drive" form is used exactly when no target user is set, and the
      target user id wins over the e-mail whatever the e-mail is. */
  lemma DriveBaseUrlChoice(s: OneDriveSettings, otherEmail: Option<string>)
    ensures DriveBaseUrl(s) == GraphUrl + "/me/drive" <==> !HasTargetUser(s)
    ensures IsSet(s.targetUserId) ==>
              DriveBaseUrl(s.(targetUserEmail := otherEmail)) == DriveBaseUrl(s)
  {
    var g := |GraphUrl|;
    if HasTargetUser(s) {
      assert DriveBaseUrl(s)[g + 1] == 'u';
      assert (GraphUrl + "/me/drive")[g + 1] == 'm';
    }
  }

  /** `OneDriveSettings.is_configured()`: client id, secret and tenant all set. */
  predicate OneDriveConfigured(s: OneDriveSettings)
  {
    IsSet(s.clientId) && IsSet(s.clientSecret) && IsSet(s.tenantId)
  }

  /** An environment lacking any one of the three credentials is not configured. */
  lemma OneDriveNeedsAllCredentials(env: Env)
    ensures OneDriveConfigured(OneDriveFromEnv(env)) <==>
              && "AZURE_CLIENT_ID" in env && env["AZURE_CLIENT_ID"] != ""
              && "AZURE_CLIENT_SECRET" in env && env["AZURE_CLIENT_SECRET"] != ""
              && "AZURE_TENANT_ID" in env && env["AZURE_TENANT_ID"] != ""
  {
  }

  /** `WebAutomationSettings`. */
  datatype WebSettings = WebSettings(formUrl: string, formType: string)

  function WebFromEnv(env: Env): WebSettings
  {
    WebSettings(GetEnvOr(env, "FORM_URL", DefaultFormUrl), GetEnvOr(env, "FORM_TYPE", "google_forms"))
  }

  /** `WebAutomationSettings.is_configured()`: the form URL is non-empty. */
  predicate WebConfigured(w: WebSettings)
  {
    w.formUrl != ""
  }

  /** Because the default form URL is non-empty, web automation counts as
      configured unless FORM_URL is explicitly set to the empty string. */
  lemma WebConfiguredUnlessEmptied(env: Env)
    ensures WebConfigured(WebFromEnv(env)) <==> !("FORM_URL" in env && env["FORM_URL"] == "")
  {
    assert |DefaultFormUrl| > 0;
  }

  /** `ExcelSettings.INCLUDE_CHARTS`, on unless the variable says otherwise. */
  predicate IncludeCharts(env: Env)
  {
    Flag(env, "INCLUDE_CHARTS", "true")
  }

  /** `ExcelSettings.LANGUAGE`. */
  function ReportLanguage(env: Env): string
  {
    GetEnvOr(env, "REPORT_LANGUAGE", "es")
  }

  /** `ExcelSettings.SHEET_NAMES[language]`: the products and the summary
      sheet name. Any language other than the two listed is a missing key. */
  function SheetNames(language: string): Option<(string, string)>
  {
    if language == "es" then Some(("Productos", "Resumen"))
    else if language == "en" then Some(("Products", "Summary"))
    else None
  }

  /** The status dictionary of `validate_configuration()`. */
  datatype ConfigurationStatus = ConfigurationStatus(
    api: bool, database: bool, directories: bool, onedrive: bool, webAutomation: bool)

  /** `validate_configuration()` checks nothing: it reports the same fixed
      status whatever the environment holds. */
  function ValidateConfiguration(env: Env): (r: ConfigurationStatus)
    ensures r.api && r.database && r.directories
    ensures !r.onedrive && !r.webAutomation
  {
    ConfigurationStatus(true, true, true, false, false)
  }

  /** The fixed status ignores the environment even when every credential is set. */
  lemma ValidateConfigurationIgnoresEnv(env: Env, env': Env)
    ensures ValidateConfiguration(env) == ValidateConfiguration(env')
    ensures OneDriveConfigured(OneDriveFromEnv(env)) ==> !ValidateConfiguration(env).onedrive
  {
  }

  /** The size thresholds are ordered: every file small enough to send in one
      request is also below the maximum. */
  lemma ChunkBelowMaximum(size: nat)
    ensures ChunkSize == 4194304 && MaxFileSize == 262144000
    ensures size < ChunkSize ==> size <= MaxFileSize
  {
  }
}

=== FILE: store.dfy ===
/** The SQLite `Productos` table behind `DatabaseManager`: insert-or-ignore
    by primary key, the id-ordered listing, and the aggregate statistics.
    The table is a map from id to row; a rolled-back batch leaves the caller
    with the table it had. */
module Store {
  import opened Wrappers
  import opened Values
  import Text
  import Clock
  import Collections

  /** The columns of a stored product besides its id. */
  datatype Row = Row(title: string, price: real, category: string, description: string, fecha: string)

  type Table = map<int, Row>

  /** SQLite binds Python ints as signed 64-bit INTEGERs; a larger one
      raises OverflowError. */
  const MinInteger: int := -0x8000_0000_0000_0000
  const MaxInteger: int := 0x7FFF_FFFF_FFFF_FFFF

  /** The exceptions that abort a whole batch: KeyError for a record
      without `id`, OverflowError for an id SQLite cannot bind. */
  datatype InsertError = MissingId | IdOverflow

  /** What one record of a batch turns into before it reaches the table. */
  datatype Prepared =
    | Ready(id: int, row: Row)
    | Skipped(error: ConversionError)
    | Aborted(abort: InsertError)

  /** `p.get(key, default)`. */
  function Get(p: Record, key: string, default: Value): Value
  {
    if key in p then p[key] else default
  }

  /** The stored insertion stamp: a datetime is formatted, any other truthy
      value is kept as its text, and a missing or falsy one is the clock. */
  function FechaText(fecha: Value, now: Clock.DateTime): string
  {
    if fecha.Time? then Clock.SqlStamp(fecha.t)
    else if Truthy(fecha) then StrOf(fecha)
    else Clock.SqlStamp(now)
  }

  /** One iteration of the `insert_products` loop up to the INSERT. `int()`
      of the id comes first, then `float()` of the price; either failing
      skips the record. Title, price and category are not re-validated:
      missing ones default to "", 0 and "". */
  function Prepare(p: Record, now: Clock.DateTime): Prepared
  {
    if "id" !in p then Aborted(MissingId)
    else
      PrepareFrom(IntOf(p["id"]), FloatOf(Get(p, "price", Int(0))),
                  Text.StripSpace(StrOf(Get(p, "title", Str("")))),
                  Text.StripSpace(StrOf(Get(p, "category", Str("")))),
                  Text.StripSpace(StrOf(Get(p, "description", Str("")))),
                  FechaText(Get(p, "fecha_insercion", Null), now))
  }

  /** The decisions of one iteration once the fields have been converted:
      the id conversion is looked at first, then the price, and only then
      can binding the id overflow. */
  function PrepareFrom(id: Result<int, ConversionError>, price: Result<real, ConversionError>,
                       title: string, category: string, description: string, fecha: string)
    : (r: Prepared)
    ensures r.Skipped? <==> id.Failure? || price.Failure?
    ensures r.Skipped? ==> r.error == if id.Failure? then id.error else price.error
    ensures r.Aborted? <==> id.Success? && price.Success? && !(MinInteger <= id.value <= MaxInteger)
    ensures r.Aborted? ==> r.abort == IdOverflow
    ensures r.Ready? ==> r.id == id.value && r.row == Row(title, price.value, category, description, fecha)
  {
    if id.Failure? then Skipped(id.error)
    else if price.Failure? then Skipped(price.error)
    else if !(MinInteger <= id.value <= MaxInteger) then Aborted(IdOverflow)
    else Ready(id.value, Row(title, price.value, category, description, fecha))
  }

  /** The preparation step as a function of the record, for a fixed clock. */
  function Preparer(now: Clock.DateTime): Record -> Prepared
  {
    p => Prepare(p, now)
  }

  /** The table and the count of rows actually inserted so far. */
  datatype Batch = Batch(table: Table, inserted: nat)

  /** `INSERT OR IGNORE`: a new id adds its row and counts as inserted; an
      id already stored changes nothing. */
  function InsertOrIgnore(b: Batch, id: int, row: Row): Batch
  {
    if id in b.table then b else Batch(b.table[id := row], b.inserted + 1)
  }

  /** What a record that does not abort does to the batch: a ready one is
      inserted or ignored, a skipped one leaves it alone. */
  function Step(b: Batch, op: Prepared): Batch
  {
    if op.Ready? then InsertOrIgnore(b, op.id, op.row) else b
  }

  /** The loop of `insert_products` over prepared records: skipped records
      are passed over and the first aborting record ends the batch. */
  function Apply(b: Batch, ops: seq<Prepared>): (r: Result<Batch, InsertError>)
    ensures r.Success? ==> b.inserted <= r.value.inserted <= b.inserted + |ops|
    decreases |ops|
  {
    if |ops| == 0 then Success(b)
    else if ops[0].Aborted? then Failure(ops[0].abort)
    else Apply(Step(b, ops[0]), ops[1..])
  }

  /** `insert_products`: the new table and the number of rows inserted, or
      the exception that rolled the batch back. An empty batch returns 0 at
      once. */
  function InsertProducts(t: Table, ps: seq<Record>, now: Clock.DateTime): (r: Result<Batch, InsertError>)
    ensures |ps| == 0 ==> r == Success(Batch(t, 0))
    ensures r.Success? ==> r.value.inserted <= |ps|
  {
    if |ps| == 0 then Success(Batch(t, 0))
    else Apply(Batch(t, 0), Collections.Map(Preparer(now), ps))
  }

  /** The ids the ready records of a batch carry. */
  ghost function ReadyIds(ops: seq<Prepared>): set<int>
  {
    set i | 0 <= i < |ops| && ops[i].Ready? :: ops[i].id
  }

  /** No record of the batch aborts it. */
  predicate NoAbort(ops: seq<Prepared>)
  {
    forall i :: 0 <= i < |ops| ==> !ops[i].Aborted?
  }

  /** The batch fails exactly when some record aborts it, and then with the
      error of the first such record. */
  lemma {:induction false} ApplyFails(b: Batch, ops: seq<Prepared>)
    ensures Apply(b, ops).Success? <==> NoAbort(ops)
    ensures Apply(b, ops).Failure? ==>
              exists i :: 0 <= i < |ops| && ops[i] == Aborted(Apply(b, ops).error)
                          && forall j :: 0 <= j < i ==> !ops[j].Aborted?
    decreases |ops|
  {
    if |ops| > 0 {
      var next := Step(b, ops[0]);
      ApplyFails(next, ops[1..]);
      if !ops[0].Aborted? {
        assert Apply(b, ops) == Apply(next, ops[1..]);
        assert forall i :: 1 <= i < |ops| ==> ops[i] == ops[1..][i - 1];
        if Apply(b, ops).Failure? {
          var i :| 0 <= i < |ops[1..]| && ops[1..][i] == Aborted(Apply(b, ops).error)
                   && forall j :: 0 <= j < i ==> !ops[1..][j].Aborted?;
          assert ops[i + 1] == ops[1..][i];
          forall j | 0 <= j < i + 1
            ensures !ops[j].Aborted?
          {
            if j > 0 {
              assert ops[j] == ops[1..][j - 1];
            }
          }
        }
      }
    }
  }

  /** A successful batch adds exactly the ids of its ready records. */
  lemma {:induction false} ApplyKeys(b: Batch, ops: seq<Prepared>)
    requires Apply(b, ops).Success?
    ensures Apply(b, ops).value.table.Keys == b.table.Keys + ReadyIds(ops)
    decreases |ops|
  {
    if |ops| > 0 {
      var next := Step(b, ops[0]);
      assert Apply(b, ops) == Apply(next, ops[1..]);
      ApplyKeys(next, ops[1..]);
      ReadyIdsCons(ops);
      StepAdds(b, ops[0]);
      var head: set<int> := if ops[0].Ready? then {ops[0].id} else {};
      calc {
        Apply(b, ops).value.table.Keys;
        next.table.Keys + ReadyIds(ops[1..]);
        (b.table.Keys + head) + ReadyIds(ops[1..]);
        b.table.Keys + (head + ReadyIds(ops[1..]));
        b.table.Keys + ReadyIds(ops);
      }
    }
  }

  /** A successful batch keeps every stored row as it was. */
  lemma {:induction false} ApplyKeepsRows(b: Batch, ops: seq<Prepared>)
    requires Apply(b, ops).Success?
    ensures forall k :: k in b.table ==> k in Apply(b, ops).value.table && Apply(b, ops).value.table[k] == b.table[k]
    decreases |ops|
  {
    if |ops| > 0 {
      var next := Step(b, ops[0]);
      assert Apply(b, ops) == Apply(next, ops[1..]);
      ApplyKeepsRows(next, ops[1..]);
      StepAdds(b, ops[0]);
    }
  }

  /** A successful batch counts exactly the keys it added. */
  lemma {:induction false} ApplyCounts(b: Batch, ops: seq<Prepared>)
    requires Apply(b, ops).Success?
    ensures Apply(b, ops).value.inserted - |Apply(b, ops).value.table.Keys| == b.inserted - |b.table.Keys|
    decreases |ops|
  {
    if |ops| > 0 {
      var next := Step(b, ops[0]);
      assert Apply(b, ops) == Apply(next, ops[1..]);
      ApplyCounts(next, ops[1..]);
      StepAdds(b, ops[0]);
    }
  }

  /** One record adds at most its own id, keeps the stored rows, and counts
      what it adds. */
  lemma StepAdds(b: Batch, op: Prepared)
    ensures Step(b, op).table.Keys == b.table.Keys + (if op.Ready? then {op.id} else {})
    ensures forall k :: k in b.table ==> Step(b, op).table[k] == b.table[k]
    ensures Step(b, op).inserted - |Step(b, op).table.Keys| == b.inserted - |b.table.Keys|
  {
    if op.Ready? && op.id !in b.table {
      assert Step(b, op).table.Keys == b.table.Keys + {op.id};
    }
  }

  lemma ReadyIdsCons(ops: seq<Prepared>)
    requires |ops| > 0
    ensures ReadyIds(ops) == (if ops[0].Ready? then {ops[0].id} else {}) + ReadyIds(ops[1..])
  {
    var head := if ops[0].Ready? then {ops[0].id} else {};
    forall k | k in ReadyIds(ops)
      ensures k in head + ReadyIds(ops[1..])
    {
      var i :| 0 <= i < |ops| && ops[i].Ready? && ops[i].id == k;
      if i > 0 {
        assert ops[1..][i - 1] == ops[i];
      }
    }
    forall k | k in ReadyIds(ops[1..])
      ensures k in ReadyIds(ops)
    {
      var i :| 0 <= i < |ops[1..]| && ops[1..][i].Ready? && ops[1..][i].id == k;
      assert ops[i + 1] == ops[1..][i];
    }
  }

  /** First-seen wins: the first ready record of a new id is the row that
      ends up stored under it, whatever later records carry that id. */
  lemma {:induction false} ApplyFirstWins(b: Batch, ops: seq<Prepared>, i: nat)
    requires Apply(b, ops).Success?
    requires i < |ops| && ops[i].Ready? && ops[i].id !in b.table
    requires forall j :: 0 <= j < i ==> !(ops[j].Ready? && ops[j].id == ops[i].id)
    ensures ops[i].id in Apply(b, ops).value.table
    ensures Apply(b, ops).value.table[ops[i].id] == ops[i].row
    decreases |ops|
  {
    var next := Step(b, ops[0]);
    assert Apply(b, ops) == Apply(next, ops[1..]);
    if i == 0 {
      ApplyKeepsRows(next, ops[1..]);
    } else {
      assert ops[1..][i - 1] == ops[i];
      forall j | 0 <= j < i - 1
        ensures !(ops[1..][j].Ready? && ops[1..][j].id == ops[i].id)
      {
        assert ops[1..][j] == ops[j + 1];
      }
      ApplyFirstWins(next, ops[1..], i - 1);
    }
  }

  /** A batch whose ready ids are all stored already inserts nothing and
      changes nothing. */
  lemma {:induction false} ApplyIgnoresStored(b: Batch, ops: seq<Prepared>)
    requires NoAbort(ops) && ReadyIds(ops) <= b.table.Keys
    ensures Apply(b, ops) == Success(b)
    decreases |ops|
  {
    if |ops| > 0 {
      ReadyIdsCons(ops);
      assert Apply(b, ops) == Apply(b, ops[1..]);
      assert NoAbort(ops[1..]) by {
        forall i | 0 <= i < |ops[1..]|
          ensures !ops[1..][i].Aborted?
        {
          assert ops[1..][i] == ops[i + 1];
        }
      }
      ApplyIgnoresStored(b, ops[1..]);
    }
  }

  /** A skipped record affects nothing: the batch with it does what the
      batch without it does. */
  lemma {:induction false} ApplySkip(b: Batch, a: seq<Prepared>, e: ConversionError, c: seq<Prepared>)
    ensures Apply(b, a + [Skipped(e)] + c) == Apply(b, a + c)
    decreases |a|
  {
    if |a| == 0 {
      assert a + [Skipped(e)] + c == [Skipped(e)] + c;
      assert ([Skipped(e)] + c)[1..] == c;
      assert a + c == c;
    } else {
      var next := Step(b, a[0]);
      assert (a + [Skipped(e)] + c)[0] == a[0] && (a + c)[0] == a[0];
      assert (a + [Skipped(e)] + c)[1..] == a[1..] + [Skipped(e)] + c;
      assert (a + c)[1..] == a[1..] + c;
      ApplySkip(next, a[1..], e, c);
    }
  }

  /** The outcome for one record, stated on the record: a missing id
      aborts, a failed conversion skips, an id out of the 64-bit range
      aborts, and otherwise the stripped texts and converted price are what
      is stored. */
  lemma PrepareCases(p: Record, now: Clock.DateTime)
    ensures Prepare(p, now) == Aborted(MissingId) <==> "id" !in p
    ensures Prepare(p, now).Skipped? <==>
              "id" in p && (IntOf(p["id"]).Failure? || FloatOf(Get(p, "price", Int(0))).Failure?)
    ensures Prepare(p, now) == Aborted(IdOverflow) <==>
              && "id" in p && IntOf(p["id"]).Success? && FloatOf(Get(p, "price", Int(0))).Success?
              && !(MinInteger <= IntOf(p["id"]).value <= MaxInteger)
    ensures Prepare(p, now).Ready? ==>
              && IntOf(p["id"]) == Success(Prepare(p, now).id)
              && FloatOf(Get(p, "price", Int(0))) == Success(Prepare(p, now).row.price)
              && Prepare(p, now).row.title == Text.StripSpace(StrOf(Get(p, "title", Str(""))))
              && Prepare(p, now).row.fecha == FechaText(Get(p, "fecha_insercion", Null), now)
  {
    if "id" in p {
      var id, price := IntOf(p["id"]), FloatOf(Get(p, "price", Int(0)));
      var title := Text.StripSpace(StrOf(Get(p, "title", Str(""))));
      var category := Text.StripSpace(StrOf(Get(p, "category", Str(""))));
      var description := Text.StripSpace(StrOf(Get(p, "description", Str(""))));
      var fecha := FechaText(Get(p, "fecha_insercion", Null), now);
      assert Prepare(p, now) == PrepareFrom(id, price, title, category, description, fecha);
    }
  }

  /** Nothing is re-validated: a record holding only an id is stored with
      an empty title, category and description, a zero price and the
      clock's stamp. */
  lemma PrepareDefaults(k: int, now: Clock.DateTime)
    requires MinInteger <= k <= MaxInteger
    ensures Prepare(map["id" := Int(k)], now) == Ready(k, Row("", 0.0, "", "", Clock.SqlStamp(now)))
  {
    var p := map["id" := Int(k)];
    var empty := Str("");
    assert p["id"] == Int(k);
    assert Get(p, "title", empty) == empty && Get(p, "category", empty) == empty;
    assert Get(p, "description", empty) == empty;
    assert Get(p, "price", Int(0)) == Int(0) && Get(p, "fecha_insercion", Null) == Null;
    assert StrOf(empty) == "";
    Text.StripNoneOf("", Text.Space);
    assert FechaText(Null, now) == Clock.SqlStamp(now);
    assert Prepare(p, now) == PrepareFrom(Success(k), Success(0.0), "", "", "", Clock.SqlStamp(now));
  }

  /** The stamp rule on the three kinds of value it meets: a datetime is
      formatted, a non-empty string is kept, and None or "" become the
      clock's stamp. */
  lemma StoredStamp(t: Clock.DateTime, s: string, now: Clock.DateTime)
    ensures FechaText(Time(t), now) == Clock.SqlStamp(t)
    ensures s != "" ==> FechaText(Str(s), now) == s
    ensures FechaText(Str(""), now) == Clock.SqlStamp(now)
    ensures FechaText(Null, now) == Clock.SqlStamp(now)
  {
  }

  /** The prepared form of a batch. */
  lemma PreparedOf(ps: seq<Record>, now: Clock.DateTime, i: nat)
    requires i < |ps|
    ensures |Collections.Map(Preparer(now), ps)| == |ps|
    ensures Collections.Map(Preparer(now), ps)[i] == Prepare(ps[i], now)
  {
  }

  /** The ids the ready records of a batch would add. */
  ghost function BatchIds(ps: seq<Record>, now: Clock.DateTime): set<int>
  {
    set i | 0 <= i < |ps| && Prepare(ps[i], now).Ready? :: Prepare(ps[i], now).id
  }

  /** The batch is rolled back exactly when some record aborts it; in
      particular a record without an `id` key always rolls it back. */
  lemma InsertRollsBack(t: Table, ps: seq<Record>, now: Clock.DateTime)
    ensures InsertProducts(t, ps, now).Success? <==>
              forall i :: 0 <= i < |ps| ==> !Prepare(ps[i], now).Aborted?
    ensures (exists i :: 0 <= i < |ps| && "id" !in ps[i]) ==> InsertProducts(t, ps, now).Failure?
  {
    if |ps| > 0 {
      var ops := Collections.Map(Preparer(now), ps);
      ApplyFails(Batch(t, 0), ops);
      forall i | 0 <= i < |ps|
        ensures ops[i] == Prepare(ps[i], now)
      {
        PreparedOf(ps, now, i);
      }
      forall i | 0 <= i < |ps| && "id" !in ps[i]
        ensures Prepare(ps[i], now).Aborted?
      {
      }
    }
  }

  /** A committed batch leaves every stored row as it was, adds exactly the
      ids of its ready records, and returns the number of keys it added. */
  lemma InsertAddsNewIds(t: Table, ps: seq<Record>, now: Clock.DateTime)
    requires InsertProducts(t, ps, now).Success?
    ensures var r := InsertProducts(t, ps, now).value;
            && (forall k :: k in t ==> k in r.table && r.table[k] == t[k])
            && r.table.Keys == t.Keys + BatchIds(ps, now)
            && r.inserted == |r.table.Keys - t.Keys|
  {
    var r := InsertProducts(t, ps, now).value;
    if |ps| > 0 {
      var ops := Collections.Map(Preparer(now), ps);
      ApplyKeys(Batch(t, 0), ops);
      ApplyKeepsRows(Batch(t, 0), ops);
      ApplyCounts(Batch(t, 0), ops);
      ReadyIdsOfBatch(ps, now);
    }
    Grown(t.Keys, r.table.Keys);
  }

  lemma ReadyIdsOfBatch(ps: seq<Record>, now: Clock.DateTime)
    ensures ReadyIds(Collections.Map(Preparer(now), ps)) == BatchIds(ps, now)
  {
    var ops := Collections.Map(Preparer(now), ps);
    forall k | k in ReadyIds(ops)
      ensures k in BatchIds(ps, now)
    {
      var i :| 0 <= i < |ops| && ops[i].Ready? && ops[i].id == k;
      PreparedOf(ps, now, i);
    }
    forall k | k in BatchIds(ps, now)
      ensures k in ReadyIds(ops)
    {
      var i :| 0 <= i < |ps| && Prepare(ps[i], now).Ready? && Prepare(ps[i], now).id == k;
      PreparedOf(ps, now, i);
    }
  }

  /** What a set gains when it grows is the difference in size. */
  lemma Grown(a: set<int>, b: set<int>)
    requires a <= b
    ensures |b - a| == |b| - |a|
  {
    assert b == a + (b - a);
  }

  /** First-seen wins within a batch: the first record carrying a new id is
      the row stored under it. */
  lemma InsertFirstWins(t: Table, ps: seq<Record>, now: Clock.DateTime, i: nat)
    requires InsertProducts(t, ps, now).Success?
    requires i < |ps| && Prepare(ps[i], now).Ready? && Prepare(ps[i], now).id !in t
    requires forall j :: 0 <= j < i ==>
               !(Prepare(ps[j], now).Ready? && Prepare(ps[j], now).id == Prepare(ps[i], now).id)
    ensures Prepare(ps[i], now).id in InsertProducts(t, ps, now).value.table
    ensures InsertProducts(t, ps, now).value.table[Prepare(ps[i], now).id] == Prepare(ps[i], now).row
  {
    var ops := Collections.Map(Preparer(now), ps);
    forall j | 0 <= j < |ps|
      ensures ops[j] == Prepare(ps[j], now)
    {
      PreparedOf(ps, now, j);
    }
    ApplyFirstWins(Batch(t, 0), ops, i);
  }

  /** Re-inserting a committed batch into the table it produced inserts
      nothing and changes nothing. */
  lemma InsertIdempotent(t: Table, ps: seq<Record>, now: Clock.DateTime)
    requires InsertProducts(t, ps, now).Success?
    ensures var t' := InsertProducts(t, ps, now).value.table;
            InsertProducts(t', ps, now) == Success(Batch(t', 0))
  {
    if |ps| > 0 {
      var t' := InsertProducts(t, ps, now).value.table;
      var ops := Collections.Map(Preparer(now), ps);
      ApplyFails(Batch(t, 0), ops);
      ApplyKeys(Batch(t, 0), ops);
      ApplyIgnoresStored(Batch(t', 0), ops);
    }
  }

  /** A record that fails conversion is skipped and affects nothing else:
      the batch with it does what the batch without it does. */
  lemma InsertSkipsBadRecord(t: Table, a: seq<Record>, p: Record, c: seq<Record>, now: Clock.DateTime)
    requires Prepare(p, now).Skipped?
    ensures InsertProducts(t, a + [p] + c, now) == InsertProducts(t, a + c, now)
  {
    var f := Preparer(now);
    var e := Prepare(p, now).error;
    Collections.MapConcat(f, a + [p], c);
    Collections.MapConcat(f, a, [p]);
    Collections.MapConcat(f, a, c);
    assert Collections.Map(f, [p]) == [Skipped(e)];
    ApplySkip(Batch(t, 0), Collections.Map(f, a), e, Collections.Map(f, c));
    if |a + c| == 0 {
      assert Apply(Batch(t, 0), []) == Success(Batch(t, 0));
    }
  }

  /** The order of INTEGER keys. */
  predicate IdLe(a: int, b: int)
  {
    a <= b
  }

  lemma IdLeTotalOrder()
    ensures Collections.TotalOrder(IdLe)
  {
  }

  /** The stored ids in ascending order. */
  function SortedIds(t: Table): (r: seq<int>)
    ensures |r| == |t.Keys|
    ensures forall k :: k in r <==> k in t
    ensures forall i, j :: 0 <= i < j < |r| ==> r[i] < r[j]
  {
    IdLeTotalOrder();
    Collections.SortSet(t.Keys, IdLe)
  }

  /** `get_all_products`: the stored rows with their ids, by id. */
  function AllProducts(t: Table): (r: seq<(int, Row)>)
    ensures |r| == |t.Keys|
  {
    var ids := SortedIds(t);
    seq(|ids|, i requires 0 <= i < |ids| => (ids[i], t[ids[i]]))
  }

  /** Each listed row is the stored row of its id, and the ids ascend. */
  lemma AllProductsSorted(t: Table)
    ensures forall i :: 0 <= i < |AllProducts(t)| ==>
              AllProducts(t)[i].0 in t && AllProducts(t)[i].1 == t[AllProducts(t)[i].0]
    ensures forall i, j :: 0 <= i < j < |AllProducts(t)| ==> AllProducts(t)[i].0 < AllProducts(t)[j].0
  {
  }

  /** Every stored id is listed. */
  lemma AllProductsComplete(t: Table, k: int)
    requires k in t
    ensures exists i :: 0 <= i < |AllProducts(t)| && AllProducts(t)[i] == (k, t[k])
  {
    var ids := SortedIds(t);
    var i :| 0 <= i < |ids| && ids[i] == k;
    assert AllProducts(t)[i] == (k, t[k]);
  }

  /** The aggregates of one category row of `get_statistics`. */
  datatype CategoryStat = CategoryStat(category: string, count: nat, avgPrice: real, minPrice: real, maxPrice: real)

  /** What `get_statistics` returns. */
  datatype Statistics = Statistics(totalProducts: nat, avgPrice: real, categoryStats: seq<CategoryStat>)

  /** The stored rows in id order. */
  function Rows(t: Table): (r: seq<Row>)
    ensures |r| == |t.Keys|
    ensures forall i :: 0 <= i < |r| ==> r[i] in t.Values
  {
    var ids := SortedIds(t);
    assert forall i :: 0 <= i < |ids| ==> ids[i] in t;
    seq(|ids|, i requires 0 <= i < |ids| => t[ids[i]])
  }

  /** The prices of the rows, in order. */
  function Prices(rows: seq<Row>): (r: seq<real>)
    ensures |r| == |rows| && forall i :: 0 <= i < |rows| ==> r[i] == rows[i].price
  {
    if |rows| == 0 then [] else [rows[0].price] + Prices(rows[1..])
  }

  /** The prices of the rows of category `c`, in order. */
  function PricesIn(rows: seq<Row>, c: string): (r: seq<real>)
    ensures |r| <= |rows|
  {
    if |rows| == 0 then []
    else (if rows[0].category == c then [rows[0].price] else []) + PricesIn(rows[1..], c)
  }

  function Sum(xs: seq<real>): real
  {
    if |xs| == 0 then 0.0 else xs[0] + Sum(xs[1..])
  }

  /** SQL `AVG`: NULL over no rows, which the code turns into 0.0. */
  function Mean(xs: seq<real>): real
  {
    if |xs| == 0 then 0.0 else Sum(xs) / |xs| as real
  }

  /** SQL `MIN` over a non-empty group. */
  function MinOf(xs: seq<real>): (m: real)
    requires |xs| > 0
    ensures m in xs && forall i :: 0 <= i < |xs| ==> m <= xs[i]
  {
    if |xs| == 1 then xs[0]
    else
      var m := MinOf(xs[1..]);
      assert forall i :: 1 <= i < |xs| ==> xs[i] == xs[1..][i - 1];
      if xs[0] <= m then xs[0] else m
  }

  /** SQL `MAX` over a non-empty group. */
  function MaxOf(xs: seq<real>): (m: real)
    requires |xs| > 0
    ensures m in xs && forall i :: 0 <= i < |xs| ==> xs[i] <= m
  {
    if |xs| == 1 then xs[0]
    else
      var m := MaxOf(xs[1..]);
      assert forall i :: 1 <= i < |xs| ==> xs[i] == xs[1..][i - 1];
      if xs[0] >= m then xs[0] else m
  }

  /** The categories that occur in the table. */
  function Categories(t: Table): set<string>
  {
    set k | k in t :: t[k].category
  }

  /** One row of the `GROUP BY category` query; the None fallbacks of the
      code apply to a group without rows. */
  function StatOf(rows: seq<Row>, c: string): CategoryStat
  {
    var ps := PricesIn(rows, c);
    CategoryStat(c, |ps|, Mean(ps), if |ps| == 0 then 0.0 else MinOf(ps),
                 if |ps| == 0 then 0.0 else MaxOf(ps))
  }

  function StatFor(rows: seq<Row>): string -> CategoryStat
  {
    c => StatOf(rows, c)
  }

  /** The categories in the order of `ORDER BY category`: SQLite's binary
      collation compares UTF-8 bytes, which orders texts by code point. */
  function CategoryNames(t: Table): (r: seq<string>)
    ensures |r| == |Categories(t)|
    ensures forall c :: c in r <==> c in Categories(t)
    ensures forall i, j :: 0 <= i < j < |r| ==> Text.LexLe(r[i], r[j]) && r[i] != r[j]
  {
    Text.LexLeTotalOrder();
    Collections.SortSet(Categories(t), Text.LexLe)
  }

  /** `get_statistics`: the row count, the average price over all rows, and
      one aggregate row per category, ordered by category. */
  function GetStatistics(t: Table): (r: Statistics)
    ensures r.totalProducts == |t.Keys|
    ensures |r.categoryStats| == |Categories(t)|
  {
    var rows := Rows(t);
    Statistics(|t.Keys|, Mean(Prices(rows)), Collections.Map(StatFor(rows), CategoryNames(t)))
  }

  /** An empty table gives the defaults the code starts from. */
  lemma StatisticsEmpty()
    ensures GetStatistics(map[]) == Statistics(0, 0.0, [])
  {
    var t: Table := map[];
    assert Categories(t) == {};
  }

  /** The aggregate rows follow the category names one for one: the i-th row
      aggregates the group of the i-th name, is labelled with it, and counts
      exactly the stored ids of that category. */
  lemma StatisticsCategories(t: Table)
    ensures forall i :: 0 <= i < |GetStatistics(t).categoryStats| ==>
              GetStatistics(t).categoryStats[i] == StatOf(Rows(t), CategoryNames(t)[i])
    ensures forall i :: 0 <= i < |GetStatistics(t).categoryStats| ==>
              && GetStatistics(t).categoryStats[i].category == CategoryNames(t)[i]
              && GetStatistics(t).categoryStats[i].count == |IdsIn(t, CategoryNames(t)[i])|
  {
    var names := CategoryNames(t);
    forall i | 0 <= i < |names|
      ensures |PricesIn(Rows(t), names[i])| == |IdsIn(t, names[i])|
    {
      GroupSizeOfTable(t, names[i]);
    }
  }

  /** The ids stored under category `c`. */
  function IdsIn(t: Table, c: string): set<int>
  {
    set k | k in t && t[k].category == c
  }

  /** The group of `c` holds one price per id stored under `c`. */
  lemma GroupSizeOfTable(t: Table, c: string)
    ensures |PricesIn(Rows(t), c)| == |IdsIn(t, c)|
  {
    var ids := SortedIds(t);
    GroupSize(t, ids, c);
    SortedIdsGroup(t, c);
  }

  lemma SortedIdsGroup(t: Table, c: string)
    ensures IdsWith(t, SortedIds(t), c) == IdsIn(t, c)
  {
    var ids := SortedIds(t);
    IdsWithMembers(t, ids, c);
    forall k ensures k in IdsWith(t, ids, c) <==> k in IdsIn(t, c) {
      assert k in ids <==> k in t;
    }
  }

  /** The ids of `ids`, in order, whose stored row has category `c`. */
  function IdsWith(t: Table, ids: seq<int>, c: string): set<int>
    requires forall i :: 0 <= i < |ids| ==> ids[i] in t
  {
    if |ids| == 0 then {}
    else (if t[ids[0]].category == c then {ids[0]} else {}) + IdsWith(t, ids[1..], c)
  }

  lemma {:induction false} IdsWithMembers(t: Table, ids: seq<int>, c: string)
    requires forall i :: 0 <= i < |ids| ==> ids[i] in t
    ensures forall k :: k in IdsWith(t, ids, c) <==> k in ids && t[k].category == c
    decreases |ids|
  {
    if |ids| > 0 {
      IdsWithMembers(t, ids[1..], c);
      assert forall k :: k in ids <==> k == ids[0] || k in ids[1..];
    }
  }

  /** Over distinct stored ids, the rows of category `c` are as many as the
      ids of that category. */
  lemma {:induction false} GroupSize(t: Table, ids: seq<int>, c: string)
    requires forall i :: 0 <= i < |ids| ==> ids[i] in t
    requires forall i, j :: 0 <= i < j < |ids| ==> ids[i] != ids[j]
    ensures |PricesIn(seq(|ids|, i requires 0 <= i < |ids| => t[ids[i]]), c)|
            == |IdsWith(t, ids, c)|
    decreases |ids|
  {
    if |ids| > 0 {
      var rows := seq(|ids|, i requires 0 <= i < |ids| => t[ids[i]]);
      var rest := ids[1..];
      var restRows := seq(|rest|, i requires 0 <= i < |rest| => t[rest[i]]);
      assert rows[1..] == restRows;
      GroupSize(t, rest, c);
      IdsWithMembers(t, rest, c);
      assert ids[0] !in rest by {
        forall i | 0 <= i < |rest| ensures rest[i] != ids[0] {
          assert rest[i] == ids[i + 1];
        }
      }
      assert ids[0] !in IdsWith(t, rest, c);
    }
  }


  /** Every category of the table has its aggregate row. */
  lemma StatisticsCoverCategories(t: Table, c: string)
    requires c in Categories(t)
    ensures exists i :: 0 <= i < |GetStatistics(t).categoryStats| &&
              GetStatistics(t).categoryStats[i] == StatOf(Rows(t), c)
  {
    var names := CategoryNames(t);
    var i :| 0 <= i < |names| && names[i] == c;
    StatisticsCategories(t);
    assert GetStatistics(t).categoryStats[i] == StatOf(Rows(t), c);
  }

  /** The stored row of every id is among the listed rows. */
  lemma RowIndex(t: Table, k: int) returns (i: nat)
    requires k in t
    ensures i < |Rows(t)| && Rows(t)[i] == t[k]
  {
    var ids := SortedIds(t);
    i :| 0 <= i < |ids| && ids[i] == k;
  }

  /** Every row of category `c` contributes its price to the group of `c`. */
  lemma {:induction false} PricesInHas(rows: seq<Row>, c: string, i: nat)
    requires i < |rows| && rows[i].category == c
    ensures rows[i].price in PricesIn(rows, c)
    decreases i
  {
    if i > 0 {
      Collections.TailIndex(rows, i);
      PricesInHas(rows[1..], c, i - 1);
    }
  }

  /** Every price of the group of `c` is the price of a row of category `c`. */
  lemma {:induction false} PricesInFrom(rows: seq<Row>, c: string, x: real) returns (i: nat)
    requires x in PricesIn(rows, c)
    ensures i < |rows| && rows[i].category == c && rows[i].price == x
    decreases |rows|
  {
    if rows[0].category == c && x == rows[0].price {
      i := 0;
    } else {
      var j := PricesInFrom(rows[1..], c, x);
      i := j + 1;
    }
  }

  /** Each listed row is the stored row of some id. */
  lemma RowKey(t: Table, i: nat) returns (k: int)
    requires i < |Rows(t)|
    ensures k in t && t[k] == Rows(t)[i]
  {
    k := SortedIds(t)[i];
  }

  /** Every aggregate row is non-empty, its minimum and maximum are prices of
      rows of that category bounding all of them, and its average lies between. */
  lemma CategoryStatBounds(t: Table, c: string)
    requires c in Categories(t)
    ensures var s := StatOf(Rows(t), c);
            && s.count > 0
            && (forall k :: k in t && t[k].category == c ==> s.minPrice <= t[k].price <= s.maxPrice)
            && (exists k :: k in t && t[k].category == c && t[k].price == s.minPrice)
            && (exists k :: k in t && t[k].category == c && t[k].price == s.maxPrice)
            && s.minPrice <= s.avgPrice <= s.maxPrice
  {
    var rows := Rows(t);
    var ps := PricesIn(rows, c);
    var k0 :| k0 in t && t[k0].category == c;
    var i0 := RowIndex(t, k0);
    PricesInHas(rows, c, i0);
    forall k | k in t && t[k].category == c
      ensures MinOf(ps) <= t[k].price <= MaxOf(ps)
    {
      var i := RowIndex(t, k);
      PricesInHas(rows, c, i);
    }
    var imin := PricesInFrom(rows, c, MinOf(ps));
    var kmin := RowKey(t, imin);
    var imax := PricesInFrom(rows, c, MaxOf(ps));
    var kmax := RowKey(t, imax);
    MeanBounds(ps);
  }

  /** The overall average of a non-empty table lies within any bounds of its prices. */
  lemma StatisticsAverageBetween(t: Table, lo: real, hi: real)
    requires |t| > 0 && forall k :: k in t ==> lo <= t[k].price <= hi
    ensures lo <= GetStatistics(t).avgPrice <= hi
  {
    var rows := Rows(t);
    forall i | 0 <= i < |rows|
      ensures lo <= Prices(rows)[i] <= hi
    {
      var k := RowKey(t, i);
    }
    MeanBetween(Prices(rows), lo, hi);
  }

  /** The average of a non-empty list lies between its minimum and maximum. */
  lemma MeanBounds(xs: seq<real>)
    requires |xs| > 0
    ensures MinOf(xs) <= Mean(xs) <= MaxOf(xs)
  {
    MeanBetween(xs, MinOf(xs), MaxOf(xs));
  }

  /** An average lies within any bounds of the values averaged. */
  lemma MeanBetween(xs: seq<real>, lo: real, hi: real)
    requires |xs| > 0 && forall i :: 0 <= i < |xs| ==> lo <= xs[i] <= hi
    ensures lo <= Mean(xs) <= hi
  {
    SumBounds(xs, lo, hi);
    DivBounds(Sum(xs), |xs| as real, lo, hi);
  }

  lemma {:induction false} SumBounds(xs: seq<real>, lo: real, hi: real)
    requires forall i :: 0 <= i < |xs| ==> lo <= xs[i] <= hi
    ensures lo * (|xs| as real) <= Sum(xs) <= hi * (|xs| as real)
  {
    if |xs| > 0 {
      assert forall i :: 0 <= i < |xs[1..]| ==> xs[1..][i] == xs[i + 1];
      SumBounds(xs[1..], lo, hi);
    }
  }

  lemma DivBounds(s: real, n: real, lo: real, hi: real)
    requires n > 0.0 && lo * n <= s <= hi * n
    ensures lo <= s / n <= hi
  {
  }

  /** How many times `c` occurs in `cs`. */
  function Occ(cs: seq<string>, c: string): nat
  {
    if |cs| == 0 then 0 else (if cs[0] == c then 1 else 0) + Occ(cs[1..], c)
  }

  /** The group sizes of the categories `cs`, added up. */
  function SumCounts(rows: seq<Row>, cs: seq<string>): nat
  {
    if |cs| == 0 then 0 else |PricesIn(rows, cs[0])| + SumCounts(rows, cs[1..])
  }

  /** The counts of a list of aggregate rows, added up. */
  function TotalCount(stats: seq<CategoryStat>): nat
  {
    if |stats| == 0 then 0 else stats[0].count + TotalCount(stats[1..])
  }

  /** The first row is counted once for each time its category is listed. */
  lemma {:induction false} SumCountsHead(rows: seq<Row>, cs: seq<string>)
    requires |rows| > 0
    ensures SumCounts(rows, cs) == Occ(cs, rows[0].category) + SumCounts(rows[1..], cs)
  {
    if |cs| > 0 {
      SumCountsHead(rows, cs[1..]);
    }
  }

  lemma {:induction false} OccDistinct(cs: seq<string>, c: string)
    requires forall i, j :: 0 <= i < j < |cs| ==> cs[i] != cs[j]
    ensures Occ(cs, c) == if c in cs then 1 else 0
  {
    if |cs| > 0 {
      assert forall i, j :: 0 <= i < j < |cs[1..]| ==> cs[1..][i] == cs[i + 1] && cs[1..][j] == cs[j + 1];
      OccDistinct(cs[1..], c);
      assert c in cs <==> c == cs[0] || c in cs[1..];
    }
  }

  /** Grouping by a list that names every category once partitions the rows. */
  lemma {:induction false} SumCountsPartition(rows: seq<Row>, cs: seq<string>)
    requires forall i, j :: 0 <= i < j < |cs| ==> cs[i] != cs[j]
    requires forall i :: 0 <= i < |rows| ==> rows[i].category in cs
    ensures SumCounts(rows, cs) == |rows|
  {
    if |rows| == 0 {
      SumCountsEmpty(cs);
    } else {
      SumCountsHead(rows, cs);
      OccDistinct(cs, rows[0].category);
      assert forall i :: 0 <= i < |rows[1..]| ==> rows[1..][i] == rows[i + 1];
      SumCountsPartition(rows[1..], cs);
    }
  }

  lemma {:induction false} SumCountsEmpty(cs: seq<string>)
    ensures SumCounts([], cs) == 0
  {
    if |cs| > 0 {
      SumCountsEmpty(cs[1..]);
    }
  }

  lemma {:induction false} TotalCountOf(rows: seq<Row>, cs: seq<string>, stats: seq<CategoryStat>)
    requires |stats| == |cs| && forall i :: 0 <= i < |cs| ==> stats[i] == StatOf(rows, cs[i])
    ensures TotalCount(stats) == SumCounts(rows, cs)
  {
    if |cs| > 0 {
      assert forall i :: 0 <= i < |cs[1..]| ==> stats[1..][i] == stats[i + 1] && cs[1..][i] == cs[i + 1];
      TotalCountOf(rows, cs[1..], stats[1..]);
    }
  }

  /** The per-category counts add up to the total: the groups partition the table. */
  lemma StatisticsCountsSum(t: Table)
    ensures TotalCount(GetStatistics(t).categoryStats) == GetStatistics(t).totalProducts
  {
    StatisticsCategories(t);
    TotalCountOf(Rows(t), CategoryNames(t), GetStatistics(t).categoryStats);
    RowsCategorized(t);
    SumCountsPartition(Rows(t), CategoryNames(t));
  }

  /** The category of every row is among the category names. */
  lemma RowsCategorized(t: Table)
    ensures forall i :: 0 <= i < |Rows(t)| ==> Rows(t)[i].category in CategoryNames(t)
  {
    forall i | 0 <= i < |Rows(t)|
      ensures Rows(t)[i].category in CategoryNames(t)
    {
      var k := RowKey(t, i);
    }
  }
}

=== FILE: text.dfy ===
/** Python string operations the pipeline relies on, stated over `seq<char>`:
    `str.isspace`, `str.strip`, ASCII `lower`/`upper`, `split` on one character,
    `join`, `replace` of one character, substring search and `pathlib`'s `.name`. */
module Text {
  import Collections

  /** Python's `str.isspace()`: the ASCII separators and the Unicode space
      characters (the ones the argument-less `str.strip()`, `int()` and
      `float()` discard). */
  predicate IsSpace(c: char)
  {
    || c == ' ' || '\t' <= c <= '\r' || '\U{1C}' <= c <= '\U{1F}'
    || c == '\U{85}' || c == '\U{A0}' || c == '\U{1680}'
    || '\U{2000}' <= c <= '\U{200A}' || c == '\U{2028}' || c == '\U{2029}'
    || c == '\U{202F}' || c == '\U{205F}' || c == '\U{3000}'
  }

  /** The characters a strip removes: whitespace (no argument) or the
      characters of the argument string. */
  datatype CharClass = Space | OneOf(cs: set<char>)

  predicate InClass(c: char, k: CharClass)
  {
    match k
    case Space => IsSpace(c)
    case OneOf(cs) => c in cs
  }

  /** `s.lstrip(chars)`: drop the leading characters of class `k`. */
  function TrimLeft(s: string, k: CharClass): (r: string)
    ensures |r| <= |s|
    ensures r == [] || !InClass(r[0], k)
    decreases |s|
  {
    if |s| > 0 && InClass(s[0], k) then TrimLeft(s[1..], k) else s
  }

  /** What `lstrip` drops is a run of class-`k` characters, and it keeps the rest. */
  lemma {:induction false} TrimLeftDrops(s: string, k: CharClass)
    ensures var r := TrimLeft(s, k);
            r == s[|s| - |r|..] && forall i :: 0 <= i < |s| - |r| ==> InClass(s[i], k)
    decreases |s|
  {
    if |s| > 0 && InClass(s[0], k) {
      TrimLeftDrops(s[1..], k);
    }
  }

  /** `s.rstrip(chars)`: drop the trailing characters of class `k`. */
  function TrimRight(s: string, k: CharClass): (r: string)
    ensures |r| <= |s|
    ensures r == [] || !InClass(r[|r| - 1], k)
    decreases |s|
  {
    if |s| > 0 && InClass(s[|s| - 1], k) then TrimRight(s[..|s| - 1], k) else s
  }

  /** What `rstrip` drops is a run of class-`k` characters, and it keeps the rest. */
  lemma {:induction false} TrimRightDrops(s: string, k: CharClass)
    ensures var r := TrimRight(s, k);
            r == s[..|r|] && forall i :: |r| <= i < |s| ==> InClass(s[i], k)
    decreases |s|
  {
    if |s| > 0 && InClass(s[|s| - 1], k) {
      TrimRightDrops(s[..|s| - 1], k);
    }
  }

  /** `s.strip(chars)`: the longest middle slice whose two ends are outside `k`. */
  function Strip(s: string, k: CharClass): (r: string)
    ensures |r| <= |s|
    ensures r == [] || (!InClass(r[0], k) && !InClass(r[|r| - 1], k))
  {
    var l := TrimLeft(s, k);
    TrimRightDrops(l, k);
    TrimRight(l, k)
  }

  /** The strip of `s` is a slice of `s`. */
  lemma StripOccurs(s: string, k: CharClass)
    ensures exists i :: OccursAt(s, Strip(s, k), i)
  {
    var l := TrimLeft(s, k);
    TrimLeftDrops(s, k);
    TrimRightDrops(l, k);
    assert OccursAt(s, Strip(s, k), |s| - |l|);
  }

  /** `sub` sits in `s` starting at index `i`. */
  predicate OccursAt(s: string, sub: string, i: int)
  {
    0 <= i <= |s| - |sub| && s[i..i + |sub|] == sub
  }

  /** `s.strip()` with no argument. */
  function StripSpace(s: string): string
  {
    Strip(s, Space)
  }

  /** A string whose first and last characters are outside `k` is its own strip. */
  lemma StripOfStripped(s: string, k: CharClass)
    requires s == [] || (!InClass(s[0], k) && !InClass(s[|s| - 1], k))
    ensures Strip(s, k) == s
  {
  }

  /** Stripping twice is stripping once. */
  lemma StripIdempotent(s: string, k: CharClass)
    ensures Strip(Strip(s, k), k) == Strip(s, k)
  {
    StripOfStripped(Strip(s, k), k);
  }

  /** A string with no character of class `k` anywhere is unchanged by stripping. */
  lemma StripNoneOf(s: string, k: CharClass)
    requires forall i :: 0 <= i < |s| ==> !InClass(s[i], k)
    ensures Strip(s, k) == s
  {
    StripOfStripped(s, k);
  }

  function LowerChar(c: char): char
  {
    if 'A' <= c <= 'Z' then (c as int + 32) as char else c
  }

  function UpperChar(c: char): char
  {
    if 'a' <= c <= 'z' then (c as int - 32) as char else c
  }

  /** `s.lower()` on the ASCII letters. */
  function Lower(s: string): (r: string)
    ensures |r| == |s| && forall i :: 0 <= i < |s| ==> r[i] == LowerChar(s[i])
  {
    seq(|s|, i requires 0 <= i < |s| => LowerChar(s[i]))
  }

  /** `s.upper()` on the ASCII letters. */
  function Upper(s: string): (r: string)
    ensures |r| == |s| && forall i :: 0 <= i < |s| ==> r[i] == UpperChar(s[i])
  {
    seq(|s|, i requires 0 <= i < |s| => UpperChar(s[i]))
  }

  /** Case folding forgets the original case: upper-casing a lower-cased string
      is upper-casing the string, and the other way round. */
  lemma CaseFoldingForgetsCase(s: string)
    ensures Upper(Lower(s)) == Upper(s)
    ensures Lower(Upper(s)) == Lower(s)
    ensures Lower(Lower(s)) == Lower(s)
  {
  }

  /** `s.replace(a, b)` for single characters. */
  function ReplaceChar(s: string, a: char, b: char): (r: string)
    ensures |r| == |s|
    ensures forall i :: 0 <= i < |s| ==> r[i] == (if s[i] == a then b else s[i])
  {
    seq(|s|, i requires 0 <= i < |s| => if s[i] == a then b else s[i])
  }

  /** Index of the first `c` in `s`. */
  function IndexOf(s: string, c: char): (i: nat)
    requires c in s
    ensures i < |s| && s[i] == c && c !in s[..i]
  {
    if s[0] == c then 0 else 1 + IndexOf(s[1..], c)
  }

  /** Index of the last `c` in `s`, or -1 when there is none (`str.rfind`). */
  function LastIndexOf(s: string, c: char): (r: int)
    ensures -1 <= r < |s|
    ensures r < 0 <==> c !in s
    ensures r >= 0 ==> s[r] == c && c !in s[r + 1..]
    decreases |s|
  {
    if |s| == 0 then -1
    else if s[|s| - 1] == c then |s| - 1
    else
      var r := LastIndexOf(s[..|s| - 1], c);
      assert s[..|s| - 1] == s[..|s| - 1];
      if r >= 0 then assert s[r + 1..] == s[..|s| - 1][r + 1..] + [s[|s| - 1]]; r
      else assert s == s[..|s| - 1] + [s[|s| - 1]]; r
  }

  /** The last `c` is the one with no `c` after it. */
  lemma LastIndexOfAt(s: string, c: char, i: int)
    requires 0 <= i < |s| && s[i] == c && c !in s[i + 1..]
    ensures LastIndexOf(s, c) == i
  {
    assert s[i] in s;
  }

  /** `s.split(sep)` for a one-character separator: never empty, and no part
      contains the separator. */
  function Split(s: string, sep: char): (r: seq<string>)
    ensures |r| >= 1
    ensures forall k :: 0 <= k < |r| ==> sep !in r[k]
    decreases |s|
  {
    if sep !in s then [s]
    else
      var i := IndexOf(s, sep);
      [s[..i]] + Split(s[i + 1..], sep)
  }

  /** `sep.join(parts)`. */
  function Join(parts: seq<string>, sep: string): string
  {
    if |parts| == 0 then ""
    else if |parts| == 1 then parts[0]
    else parts[0] + sep + Join(parts[1..], sep)
  }

  /** Joining the pieces of a split gives back the original string. */
  lemma {:induction false} JoinSplit(s: string, sep: char)
    ensures Join(Split(s, sep), [sep]) == s
    decreases |s|
  {
    if sep in s {
      var i := IndexOf(s, sep);
      var a, b := s[..i], s[i + 1..];
      var rest := Split(b, sep);
      assert Split(s, sep) == [a] + rest;
      JoinSplit(b, sep);
      JoinCons(a, rest, [sep]);
      assert s == a + [sep] + b;
    }
  }

  /** Joining all pieces of a split but the last gives what comes before the
      last separator, and nothing when there is no separator. */
  lemma {:induction false} JoinSplitInit(s: string, sep: char)
    ensures var parts := Split(s, sep);
            var i := LastIndexOf(s, sep);
            Join(parts[..|parts| - 1], [sep]) == (if i < 0 then "" else s[..i])
    decreases |s|
  {
    if sep !in s {
      SplitNone(s, sep);
    } else {
      var i := IndexOf(s, sep);
      var a, b := s[..i], s[i + 1..];
      assert s == a + [sep] + b;
      var parts, rest := Split(s, sep), Split(b, sep);
      assert parts == [a] + rest;
      if sep !in b {
        SplitNone(b, sep);
        assert parts[..|parts| - 1] == [a];
        LastIndexOfAt(s, sep, i);
      } else {
        var k := IndexOf(b, sep);
        assert rest == [b[..k]] + Split(b[k + 1..], sep);
        assert parts[..|parts| - 1] == [a] + rest[..|rest| - 1];
        JoinSplitInit(b, sep);
        InitStep(a, b, sep, rest);
      }
    }
  }

  /** Prepending a piece and a separator to a split whose initial pieces join to
      what comes before `b`'s last separator. */
  lemma InitStep(a: string, b: string, sep: char, rest: seq<string>)
    requires sep in b && |rest| >= 2
    requires Join(rest[..|rest| - 1], [sep]) == b[..LastIndexOf(b, sep)]
    ensures var s := a + [sep] + b;
            Join([a] + rest[..|rest| - 1], [sep]) == s[..LastIndexOf(s, sep)]
  {
    JoinCons(a, rest[..|rest| - 1], [sep]);
    LastAfterFirst(a, b, sep);
  }

  /** The last separator of `a + sep + b`, with one in `b`, is the last of `b`. */
  lemma LastAfterFirst(a: string, b: string, sep: char)
    requires sep in b
    ensures var s, j := a + [sep] + b, LastIndexOf(b, sep);
            LastIndexOf(s, sep) == |a| + 1 + j && s[..|a| + 1 + j] == a + [sep] + b[..j]
  {
    var s, j := a + [sep] + b, LastIndexOf(b, sep);
    assert s[|a| + 1 + j] == b[j];
    assert s[|a| + 1 + j + 1..] == b[j + 1..];
    LastIndexOfAt(s, sep, |a| + 1 + j);
  }

  /** A string without the separator splits into itself. */
  lemma SplitNone(s: string, sep: char)
    requires sep !in s
    ensures Split(s, sep) == [s] && LastIndexOf(s, sep) == -1
  {
  }

  /** Joining a part in front of a non-empty list puts one separator after it. */
  lemma JoinCons(a: string, rest: seq<string>, sep: string)
    requires |rest| >= 1
    ensures Join([a] + rest, sep) == a + sep + Join(rest, sep)
  {
    assert ([a] + rest)[1..] == rest;
  }

  /** Splitting a join of separator-free parts gives back the parts. */
  lemma {:induction false} SplitJoin(parts: seq<string>, sep: char)
    requires |parts| >= 1
    requires forall k :: 0 <= k < |parts| ==> sep !in parts[k]
    ensures Split(Join(parts, [sep]), sep) == parts
    decreases |parts|
  {
    if |parts| > 1 {
      var s := Join(parts, [sep]);
      var tail := Join(parts[1..], [sep]);
      assert s == parts[0] + [sep] + tail;
      IndexOfAfter(parts[0], sep, tail);
      var n := |parts[0]|;
      assert s[..n] == parts[0];
      assert s[n + 1..] == tail;
      calc {
        Split(s, sep);
        [s[..n]] + Split(s[n + 1..], sep);
        [parts[0]] + Split(tail, sep);
        { SplitJoin(parts[1..], sep); }
        [parts[0]] + parts[1..];
        parts;
      }
    } else {
      assert Join(parts, [sep]) == parts[0];
    }
  }

  /** The first separator of `a + [c] + b` is the one after `a` when `a` has none. */
  lemma {:induction false} IndexOfAfter(a: string, c: char, b: string)
    requires c !in a
    ensures c in a + [c] + b && IndexOf(a + [c] + b, c) == |a|
    decreases |a|
  {
    var s := a + [c] + b;
    assert s[|a|] == c;
    if |a| > 0 {
      assert s[1..] == a[1..] + [c] + b;
      IndexOfAfter(a[1..], c, b);
    }
  }

  /** `list(s)`: one single-character string per character. */
  function Chars(s: string): (r: seq<string>)
    ensures |r| == |s| && forall i :: 0 <= i < |s| ==> r[i] == [s[i]]
  {
    seq(|s|, i requires 0 <= i < |s| => [s[i]])
  }

  /** `sub in s` for strings. */
  predicate Contains(s: string, sub: string)
    decreases |s|
  {
    |sub| <= |s| && (s[..|sub|] == sub || Contains(s[1..], sub))
  }

  /** A string contains every slice of itself. */
  lemma {:induction false} ContainsSlice(s: string, i: nat, j: nat)
    requires i <= j <= |s|
    ensures Contains(s, s[i..j])
    decreases i
  {
    if i > 0 {
      ContainsSlice(s[1..], i - 1, j - 1);
      assert s[1..][i - 1..j - 1] == s[i..j];
    }
  }

  /** Every occurrence found by `Contains` is a real slice of `s`. */
  lemma {:induction false} ContainsWitness(s: string, sub: string)
    requires Contains(s, sub)
    ensures exists i :: OccursAt(s, sub, i)
    decreases |s|
  {
    if s[..|sub|] != sub {
      ContainsWitness(s[1..], sub);
      var i :| OccursAt(s[1..], sub, i);
      assert s[i + 1..i + 1 + |sub|] == sub;
      assert OccursAt(s, sub, i + 1);
    } else {
      assert OccursAt(s, sub, 0);
    }
  }

  /** `pathlib.PurePosixPath(p).name`: the last component that is neither
      empty nor "." ("" when there is none). */
  function PathName(p: string): (r: string)
    ensures '/' !in r
  {
    LastNamed(Split(p, '/'))
  }

  predicate IsNamedComponent(c: string)
  {
    c != "" && c != "."
  }

  function LastNamed(parts: seq<string>): (r: string)
    requires forall k :: 0 <= k < |parts| ==> '/' !in parts[k]
    ensures '/' !in r
    ensures r == "" || r in parts
  {
    if |parts| == 0 then ""
    else if IsNamedComponent(parts[|parts| - 1]) then parts[|parts| - 1]
    else LastNamed(parts[..|parts| - 1])
  }

  /** The name of `dir + "/" + name` is `name`, whatever the directory. */
  lemma PathNameOfChild(dir: string, name: string)
    requires IsNamedComponent(name) && '/' !in name
    ensures PathName(dir + "/" + name) == name
  {
    var p := dir + "/" + name;
    JoinSplit(dir, '/');
    var parts := Split(dir, '/') + [name];
    SplitJoin(parts, '/');
    JoinAppend(Split(dir, '/'), name, "/");
    assert Join(parts, "/") == p;
  }

  /** Appending a part to a non-empty join appends the separator and the part. */
  lemma {:induction false} JoinAppend(parts: seq<string>, last: string, sep: string)
    requires |parts| >= 1
    ensures Join(parts + [last], sep) == Join(parts, sep) + sep + last
    decreases |parts|
  {
    if |parts| == 1 {
      assert parts + [last] == [parts[0], last];
      assert Join([last], sep) == last;
    } else {
      assert (parts + [last])[1..] == parts[1..] + [last];
      JoinAppend(parts[1..], last, sep);
    }
  }

  /** A join of two or more parts is the join of all but the last, the
      separator and the last part. */
  lemma {:induction false} JoinInit(parts: seq<string>, sep: string)
    requires |parts| >= 2
    ensures Join(parts, sep) == Join(parts[..|parts| - 1], sep) + sep + parts[|parts| - 1]
    decreases |parts|
  {
    if |parts| > 2 {
      var tail := parts[1..];
      JoinInit(tail, sep);
      assert parts[..|parts| - 1][1..] == tail[..|tail| - 1];
    }
  }

  /** Joining two non-empty lists of parts is joining each and gluing the
      results with one more separator. */
  lemma {:induction false} JoinConcat(xs: seq<string>, ys: seq<string>, sep: string)
    requires |xs| >= 1 && |ys| >= 1
    ensures Join(xs + ys, sep) == Join(xs, sep) + sep + Join(ys, sep)
    decreases |xs|
  {
    if |xs| == 1 {
      assert (xs + ys)[1..] == ys;
    } else {
      assert (xs + ys)[1..] == xs[1..] + ys;
      JoinConcat(xs[1..], ys, sep);
    }
  }

  /** Code-point lexicographic order: the order of Python's string
      comparison and of SQLite's BINARY collation on UTF-8 text (UTF-8 keeps
      code-point order). A proper prefix comes first. */
  predicate LexLe(a: string, b: string)
    decreases |a|
  {
    |a| == 0 || (|b| > 0 && (a[0] < b[0] || (a[0] == b[0] && LexLe(a[1..], b[1..]))))
  }

  lemma {:induction false} LexLeReflexive(a: string)
    ensures LexLe(a, a)
    decreases |a|
  {
    if |a| > 0 {
      LexLeReflexive(a[1..]);
    }
  }

  lemma {:induction false} LexLeAntisymmetric(a: string, b: string)
    requires LexLe(a, b) && LexLe(b, a)
    ensures a == b
    decreases |a|
  {
    if |a| > 0 {
      LexLeAntisymmetric(a[1..], b[1..]);
      assert a == [a[0]] + a[1..] && b == [b[0]] + b[1..];
    }
  }

  lemma {:induction false} LexLeTransitive(a: string, b: string, c: string)
    requires LexLe(a, b) && LexLe(b, c)
    ensures LexLe(a, c)
    decreases |a|
  {
    if |a| > 0 && a[0] == b[0] && b[0] == c[0] {
      LexLeTransitive(a[1..], b[1..], c[1..]);
    }
  }

  lemma {:induction false} LexLeTotal(a: string, b: string)
    ensures LexLe(a, b) || LexLe(b, a)
    decreases |a|
  {
    if |a| > 0 && |b| > 0 && a[0] == b[0] {
      LexLeTotal(a[1..], b[1..]);
    }
  }

  /** The string order is a total order, so sets of strings can be listed
      in it. */
  lemma LexLeTotalOrder()
    ensures Collections.TotalOrder(LexLe)
  {
    forall a ensures LexLe(a, a) { LexLeReflexive(a); }
    forall a, b | LexLe(a, b) && LexLe(b, a) ensures a == b { LexLeAntisymmetric(a, b); }
    forall a, b, c | LexLe(a, b) && LexLe(b, c) ensures LexLe(a, c) { LexLeTransitive(a, b, c); }
    forall a, b ensures LexLe(a, b) || LexLe(b, a) { LexLeTotal(a, b); }
  }
}

=== FILE: values.dfy ===
/** The Python values that travel through the pipeline as JSON fields and
    dictionary entries, with Python's truthiness and its `str()`, `int()` and
    `float()` conversions. */
module Values {
  import opened Wrappers
  import opened Numbers
  import Clock

  datatype Value =
    | Null
    | Bool(b: bool)
    | Int(i: int)
      /** A float; `repr` is the text `str()` prints for it. */
    | Float(x: real, repr: string)
    | Str(s: string)
    | Time(t: Clock.DateTime)
      /** A list or dict; `repr` is its `str()` text. */
    | Compound(repr: string, empty: bool)

  /** A JSON object / Python dict, looked up by key. */
  type Record = map<string, Value>

  /** An ordered dict, as rendered or iterated: keys in insertion order. */
  type Entries = seq<(string, Value)>

  /** The exception a failing conversion raises. */
  datatype ConversionError = ValueError | TypeError

  /** `bool(v)`. */
  predicate Truthy(v: Value)
  {
    match v
    case Null => false
    case Bool(b) => b
    case Int(i) => i != 0
    case Float(x, _) => x != 0.0
    case Str(s) => s != ""
    case Time(_) => true
    case Compound(_, empty) => !empty
  }

  /** `str(v)`. */
  function StrOf(v: Value): string
  {
    match v
    case Null => "None"
    case Bool(b) => if b then "True" else "False"
    case Int(i) => IntToString(i)
    case Float(_, repr) => repr
    case Str(s) => s
    case Time(t) => Clock.StrText(t)
    case Compound(repr, _) => repr
  }

  /** `int(x)` for a float: truncation toward zero. */
  function Truncate(x: real): (r: int)
    ensures x >= 0.0 ==> r as real <= x < r as real + 1.0
    ensures x < 0.0 ==> r as real - 1.0 < x <= r as real
  {
    if x >= 0.0 then x.Floor else -((-x).Floor)
  }

  /** `int(v)`: strings are parsed in base 10, floats truncated, bools are 0/1;
      None, datetimes, lists and dicts raise TypeError. */
  function IntOf(v: Value): Result<int, ConversionError>
  {
    match v
    case Bool(b) => Success(if b then 1 else 0)
    case Int(i) => Success(i)
    case Float(x, _) => Success(Truncate(x))
    case Str(s) =>
      (match ParseInt(s)
       case Some(i) => Success(i)
       case None => Failure(ValueError))
    case _ => Failure(TypeError)
  }

  /** `float(v)`: strings are parsed as decimal text, ints and bools widen;
      None, datetimes, lists and dicts raise TypeError. */
  function FloatOf(v: Value): Result<real, ConversionError>
  {
    match v
    case Bool(b) => Success(if b then 1.0 else 0.0)
    case Int(i) => Success(i as real)
    case Float(x, _) => Success(x)
    case Str(s) =>
      (match ParseDecimal(s)
       case Some(x) => Success(x)
       case None => Failure(ValueError))
    case _ => Failure(TypeError)
  }

  /** The conversions accept what they describe: an int round-trips through
      its text, and every kind of number converts without error. */
  lemma ConversionsOfNumbers(i: int, x: real, repr: string)
    ensures IntOf(Str(StrOf(Int(i)))) == Success(i)
    ensures IntOf(Int(i)) == Success(i) && FloatOf(Int(i)) == Success(i as real)
    ensures FloatOf(Float(x, repr)) == Success(x)
    ensures IntOf(Null).Failure? && FloatOf(Null) == Failure(TypeError)
  {
    IntOfIntText(i);
  }

  /** `int(str(i)) == i`. */
  lemma IntOfIntText(i: int)
    ensures IntOf(Str(StrOf(Int(i)))) == Success(i)
  {
    var text := IntToString(i);
    assert StrOf(Int(i)) == text;
    ParseIntOfIntToString(i);
    IntOfText(text, i);
  }

  /** A string `int()` can parse converts to the parsed number. */
  lemma IntOfText(s: string, i: int)
    requires ParseInt(s) == Some(i)
    ensures IntOf(Str(s)) == Success(i)
  {
  }
}

=== FILE: web_automation.dfy ===
/** The form submitter of `modules/web_automation.py`: the retry decorator,
    the choice of the file to attach, the dispatch on the form type, the
    outcome rules of the Google Forms handler and `submit_form` around them.
    What the browser does is an input: whether a page element is found,
    whether a click goes through, whether screenshots can be saved. */
module WebAutomation {
  import opened Wrappers
  import Text
  import Numbers

  // ---------------------------------------------------------------------
  // retry_with_backoff
  // ---------------------------------------------------------------------

  /** The exceptions a call can raise, as far as the decorator tells them
      apart. */
  datatype Failure = Timeout | NoSuchElement | StaleElement | OtherError

  /** What one call of the decorated function does. */
  datatype Attempt<T> = Returns(value: T) | Throws(failure: Failure)

  /** Only these three are retried; anything else goes straight through. */
  predicate Retryable(e: Failure)
  {
    e == Timeout || e == NoSuchElement || e == StaleElement
  }

  /** A call that failed in a way the decorator retries. */
  predicate Retried<T>(a: Attempt<T>)
  {
    a.Throws? && Retryable(a.failure)
  }

  /** How the decorated call ends: a value, an exception, or `raise None`
      (a TypeError) when not a single attempt was allowed. */
  datatype Final<T> = Value(value: T) | Raise(failure: Failure) | RaiseNone

  /** The calls made and the sleeps between them. */
  datatype RetryRun<T> = RetryRun(final: Final<T>, calls: nat, sleeps: seq<real>)

  function Min(a: real, b: real): real
  {
    if a <= b then a else b
  }

  /** The pause after the failed attempt number `attempt` (from 0):
      `min(base_delay * 2 ** attempt + jitter, max_delay)`, the jitter being
      the value `random.uniform(0, 1)` drew. */
  function Delay(baseDelay: real, maxDelay: real, attempt: nat, jitter: real): (d: real)
    ensures d <= maxDelay
    ensures baseDelay >= 0.0 && maxDelay >= 0.0 && jitter >= 0.0 ==> d >= 0.0
  {
    Min(baseDelay * Numbers.Pow2(attempt) as real + jitter, maxDelay)
  }

  /** A jitter value for every attempt, each from [0, 1]. */
  predicate JitterFor(jitter: seq<real>, maxAttempts: int)
  {
    |jitter| >= maxAttempts && forall i :: 0 <= i < |jitter| ==> 0.0 <= jitter[i] <= 1.0
  }

  /** The decorator's loop from attempt `attempt` on, `last` being the last
      retried exception so far. `answers[i]` is what call number i does. */
  function RetryFrom<T>(attempt: nat, maxAttempts: int, baseDelay: real, maxDelay: real,
                        answers: seq<Attempt<T>>, jitter: seq<real>, last: Option<Failure>): RetryRun<T>
    requires |answers| >= maxAttempts && JitterFor(jitter, maxAttempts)
    decreases if attempt < maxAttempts then maxAttempts - attempt else 0
  {
    if attempt >= maxAttempts then
      RetryRun(match last case None => RaiseNone case Some(e) => Raise(e), 0, [])
    else
      match answers[attempt]
      case Returns(v) => RetryRun(Value(v), 1, [])
      case Throws(e) =>
        if !Retryable(e) then RetryRun(Raise(e), 1, [])
        else
          var rest := RetryFrom(attempt + 1, maxAttempts, baseDelay, maxDelay, answers, jitter, Some(e));
          var pause := if attempt < maxAttempts - 1 then [Delay(baseDelay, maxDelay, attempt, jitter[attempt])] else [];
          RetryRun(rest.final, 1 + rest.calls, pause + rest.sleeps)
  }

  /** The decorated call, as a whole. */
  function Retry<T>(maxAttempts: int, baseDelay: real, maxDelay: real,
                    answers: seq<Attempt<T>>, jitter: seq<real>): RetryRun<T>
    requires |answers| >= maxAttempts && JitterFor(jitter, maxAttempts)
  {
    RetryFrom(0, maxAttempts, baseDelay, maxDelay, answers, jitter, None)
  }

  /** `retry_with_backoff(max_attempts, base_delay, max_delay)` applied to a
      function whose calls do what `answers` says: the loop of the wrapper. */
  method RetryWithBackoff<T>(maxAttempts: int, baseDelay: real, maxDelay: real,
                             answers: seq<Attempt<T>>, jitter: seq<real>)
    returns (final: Final<T>, calls: nat, sleeps: seq<real>)
    requires |answers| >= maxAttempts && JitterFor(jitter, maxAttempts)
    ensures RetryRun(final, calls, sleeps) == Retry(maxAttempts, baseDelay, maxDelay, answers, jitter)
  {
    var last: Option<Failure> := None;
    calls := 0;
    sleeps := [];
    var attempt := 0;
    while attempt < maxAttempts
      invariant 0 <= attempt <= |answers| && (maxAttempts >= 0 ==> attempt <= maxAttempts)
      invariant calls == attempt
      invariant forall i :: 0 <= i < attempt ==> Retried(answers[i])
      invariant attempt == 0 ==> last.None?
      invariant attempt > 0 ==> last == Some(answers[attempt - 1].failure)
      invariant var rest := RetryFrom(attempt, maxAttempts, baseDelay, maxDelay, answers, jitter, last);
                Retry(maxAttempts, baseDelay, maxDelay, answers, jitter)
                == RetryRun(rest.final, calls + rest.calls, sleeps + rest.sleeps)
      decreases maxAttempts - attempt
    {
      var a := answers[attempt];
      calls := calls + 1;
      if a.Returns? {
        final := Value(a.value);
        return;
      }
      if !Retryable(a.failure) {
        final := Raise(a.failure);
        return;
      }
      last := Some(a.failure);
      var rest := RetryFrom(attempt + 1, maxAttempts, baseDelay, maxDelay, answers, jitter, last);
      if attempt < maxAttempts - 1 {
        var d := Delay(baseDelay, maxDelay, attempt, jitter[attempt]);
        assert sleeps + ([d] + rest.sleeps) == (sleeps + [d]) + rest.sleeps;
        sleeps := sleeps + [d];
      } else {
        assert sleeps + ([] + rest.sleeps) == sleeps + rest.sleeps;
      }
      attempt := attempt + 1;
    }
    final := match last case None => RaiseNone case Some(e) => Raise(e);
    assert sleeps + [] == sleeps;
  }

  /** Attempts `a` to `i - 1` were retried, and attempt `i` was not. */
  predicate DecidedAt<T>(answers: seq<Attempt<T>>, a: nat, i: nat)
    requires i < |answers|
  {
    a <= i && !Retried(answers[i]) && forall j :: a <= j < i ==> Retried(answers[j])
  }

  /** The end a deciding attempt gives: its value, or its exception. */
  function Outcome<T>(x: Attempt<T>): Final<T>
  {
    match x
    case Returns(v) => Value(v)
    case Throws(e) => Raise(e)
  }

  /** The sleeps after attempts `a` onwards are the backoff delays of those
      attempts, one per attempt. */
  ghost predicate Backoff(sleeps: seq<real>, a: nat, baseDelay: real, maxDelay: real, jitter: seq<real>)
  {
    forall k :: 0 <= k < |sleeps| && a + k < |jitter| ==> sleeps[k] == Delay(baseDelay, maxDelay, a + k, jitter[a + k])
  }

  /** The first attempt that does not fail in a retried way decides: the
      call returns its value or raises its exception, after exactly that
      many calls, with a backoff pause between consecutive calls. */
  lemma {:induction false} RetryDecided<T>(a: nat, i: nat, maxAttempts: int, baseDelay: real, maxDelay: real,
                                           answers: seq<Attempt<T>>, jitter: seq<real>, last: Option<Failure>)
    requires |answers| >= maxAttempts && JitterFor(jitter, maxAttempts)
    requires i < maxAttempts && DecidedAt(answers, a, i)
    ensures var r := RetryFrom(a, maxAttempts, baseDelay, maxDelay, answers, jitter, last);
            && r.final == Outcome(answers[i])
            && r.calls == i - a + 1
            && |r.sleeps| == i - a
            && Backoff(r.sleeps, a, baseDelay, maxDelay, jitter)
    decreases i - a
  {
    if a < i {
      assert Retried(answers[a]);
      var e := answers[a].failure;
      RetryDecided(a + 1, i, maxAttempts, baseDelay, maxDelay, answers, jitter, Some(e));
      var rest := RetryFrom(a + 1, maxAttempts, baseDelay, maxDelay, answers, jitter, Some(e));
      var s := [Delay(baseDelay, maxDelay, a, jitter[a])] + rest.sleeps;
      forall k | 0 <= k < |s| && a + k < |jitter|
        ensures s[k] == Delay(baseDelay, maxDelay, a + k, jitter[a + k])
      {
        if k > 0 {
          assert s[k] == rest.sleeps[k - 1];
          assert a + 1 + (k - 1) == a + k;
        }
      }
    }
  }

  /** When every allowed attempt fails in a retried way, the call raises
      the last exception after `max_attempts` calls, with no pause after
      the final one. */
  lemma {:induction false} RetryExhausted<T>(a: nat, maxAttempts: int, baseDelay: real, maxDelay: real,
                                             answers: seq<Attempt<T>>, jitter: seq<real>, last: Option<Failure>)
    requires |answers| >= maxAttempts && JitterFor(jitter, maxAttempts)
    requires a < maxAttempts && forall j :: a <= j < maxAttempts ==> Retried(answers[j])
    ensures var r := RetryFrom(a, maxAttempts, baseDelay, maxDelay, answers, jitter, last);
            && answers[maxAttempts - 1].Throws?
            && r.final == Raise(answers[maxAttempts - 1].failure)
            && r.calls == maxAttempts - a
            && |r.sleeps| == maxAttempts - a - 1
            && Backoff(r.sleeps, a, baseDelay, maxDelay, jitter)
    decreases maxAttempts - a
  {
    var e := answers[a].failure;
    if a < maxAttempts - 1 {
      RetryExhausted(a + 1, maxAttempts, baseDelay, maxDelay, answers, jitter, Some(e));
      var rest := RetryFrom(a + 1, maxAttempts, baseDelay, maxDelay, answers, jitter, Some(e));
      var s := [Delay(baseDelay, maxDelay, a, jitter[a])] + rest.sleeps;
      forall k | 0 <= k < |s| && a + k < |jitter|
        ensures s[k] == Delay(baseDelay, maxDelay, a + k, jitter[a + k])
      {
        if k > 0 {
          assert s[k] == rest.sleeps[k - 1];
          assert a + 1 + (k - 1) == a + k;
        }
      }
    }
  }

  /** The number of calls: at least one when any attempt is allowed, at
      most the attempts left; there is one pause between each two calls. */
  lemma {:induction false} RetryCalls<T>(a: nat, maxAttempts: int, baseDelay: real, maxDelay: real,
                                         answers: seq<Attempt<T>>, jitter: seq<real>, last: Option<Failure>)
    requires |answers| >= maxAttempts && JitterFor(jitter, maxAttempts)
    ensures var r := RetryFrom(a, maxAttempts, baseDelay, maxDelay, answers, jitter, last);
            && (a < maxAttempts ==> 1 <= r.calls <= maxAttempts - a && |r.sleeps| == r.calls - 1)
            && (a >= maxAttempts ==> r.calls == 0 && r.sleeps == [])
    decreases if a < maxAttempts then maxAttempts - a else 0
  {
    if a < maxAttempts && answers[a].Throws? && Retryable(answers[a].failure) {
      var e := answers[a].failure;
      RetryCalls(a + 1, maxAttempts, baseDelay, maxDelay, answers, jitter, Some(e));
    }
  }

  /** Every pause in `sleeps` is at most `maxDelay`. */
  predicate PausesAtMost(sleeps: seq<real>, maxDelay: real)
  {
    forall k :: 0 <= k < |sleeps| ==> sleeps[k] <= maxDelay
  }

  /** Every pause is at most `max_delay`. */
  lemma {:induction false} RetryPausesBounded<T>(a: nat, maxAttempts: int, baseDelay: real, maxDelay: real,
                                                 answers: seq<Attempt<T>>, jitter: seq<real>, last: Option<Failure>)
    requires |answers| >= maxAttempts && JitterFor(jitter, maxAttempts)
    ensures PausesAtMost(RetryFrom(a, maxAttempts, baseDelay, maxDelay, answers, jitter, last).sleeps, maxDelay)
    decreases if a < maxAttempts then maxAttempts - a else 0
  {
    if a < maxAttempts && answers[a].Throws? && Retryable(answers[a].failure) {
      var e := answers[a].failure;
      RetryPausesBounded(a + 1, maxAttempts, baseDelay, maxDelay, answers, jitter, Some(e));
      var rest := RetryFrom(a + 1, maxAttempts, baseDelay, maxDelay, answers, jitter, Some(e));
      var pause := if a < maxAttempts - 1 then [Delay(baseDelay, maxDelay, a, jitter[a])] else [];
      forall k | 0 <= k < |pause + rest.sleeps| ensures (pause + rest.sleeps)[k] <= maxDelay {
        if k >= |pause| {
          assert (pause + rest.sleeps)[k] == rest.sleeps[k - |pause|];
        }
      }
    }
  }

  /** `max_attempts <= 0`: nothing is called and the wrapper raises None. */
  lemma RetryNoAttempts<T>(maxAttempts: int, baseDelay: real, maxDelay: real, answers: seq<Attempt<T>>, jitter: seq<real>)
    requires maxAttempts <= 0 && JitterFor(jitter, maxAttempts)
    ensures Retry(maxAttempts, baseDelay, maxDelay, answers, jitter) == RetryRun(RaiseNone, 0, [])
  {
  }

  /** A function that never raises is called once: its first answer is the
      result and there is no pause. */
  lemma RetryOfTotal<T>(maxAttempts: int, baseDelay: real, maxDelay: real, answers: seq<Attempt<T>>, jitter: seq<real>)
    requires maxAttempts >= 1 && |answers| >= maxAttempts && JitterFor(jitter, maxAttempts)
    requires answers[0].Returns?
    ensures Retry(maxAttempts, baseDelay, maxDelay, answers, jitter) == RetryRun(Value(answers[0].value), 1, [])
  {
  }

  // ---------------------------------------------------------------------
  // submit_form and its helpers
  // ---------------------------------------------------------------------

  /** The handlers `submit_form` chooses between. */
  datatype FormKind = GoogleForms | Jotform | Typeform | GenericForm

  /** The handler for a FORM_TYPE, compared lowercased. */
  function Dispatch(formType: string): (k: FormKind)
    ensures k == GoogleForms <==> Text.Lower(formType) == "google_forms"
    ensures k == Jotform <==> Text.Lower(formType) == "jotform"
    ensures k == Typeform <==> Text.Lower(formType) == "typeform"
  {
    var t := Text.Lower(formType);
    if t == "google_forms" then GoogleForms
    else if t == "jotform" then Jotform
    else if t == "typeform" then Typeform
    else GenericForm
  }

  /** The dispatch ignores case: FORM_TYPE in capitals picks the same handler. */
  lemma DispatchIgnoresCase(formType: string)
    ensures Dispatch(Text.Upper(formType)) == Dispatch(formType)
    ensures Dispatch(Text.Lower(formType)) == Dispatch(formType)
  {
    Text.CaseFoldingForgetsCase(formType);
  }

  /** The file to attach: the latest screenshot when FILE_UPLOAD_SOURCE,
      lowercased, is "screenshot" and there is one; the report otherwise. */
  function Attachment(source: string, excel: string, latest: Option<string>): (r: string)
    ensures r != excel ==> Text.Lower(source) == "screenshot" && latest.Some? && r == latest.value
    ensures Text.Lower(source) == "screenshot" && latest.Some? ==> r == latest.value
    ensures Text.Lower(source) != "screenshot" || latest.None? ==> r == excel
  {
    if Text.Lower(source) == "screenshot" && latest.Some? then latest.value else excel
  }

  /** What the Google Forms page does, as `_handle_google_form` meets it. */
  datatype GooglePage = GooglePage(
    formLoads: bool,          // the <form> element appears before the wait times out
    fileInput: bool,          // a file input is found
    fileSent: bool,           // sending the path to it goes through
    submitButton: bool,       // some selector finds a submit button
    clickWorks: bool,         // scrolling to it and clicking go through
    confirmationShown: bool)  // the page then shows a confirmation text

  /** The Google handler's options: AUTO_SUBMIT and REQUIRE_FILE_UPLOAD. */
  datatype GoogleOptions = GoogleOptions(autoSubmit: bool, requireFileUpload: bool)

  /** What the handler returns, and whether it clicked the submit button. */
  datatype GoogleResult = GoogleResult(ok: bool, clicked: bool)

  /** `_handle_google_form`: every exception is caught and becomes False. A
      missing file input, or one that refuses the file, only fails when a
      file is required; without a submit button it fails; with AUTO_SUBMIT
      off it succeeds without clicking; after a click it succeeds whether or
      not a confirmation shows. */
  function GoogleHandler(page: GooglePage, opts: GoogleOptions): (r: GoogleResult)
    ensures r.clicked ==> opts.autoSubmit && page.formLoads && page.submitButton
    ensures r.ok ==> page.formLoads && page.submitButton
  {
    if !page.formLoads then GoogleResult(false, false)
    else if !page.fileInput && opts.requireFileUpload then GoogleResult(false, false)
    else if page.fileInput && !page.fileSent && opts.requireFileUpload then GoogleResult(false, false)
    else if !page.submitButton then GoogleResult(false, false)
    else if !opts.autoSubmit then GoogleResult(true, false)
    else if !page.clickWorks then GoogleResult(false, true)
    else GoogleResult(true, true)
  }

  /** The handler's rules, each direction: with AUTO_SUBMIT off it never
      clicks; it succeeds exactly when the page loads, the file is attached
      or not required, a submit button is found, and the click (if it
      clicks) goes through; the confirmation text never matters. */
  lemma GoogleHandlerRules(page: GooglePage, opts: GoogleOptions)
    ensures !opts.autoSubmit ==> !GoogleHandler(page, opts).clicked
    ensures GoogleHandler(page, opts).ok <==>
              && page.formLoads
              && (opts.requireFileUpload ==> page.fileInput && page.fileSent)
              && page.submitButton
              && (opts.autoSubmit ==> page.clickWorks)
    ensures GoogleHandler(page, opts) == GoogleHandler(page.(confirmationShown := !page.confirmationShown), opts)
  {
  }

  /** The decorator on the Google handler: three attempts, a base delay of
      2 seconds. */
  const GoogleAttempts := 3
  const GoogleBaseDelay := 2.0
  const DefaultMaxDelay := 10.0

  /** The decorated Google handler: each of its calls returns. */
  function GoogleSubmit(page: GooglePage, opts: GoogleOptions, jitter: seq<real>): RetryRun<bool>
    requires JitterFor(jitter, GoogleAttempts)
  {
    var answer := Returns(GoogleHandler(page, opts).ok);
    Retry(GoogleAttempts, GoogleBaseDelay, DefaultMaxDelay, [answer, answer, answer], jitter)
  }

  /** The retry around the Google handler never retries: the handler
      catches everything, so it is called exactly once and nothing sleeps. */
  lemma GoogleNeverRetries(page: GooglePage, opts: GoogleOptions, jitter: seq<real>)
    requires JitterFor(jitter, GoogleAttempts)
    ensures GoogleSubmit(page, opts, jitter) == RetryRun(Value(GoogleHandler(page, opts).ok), 1, [])
  {
    var answer := Returns(GoogleHandler(page, opts).ok);
    RetryOfTotal(GoogleAttempts, GoogleBaseDelay, DefaultMaxDelay, [answer, answer, answer], jitter);
  }

  /** What the Jotform, Typeform or generic page does, as its handler meets
      it. Each of those handlers catches every exception and returns False;
      each fills the page, then, with AUTO_SUBMIT off, takes the review
      screenshot and returns True, and otherwise submits. */
  datatype OtherPage = OtherPage(
    reachesSubmit: bool,  // filling the fields and attaching the file go through
    submitted: bool)      // the submission that follows goes through

  /** What a handler returned and whether it stopped for manual review. */
  datatype HandlerResult = HandlerResult(ok: bool, reviewed: bool)

  /** The Jotform, Typeform and generic handlers. */
  function OtherHandler(page: OtherPage, autoSubmit: bool): (r: HandlerResult)
    ensures r.reviewed <==> page.reachesSubmit && !autoSubmit
    ensures r.ok <==> page.reachesSubmit && (autoSubmit ==> page.submitted)
  {
    if !page.reachesSubmit then HandlerResult(false, false)
    else if !autoSubmit then HandlerResult(true, true)
    else HandlerResult(page.submitted, false)
  }

  /** Everything `submit_form` sees from outside. */
  datatype SubmitWorld = SubmitWorld(
    configured: bool,           // WebAutomationSettings.is_configured()
    excelExists: bool,
    excel: string,
    uploadSource: string,       // FILE_UPLOAD_SOURCE
    latestShot: Option<string>, // _get_latest_screenshot()
    driverStarts: bool,         // _setup_driver() goes through
    navigates: bool,            // driver.get(FORM_URL) goes through
    shotsSaved: bool,           // driver.save_screenshot succeeds
    manualLogin: bool,          // ALLOW_MANUAL_LOGIN
    formType: string,           // FORM_TYPE
    page: GooglePage,
    options: GoogleOptions,
    jotform: OtherPage,
    typeform: OtherPage,
    generic: OtherPage)

  /** What `submit_form` did: its verdict, whether a browser was started,
      the handler it called, the file it chose, the screenshots it asked
      for in order, and the image files that were written. */
  datatype Submission = Submission(ok: bool, browser: bool, handler: Option<FormKind>,
                                   attachment: Option<string>, requested: seq<string>,
                                   saved: seq<string>)

  const ConfirmationShot := "formulario_confirmacion.png"
  const ErrorShot := "formulario_error.png"
  const ExceptionShot := "formulario_error_exception.png"
  const InitialShot := "formulario_inicial.png"
  const LoginShot := "formulario_login.png"
  const ReviewShot := "formulario_revision.png"

  /** The result of the handler `kind`; the Google handler runs under its
      retry decorator. */
  function HandlerOutcome(kind: FormKind, w: SubmitWorld): HandlerResult
  {
    match kind
    case GoogleForms =>
      var run := GoogleSubmit(w.page, w.options, [0.0, 0.0, 0.0]);
      var ok := run.final.Value? && run.final.value;
      var g := GoogleHandler(w.page, w.options);
      HandlerResult(ok, g.ok && !g.clicked)
    case Jotform => OtherHandler(w.jotform, w.options.autoSubmit)
    case Typeform => OtherHandler(w.typeform, w.options.autoSubmit)
    case GenericForm => OtherHandler(w.generic, w.options.autoSubmit)
  }

  /** A screenshot is a file only when the browser manages to save it;
      `_take_screenshot` swallows the failure. */
  function Saved(shots: seq<string>, w: SubmitWorld): seq<string>
  {
    if w.shotsSaved then shots else []
  }

  /** `submit_form(excel_file_path)`. */
  function SubmitForm(w: SubmitWorld): (r: Submission)
    ensures r.ok ==> r.browser && r.handler == Some(Dispatch(w.formType))
    ensures r.saved == (if w.shotsSaved then r.requested else [])
    ensures r.browser ==> |r.requested| > 0
    ensures r.ok <==> w.configured && w.excelExists && w.driverStarts && w.navigates
                      && HandlerOutcome(Dispatch(w.formType), w).ok
    ensures w.configured && w.excelExists ==>
              r.attachment == Some(Attachment(w.uploadSource, w.excel, w.latestShot))
  {
    if !w.configured || !w.excelExists then Submission(false, false, None, None, [], [])
    else
      var attachment := Attachment(w.uploadSource, w.excel, w.latestShot);
      if !w.driverStarts then Submission(false, false, None, Some(attachment), [], [])
      else if !w.navigates then
        Submission(false, true, None, Some(attachment), [ExceptionShot], Saved([ExceptionShot], w))
      else
        var kind := Dispatch(w.formType);
        var h := HandlerOutcome(kind, w);
        var shots := [InitialShot] + (if w.manualLogin then [LoginShot] else [])
                     + (if h.reviewed then [ReviewShot] else [])
                     + [if h.ok then ConfirmationShot else ErrorShot];
        Submission(h.ok, true, Some(kind), Some(attachment), shots, Saved(shots, w))
  }

  /** Not configured, or no report on disk: False, and no browser was
      started and nothing was photographed. */
  lemma SubmitRefusesEarly(w: SubmitWorld)
    requires !w.configured || !w.excelExists
    ensures !SubmitForm(w).ok && !SubmitForm(w).browser && SubmitForm(w).requested == []
  {
  }

  /** The confirmation screenshot is asked for exactly when the submission
      succeeds, and is on disk exactly when, besides, the browser could
      save it; step 5 of the pipeline looks for that file. */
  lemma ConfirmationMeansSuccess(w: SubmitWorld)
    ensures SubmitForm(w).ok <==> ConfirmationShot in SubmitForm(w).requested
    ensures ConfirmationShot in SubmitForm(w).saved <==> SubmitForm(w).ok && w.shotsSaved
  {
    var r := SubmitForm(w);
    if ConfirmationShot in r.requested {
      assert r.requested != [] && r.requested != [ExceptionShot];
    }
  }

  /** With AUTO_SUBMIT off, a handler that returns True stopped for review:
      the review screenshot comes right before the confirmation one. With
      AUTO_SUBMIT on, no review screenshot is asked for. */
  lemma ReviewBeforeConfirmation(w: SubmitWorld)
    requires SubmitForm(w).ok
    ensures var q := SubmitForm(w).requested;
            && |q| >= 2 && q[|q| - 1] == ConfirmationShot
            && (!w.options.autoSubmit <==> q[|q| - 2] == ReviewShot)
  {
    var kind := Dispatch(w.formType);
    GoogleNeverRetries(w.page, w.options, [0.0, 0.0, 0.0]);
    var g := GoogleHandler(w.page, w.options);
    GoogleHandlerRules(w.page, w.options);
    var h := HandlerOutcome(kind, w);
    assert h.ok;
    assert h.reviewed <==> !w.options.autoSubmit;
  }

  /** On the Google route the verdict is the handler's, from its single call. */
  lemma SubmitGoogle(w: SubmitWorld)
    requires w.configured && w.excelExists && w.driverStarts && w.navigates
    requires Dispatch(w.formType) == GoogleForms
    ensures SubmitForm(w).ok == GoogleHandler(w.page, w.options).ok
  {
    GoogleNeverRetries(w.page, w.options, [0.0, 0.0, 0.0]);
  }
}

=== FILE: wrappers.dfy ===
/** Failure-carrying wrappers used across the model: `Option` for Python's
    `None`-or-value and `Result` for a value or a raised exception. */
module Wrappers {

  datatype Option<+T> = None | Some(value: T) {

    /** `x or default` / `dict.get(key, default)` once `None` is the miss. */
    function GetOr(default: T): T
    {
      match this
      case Some(v) => v
      case None => default
    }
  }

  datatype Result<+T, +E> = Success(value: T) | Failure(error: E)
}
